=== FILE: README.md ===
# Full-Stack Todo Application: a Dafny model of its core

This project models three programs and proves properties about them:

- **The browser client** (Next.js / TypeScript):
  - the HTTP layer `frontend/lib/api.ts`: one generic `request`, its 401/404/error/204/JSON classification, the token-bearing headers, `localStorage` and the endpoint wrappers;
  - the session helpers `frontend/lib/auth.ts`;
  - four components: the task list (`TaskList.tsx`), the create/edit form (`TaskForm.tsx`), and the registration and login forms.
- **The FastAPI backend**:
  - the task router `/api/{user_id}/tasks` over a `tasks` table;
  - the auth router `/api/auth` (register, login) over a `users` table;
  - the pydantic request and response schemas of both;
  - the `get_current_user` dependency, which authenticates every task request.
- **The console application** `src/todo.py`: an in-memory to-do list driven by lines of standard input.

The model also proves cross-component properties (module `Interop`). These check what the client sends against what the server reads, and what the server answers against what the client shows.

Everything that is not in the code is an input or an output:

- **Foreign libraries.** bcrypt, python-jose, Python's `uuid` and pydantic's `EmailStr` are the record `Backend.Libs`. Its functions are uninterpreted. The ghost predicate `Backend.Lawful` states only the laws the code relies on: a password checks against its own hash, a token decodes to its claims until its expiry, and a rendered UUID parses back.
- **Random draws and the clock.** The bcrypt salt, the `uuid4` draw and the clock (`now`) are parameters.
- **The network.** What `fetch` returns is a parameter (`Api.FetchResult`).
- **Where the client runs.** The browser or server-side rendering, and `NEXT_PUBLIC_API_URL`, form `ClientStorage.Env`.
- **Navigation and printing.** Navigation through `window.location` and `router.push` is an output. What a console command prints is a list of events, one per message; the section headers, the start-up banner and the input prompts are not events.

Modules and files:

| file | module | models |
|---|---|---|
| `common.dfy`, `text.dfy`, `js.dfy` | `Common`, `Text`, `Js` | shared vocabulary: `Option`, JavaScript and Python white space and trimming, ASCII `lower()`, decimal rendering, Python's `int()`, `str.replace`, JSON-shaped JavaScript values, truthiness, property reads, `String(v)`, `JSON.stringify` of flat objects |
| `client_storage.dfy` | `ClientStorage` | the `auth_token` and `user_id` entries of `localStorage` |
| `api.dfy` | `Api` | `request` and the endpoint wrappers |
| `session_manager.dfy` | `SessionManager` | `auth.ts` |
| `task_list_view.dfy`, `task_form.dfy`, `register_form.dfy`, `login_form.dfy` | `TaskListView`, `TaskForm`, `RegisterForm`, `LoginForm` | the four components |
| `backend.dfy` | `Backend` | replies, FastAPI's 422 body, pydantic's field coercions, the foreign libraries |
| `task_schemas.dfy`, `auth_schemas.dfy` | `TaskSchemas`, `AuthSchemas` | the request and response schemas |
| `task_router.dfy`, `auth_router.dfy`, `deps.dfy` | `TaskRouter`, `AuthRouter`, `Deps` | the routers and `get_current_user` |
| `server.dfy` | `Server` | a task request with the dependency run first |
| `interop.dfy` | `Interop` | the client against the server |
| `console_todo.dfy` | `ConsoleTodo` | `src/todo.py` |

### Where the client and the server disagree

Each point below is stated in the files of the repository itself and proved as a lemma.

- **The user id after registration.** The server's `RegisterResponse` names the new account `id` (`backend/src/schemas/auth.py:16-21`). The client's `RegisterResponse` expects `user_id` (`frontend/lib/types.ts:26-29`), and `register` reads `response.user_id` (`frontend/lib/auth.ts:27`). So the `userId` that `register` reports is `undefined` (`Interop.RegistrationLosesUserId`).
- **A wrong password at login.** The server answers 401 (`backend/src/routers/auth.py:105-109`). The client's `request` treats every 401 as an expired session (`frontend/lib/api.ts:67-73`): it clears storage and redirects with `error=session_expired`. The login form then shows the expired-session banner instead of `Invalid email or password` (`Interop.WrongPasswordLooksExpired`).
- **Password length.** The registration form counts UTF-16 code units (`password.length < 8`, `frontend/components/RegisterForm.tsx:39`). The server counts characters (`min_length=8`, `backend/src/schemas/auth.py:13`). A password of four characters outside the Basic Multilingual Plane passes the form and is refused by the server (`Interop.PasswordLengthDisagrees`).
- **Validation errors.** FastAPI's 422 `detail` is a list of objects, one per failing field. The client passes it to `new Error(...)` (`frontend/lib/api.ts:85`), which gives the message `[object Object]` once per failing field, comma-separated. No field name or reason survives (`Interop.ValidationErrorUnreadable`).

### Other behaviour the code fixes

Each point names the member whose contract states it.

- **Failures inside `request`.** A failed `fetch` rejects with a `TypeError`, and an unparseable 2xx body with a `SyntaxError`. Both are `Error` instances, so the `catch` at `frontend/lib/api.ts:94-99` passes them on unchanged. The generic `Network request failed` message is used only for values that are not `Error` instances (`Api.Request`).
- **An optional description on update.** `TaskUpdateRequest.description` defaults to `None` (`backend/src/schemas/tasks.py:22`), so a full update may leave it out (`TaskSchemas.DecodeUpdate`).
- **A session needs both values.** `isAuthenticated` requires a stored token and a non-empty user id (`frontend/lib/auth.ts:8-13`), so a login that stores an empty id does not authenticate (`SessionManager.IsAuthenticated`).

## Model

| member | source | states |
|---|---|---|
| Api.RequestHeaders | frontend/lib/api.ts:53-58 | JSON content type unless the caller overrides it; `Authorization: Bearer <token>` exactly when a non-empty token is stored; caller headers win on conflicts |
| Api.Request | frontend/lib/api.ts:49-100 | the URL is base + endpoint with the stored token; only `Error` instances are thrown; storage and navigation change only on a 401, which clears both keys and redirects to `/login?error=session_expired`; 404, other non-2xx and 204 each give their fixed outcome; any other 2xx returns the parsed body, or throws the parser's error when the body is not JSON; a rejected `fetch` rethrows an `Error` unchanged and anything else as `Network request failed. Please try again.`, touching neither storage nor navigation; success implies a 2xx |
| Api.StatusBeforeBody | frontend/lib/api.ts:66-91 | for 401, 404 and 204 the outcome does not depend on the response body |
| Api.ErrorDetailMessage | frontend/lib/api.ts:80-86 | a non-empty string `detail` is the error message; an unparseable body or a falsy/missing `detail` gives `API Error: <statusText>` |
| Api.ListDetailMessage | frontend/lib/api.ts:80-86 | a 422 whose `detail` is a list of n objects (FastAPI's shape) reaches the caller as `[object Object]` repeated n times, comma-separated, whatever the objects hold |
| Api.RequestKeepsPairing | frontend/lib/api.ts:29-34 | a request never leaves a token without a user id or vice versa: storage is untouched or both keys are removed |
| Api.RouteInjective | frontend/lib/api.ts:139-193 | two different task operations of one user never produce the same method and path |
| Api.TaskRequest | frontend/lib/api.ts:139-193 | every task wrapper sends its operation's verb and path, the payload as `JSON.stringify` writes it, and redirects only to the expired-session page |
| Api.LoginStoresPair | frontend/lib/api.ts:112-126 | a well-formed login response stores token and user id together in a browser and is returned unchanged |
| Api.LoginWritesOnlyOnToken | frontend/lib/api.ts:119-123 | `loginUser` writes storage only after a successful request with a truthy `access_token` |
| Api.LoginWithoutUserBreaksPairing | frontend/lib/api.ts:119-123 | a 200 with a token but no `user` stores the token alone and fails reading `user.id` |
| Api.ListTasksUnwraps | frontend/lib/api.ts:139-142 | `listTasks` GETs the user's collection and returns exactly the `tasks` array, in the server's order |
| Api.ToggleTaskComplete | frontend/lib/api.ts:182-186 | the toggle first GETs the task, then PATCHes the same URL with `completed` negated, and sends the PATCH only if the read succeeded; a failed read ends it with that read's error, storage and redirect, otherwise it settles as the PATCH does, sent from the storage the read left |
| Api.ToggleNegates | frontend/lib/api.ts:182-186 | a fetched `completed: b` is patched to `!b` |
| ClientStorage.StorageLaws | frontend/lib/api.ts:18-46 | in a browser the two keys act as independent cells and removal clears both; without a window every read is `null` and writes do nothing |
| SessionManager.Register | frontend/lib/auth.ts:21-35 | storage and navigation are exactly what the request left, so unchanged except when a 401 clears storage and redirects; success exactly when the request returned a non-nullish body, and then `message` and `userId` are the body's `message` and `user_id`; a thrown `Error` gives its message and anything else `Registration failed` |
| SessionManager.Login | frontend/lib/auth.ts:38-52 | storage and navigation are what `loginUser` left; success exactly when the request succeeded and `response.user.id` could be read, with the fixed `Login successful` message and that id as `userId`; a thrown `Error` gives its message and anything else `Login failed` |
| SessionManager.IsAuthenticated | frontend/lib/auth.ts:8-13 | a session holds exactly when both stored values are non-empty in a browser, so both getters then return non-empty values |
| SessionManager.RequireAuth | frontend/lib/auth.ts:60-66 | redirects to `/login` exactly when a browser holds no session |
| SessionManager.LoginAuthenticates | frontend/lib/auth.ts:38-52 | a well-formed login leaves the browser authenticated as the returned user, with the returned token |
| SessionManager.LogoutEndsSession | frontend/lib/auth.ts:55-57 | after logout no session remains and `requireAuth` redirects to the login page |
| SessionManager.RegisterNeverAuthenticates | frontend/lib/auth.ts:21-35 | registering never creates a session, whatever the server answers |
| SessionManager.RegisterUserIdIsUndefined | frontend/lib/auth.ts:21-35 | against the server's `{id, email, message}` answer, registration succeeds with `userId` undefined |
| SessionManager.LoginFailureIsErrorMessage | frontend/lib/auth.ts:38-52 | a failed login always reports the thrown error's own message, never the `Login failed` fallback |
| TaskListView.LoadTasks | frontend/components/TaskList.tsx:16-36 | loading ends; without a stored user no request is made, storage is untouched, nothing navigates and the error is `User not authenticated`; otherwise one GET of the user's list, whose storage and navigation effects are passed on; an array is shown as the list, any other value gives `Invalid response from server`, and a thrown `Error` shows its message (anything else `Failed to load tasks`); the list changes only on a 2xx |
| TaskListView.LoadShowsServerList | frontend/components/TaskList.tsx:16-36 | a first load that receives `{tasks}` shows exactly those tasks, without error, after one GET of the user's collection |
| TaskListView.LoadRejectsNonArray | frontend/components/TaskList.tsx:24-29 | a 2xx whose `tasks` is not an array is reported as `Invalid response from server` |
| TaskListView.ReplaceById | frontend/components/TaskList.tsx:42-46 | the update reducer keeps the length and throws exactly when an entry, or the update once there is an entry, is nullish |
| TaskListView.ReplaceByIdExact | frontend/components/TaskList.tsx:42-46 | over task objects it replaces exactly the entries whose id is `===` to the update's and keeps every other entry in place |
| TaskListView.ReplaceByIdIdempotent | frontend/components/TaskList.tsx:42-46 | applying the same update twice equals applying it once |
| TaskListView.DeleteById | frontend/components/TaskList.tsx:48-50 | the delete reducer keeps only entries of the list whose id is not `===` to the deleted id |
| TaskListView.DeleteByIdIsKept | frontend/components/TaskList.tsx:48-50 | the delete reducer equals the exception-free filter `Kept` |
| TaskListView.KeptExact | frontend/components/TaskList.tsx:48-50 | after a delete, an entry remains exactly when it was present and has a different id |
| TaskListView.KeptAppend | frontend/components/TaskList.tsx:48-50 | deleting from a concatenation deletes from each part |
| TaskListView.DeleteAfterReplace | frontend/components/TaskList.tsx:42-50 | deleting a task after an update with its id is the same as deleting it outright |
| TaskListView.Render | frontend/components/TaskList.tsx:52-79 | spinner while loading, else the error box, else the empty state, else the items; exactly one view applies |
| TaskForm.InitialFields | frontend/components/TaskForm.tsx:20-30 | the fields start empty when creating and as the task's title and description (empty when null) when editing |
| TaskForm.UpdatePayload | frontend/components/TaskForm.tsx:46-51 | an edit sends the trimmed title, the trimmed description or `null`, and the task's unchanged `completed` |
| TaskForm.CreatePayload | frontend/components/TaskForm.tsx:53-57 | a create sends the trimmed title and the trimmed description, or `undefined` when it is blank |
| TaskForm.HandleSubmit | frontend/components/TaskForm.tsx:32-66 | no request without a stored user; PUT exactly in edit mode, POST otherwise; storage is what the save request left; the error is `Failed to save task` exactly when that request threw, which calls nothing and keeps the request's own redirect; a normal result shows no error and calls `onSuccess`, or goes home without one |
| TaskForm.CreateBodyOmitsEmptyDescription | frontend/components/TaskForm.tsx:53-57 | the create request has a `description` key exactly when the description is not all white space |
| TaskForm.EditBodyIsComplete | frontend/components/TaskForm.tsx:42-51 | the edit request goes to the task's own path with all three fields |
| TaskForm.BlankDescriptionIsNull | frontend/components/TaskForm.tsx:46-51 | an all-blank description is sent as `null` and any other one trimmed |
| TaskForm.UnchangedEditRoundTrip | frontend/components/TaskForm.tsx:20-51 | saving an edit form left as loaded sends the task's own values back (for values without surrounding white space) |
| TaskForm.TrimmedJsFixed | frontend/components/TaskForm.tsx:47 | a string without surrounding white space is its own `trim()` |
| RegisterForm.ValidateEmail | frontend/components/RegisterForm.tsx:23-26 | the scanning check accepts exactly the strings matching `^[^\s@]+@[^\s@]+\.[^\s@]+$` |
| RegisterForm.EmailExamples | frontend/components/RegisterForm.tsx:23-26 | `ab@cd.ef` matches; `a b@cd.ef` and `ab@cd.` do not |
| RegisterForm.ValidateForm | frontend/components/RegisterForm.tsx:28-51 | each field has an error exactly when its check fails, with the message of the first failing check |
| RegisterForm.FormValidIff | frontend/components/RegisterForm.tsx:28-51 | the form is valid exactly when the e-mail matches, the password has at least 8 UTF-16 units and the confirmation equals it |
| RegisterForm.HandleSubmit | frontend/components/RegisterForm.tsx:53-74 | `register` is called exactly for a valid form, and storage and the API layer's redirect are then what `register` left; success goes to the login page with the registration message; failure shows the returned reason |
| LoginForm.InitialBanners | frontend/components/LoginForm.tsx:23-31 | the success banner is the `message` query value itself (empty when absent); `error=session_expired`, and only that, sets the expired-session banner |
| LoginForm.QueryGetSingle | frontend/components/LoginForm.tsx:24-27 | a one-pair query `name=value` gives `value` for `name` and nothing for other keys |
| LoginForm.OnePairBanners | frontend/components/LoginForm.tsx:23-31 | a URL carrying one pair opens with the banners that pair selects |
| LoginForm.ExpiredRedirectShowsBanner | frontend/components/LoginForm.tsx:27-30 | the page the 401 redirect reaches shows the expired-session banner and no success message |
| LoginForm.RegisteredRedirectShowsMessage | frontend/components/LoginForm.tsx:24-25 | the page registration redirects to shows the registration message and no error |
| LoginForm.ValidateForm | frontend/components/LoginForm.tsx:33-41 | only emptiness is checked: an error for a field exactly when it is empty |
| LoginForm.HandleSubmit | frontend/components/LoginForm.tsx:43-65 | both banners are cleared; `login` is called exactly when both fields are non-empty, and storage and the API layer's redirect are then what `login` left; success goes home, failure shows the reason |
| LoginForm.LoginSubmitAuthenticates | frontend/components/LoginForm.tsx:43-65 | submitting credentials the server accepts lands on the home page with a session for the returned user |
| Backend.LaxBool | backend/src/schemas/tasks.py:23 | booleans pass, the numbers 0 and 1 mean false and true, other numbers and nullish, array or object values fail |
| Backend.OptStrField | backend/src/schemas/tasks.py:15 | a missing or `null` optional string is `None`; a string within the length bound is kept; anything else fails |
| Backend.Failing | backend/src/schemas/tasks.py:11-29 | one location per failing field and none for a passing one, in the order of the fields (position j names the j-th failing field of `FailedAt`, the increasing list of exactly the failing positions); empty only when every field passed |
| Backend.FailedAt | backend/src/schemas/tasks.py:11-29 | the failing positions of the fields, strictly increasing, each one failing and every failing one listed; empty exactly when every field passed |
| Backend.OnlyFailure | backend/src/schemas/tasks.py:11-29 | when exactly one field fails, its location is the whole report |
| Backend.FailingComplete | backend/src/schemas/tasks.py:11-29 | every failing field is reported |
| Backend.Validated | backend/src/routers/tasks.py:71-119 | a request is valid only when both the path parameter and the body are; otherwise path problems come before body problems |
| TaskSchemas.DecodeCreate | backend/src/schemas/tasks.py:11-15 | accepts exactly an object with a 1-200 character string title and an absent, `null` or at most 1000 character description, and reads those values |
| TaskSchemas.DecodeUpdate | backend/src/schemas/tasks.py:18-23 | as create, plus a required lax boolean `completed` |
| TaskSchemas.DecodePatch | backend/src/schemas/tasks.py:26-29 | accepts exactly an object with a lax boolean `completed` |
| TaskSchemas.CreateRoundTrip | backend/src/schemas/tasks.py:11-15 | a create request written as JSON decodes back to itself exactly when its fields are within bounds |
| TaskSchemas.UpdateRoundTrip | backend/src/schemas/tasks.py:18-23 | an update request written as JSON decodes back to itself exactly when its fields are within bounds |
| TaskSchemas.PatchRoundTrip | backend/src/schemas/tasks.py:26-29 | a patch request written as JSON decodes back to itself |
| TaskSchemas.UpdateNeedsCompleted | backend/src/schemas/tasks.py:18-23 | an update without `completed` is refused at that field alone |
| TaskSchemas.TaskListJson | backend/src/schemas/tasks.py:47-50 | the list response has the single key `tasks` holding each task's JSON, in order |
| AuthSchemas.DecodeRegister | backend/src/schemas/auth.py:9-13 | accepts exactly an object with a valid e-mail and a password of at least 8 characters; the e-mail is the normalised one |
| AuthSchemas.DecodeLogin | backend/src/schemas/auth.py:24-28 | accepts exactly an object with a valid e-mail and any string password |
| AuthSchemas.LoginAcceptsWhatRegisterAccepts | backend/src/schemas/auth.py:9-28 | every registration body is a login body with the same e-mail and password |
| AuthSchemas.ShortPasswordOnlyAtLogin | backend/src/schemas/auth.py:9-28 | every password shorter than 8 characters is refused at registration, at `password` only, and accepted at login |
| AuthSchemas.RegisterResponseJson | backend/src/schemas/auth.py:16-21 | the registration answer has exactly the keys `id`, `email`, `message` |
| AuthSchemas.AuthResponseJson | backend/src/schemas/auth.py:31-36 | the login answer has exactly `access_token`, `token_type` and `user` |
| AuthRouter.FindByEmail | backend/src/routers/auth.py:46-48 | finds a row exactly when some row has the address, and the row it finds has it |
| AuthRouter.Find | backend/src/routers/auth.py:46-48 | the first row in table order that the address or id selects: found exactly when some row matches, and the row found matches |
| AuthRouter.FindById | backend/src/utils/deps.py:81 | finds a row exactly when some row has the id, and the row it finds has it |
| AuthRouter.Register | backend/src/routers/auth.py:18-68 | 422 exactly for an invalid body; 409 `An account with this email already exists` exactly for a taken address; 201 exactly for a valid body with a free address and a free drawn id, adding one row holding the bcrypt hash of the password; 500 exactly when the drawn id is taken; distinct ids and addresses are kept |
| AuthRouter.Login | backend/src/routers/auth.py:71-134 | 422 for an invalid body; 401 `Invalid email or password` exactly for an unknown address or wrong password; a cookie exactly on 200, carrying the same token as the body, which names the user and expires after the configured days |
| AuthRouter.UniformLoginFailure | backend/src/routers/auth.py:104-109 | an unknown address and a wrong password give the same reply and no cookie |
| AuthRouter.NoDuplicateRegistration | backend/src/routers/auth.py:46-54 | once an address is registered, registering it again is a 409 that changes nothing |
| AuthRouter.RegisterThenLogin | backend/src/routers/auth.py:18-134 | a fresh registration can log in with the same body and gets a token naming the new id |
| AuthRouter.FindByEmailAppend | backend/src/routers/auth.py:46-48 | appending a row keeps an existing lookup result, and makes an absent address find the new row |
| AuthRouter.FindAppend | backend/src/routers/auth.py:46-48 | for either key, appending a row keeps an existing lookup result, and makes an absent key find the new row when it matches |
| Deps.ExtractToken | backend/src/utils/deps.py:46-51 | a header starting with `Bearer ` wins, with every `Bearer ` removed; otherwise a non-empty cookie; otherwise none |
| Deps.GetCurrentUser | backend/src/utils/deps.py:15-89 | every failure is a 401 with one of three messages; `Not authenticated` exactly when no non-empty token; success exactly when the token decodes to a `sub` UUID of an existing user, who is returned |
| Deps.HeaderWins | backend/src/utils/deps.py:48-49 | `Bearer <t>` yields `t` whatever the cookie holds |
| Deps.DoubledPrefixAccepted | backend/src/utils/deps.py:48-49 | `Bearer Bearer <t>` is accepted too, because every occurrence is removed |
| Deps.OtherSchemeUsesCookie | backend/src/utils/deps.py:48-51 | a header of another scheme is ignored and the cookie used |
| Deps.BareBearerHidesCookie | backend/src/utils/deps.py:48-58 | a bare `Bearer ` header is `Not authenticated` even with a valid cookie |
| Deps.FindByIdOfMember | backend/src/utils/deps.py:81 | under distinct ids, the lookup by id finds exactly the member |
| Deps.LoginTokenAuthenticates | backend/src/utils/deps.py:15-89 | the token login issues authenticates its user, as header or cookie, until it expires |
| Deps.ExpiredTokenRefused | backend/src/utils/deps.py:60-79 | after its expiry the same token is refused as invalid credentials |
| TaskRouter.Owned | backend/src/routers/tasks.py:141-145 | finds a task exactly when the id exists and belongs to the caller |
| TaskRouter.CreateTask | backend/src/routers/tasks.py:71-119 | 422 for a bad user id or body; 404 for another user's URL; 201 adds one row with the next id, owned by the caller, not completed, both times `now`; other users' rows untouched; the table invariant is kept |
| TaskRouter.OwnedNewestFirst | backend/src/routers/tasks.py:61-66 | lists exactly the caller's rows, each once, newest first |
| TaskRouter.Insert | backend/src/routers/tasks.py:65 | insertion adds exactly the one task |
| TaskRouter.InsertKeepsOrder | backend/src/routers/tasks.py:65 | inserting keeps a list newest first |
| TaskRouter.InsertKeepsDistinct | backend/src/routers/tasks.py:65 | inserting a task with a new id keeps ids distinct |
| TaskRouter.ListTasks | backend/src/routers/tasks.py:25-68 | 422 for a malformed user id; 404 for another user's URL; otherwise 200 with exactly the caller's tasks, newest first |
| TaskRouter.GetTask | backend/src/routers/tasks.py:122-165 | read-only; 200 with the row exactly when the URL names the caller and the task is theirs; otherwise 404 or 422 |
| TaskRouter.UpdateTask | backend/src/routers/tasks.py:168-228 | on 200 title, description and completed come from the body, `updated_at` is `now`, and id, owner and `created_at` are kept; nothing changes otherwise; other users' rows are untouched |
| TaskRouter.PatchTask | backend/src/routers/tasks.py:231-289 | on 200 only `completed` and `updated_at` change; nothing changes otherwise; other users' rows are untouched |
| TaskRouter.DeleteTask | backend/src/routers/tasks.py:292-343 | 204 with no body removes exactly the row; nothing changes otherwise; other users' rows are untouched |
| TaskRouter.MissingLooksLikeForeign | backend/src/routers/tasks.py:141-165 | a missing task and another user's task get the same reply from get, update, patch and delete |
| TaskRouter.CreateThenGet | backend/src/routers/tasks.py:71-165 | a created task reads back at once with the same body |
| TaskRouter.DeleteThenGet | backend/src/routers/tasks.py:122-343 | a deleted task reads back as 404 |
| TaskRouter.PatchTwice | backend/src/routers/tasks.py:231-289 | repeating a patch succeeds and changes only `updated_at` |
| TaskRouter.UpdateWithSameValues | backend/src/routers/tasks.py:168-228 | an update with the task's own values changes only `updated_at` |
| Server.Handle | backend/src/routers/tasks.py:25-343 | every handler keeps the table valid and other users' rows untouched; 404 and 422 change nothing; list and get never write |
| Server.ServeTask | backend/src/utils/deps.py:15-89 | a task request is 401 exactly when the dependency rejects it, and then nothing changes, before any validation |
| Server.Anonymous | backend/src/utils/deps.py:53-58 | a request without credentials is `Not authenticated` and changes nothing |
| Interop.Delivered | frontend/lib/api.ts:89-93 | a server reply reaches `fetch` with its status; JSON bodies parse and empty or plain-text bodies do not |
| Interop.CredentialsOnTheWire | frontend/lib/api.ts:105-126 | the client's register and login send the JSON body the auth endpoints read, to their paths |
| Interop.DuplicateEmailShown | backend/src/routers/auth.py:50-54 | a taken address makes the client's `register` fail with the server's own message, storage unchanged |
| Interop.RegistrationLosesUserId | backend/src/schemas/auth.py:16-21 | a successful registration reports the server's message but an undefined user id |
| Interop.ServerLoginSignsIn | backend/src/routers/auth.py:130-134 | a server login of 200 stores exactly the issued token and the user's id, and the client reports that user |
| Interop.SignedInRequestsAuthenticate | frontend/lib/api.ts:53-58 | after that login every request carries a header the backend accepts as that user until the token expires |
| Interop.WrongPasswordLooksExpired | frontend/lib/api.ts:66-73 | a wrong password clears storage, redirects with the expired-session banner and reports `Session expired` |
| Interop.RejectedRequestEndsSession | frontend/lib/api.ts:66-73 | every 401 of the dependency ends the browser session |
| Interop.PasswordLengthDisagrees | frontend/components/RegisterForm.tsx:39-41 | four astral characters pass the form and are refused by the server at `password` |
| Interop.ValidationErrorUnreadable | frontend/lib/api.ts:80-86 | every FastAPI 422 with n failing fields reaches the caller as `[object Object]` repeated n times, comma-separated; the message is exactly `[object Object]` only when one field failed |
| Interop.CreateFormAccepted | frontend/components/TaskForm.tsx:53-57 | the create form's body decodes on the server to the trimmed title and the trimmed description or none |
| Interop.EditFormAccepted | frontend/components/TaskForm.tsx:46-51 | the edit form's body decodes on the server, keeping the task's `completed` |
| Interop.EditPayloadDecodes | backend/src/schemas/tasks.py:18-23 | the edit payload decodes exactly when the trimmed fields are within bounds |
| Interop.ToggleFlipsServerState | frontend/lib/api.ts:182-186 | after reading a task the server returned, the toggle sends a PATCH that the server decodes as the opposite `completed` |
| Interop.ListShowsServerOrder | frontend/lib/api.ts:139-142 | `listTasks` returns the server's task list item for item, in the server's order |
| Text.TrimUnique | frontend/components/TaskForm.tsx:47 | the trimmed string is the unique core between leading and trailing white space |
| Text.TrimIdempotent | src/todo.py:202 | stripping twice is the same as stripping once |
| Text.TrimEmptyIff | frontend/components/TaskForm.tsx:48 | the trimmed string is empty exactly when every character is white space |
| Text.RemoveAllAbsent | backend/src/utils/deps.py:49 | `replace` changes nothing without an occurrence |
| Text.DecimalInjective | frontend/lib/api.ts:145-193 | distinct ids render as distinct path segments |
| Text.ParseRendered | src/todo.py:113 | `int(str(n)) == n` for every `n` of at most 4300 digits |
| Text.TooManyDigitsRefused | src/todo.py:113 | a run of more than 4300 digits is a `ValueError`, whatever its value |
| Js.PropThrowsOnlyOnNullish | frontend/lib/api.ts:120-122 | a property read throws exactly on `null` or `undefined`, with an `Error` |
| Js.WireObject | frontend/lib/api.ts:150-155 | `JSON.stringify` keeps exactly the members that are not `undefined`, with their values |
| Js.StringOfObjectList | frontend/lib/api.ts:85 | `String` of an array of n plain objects is `[object Object]` n times, comma-separated |
| Js.ObjectListTextSingle | frontend/lib/api.ts:85 | the text of n objects is exactly `[object Object]` only when n is 1 |
| Js.Utf16Length | frontend/components/RegisterForm.tsx:39 | `length` lies between the number of characters and twice that |
| ConsoleTodo.FindTaskById | src/todo.py:56-61 | finds a task exactly when one has the id, and the found task has it |
| ConsoleTodo.RemoveFound | src/todo.py:145 | `remove` of the found task drops exactly the found position |
| ConsoleTodo.AddTask | src/todo.py:63-84 | empty titles are asked again; the new task has the counter as id, the first line not blank after `strip()` as title and the next line, or `No description` when it is blank, as description, both stripped; the counter advances; end of input changes nothing, and reports one empty title per blank line read before it, none for a title already accepted |
| ConsoleTodo.ListTasks | src/todo.py:86-106 | the list reads nothing and shows the empty notice or every task in order |
| ConsoleTodo.ReadTask | src/todo.py:108-170 | a task is found exactly when the id line, as typed and not stripped, parses as an integer (at most 4300 digits, and only `int()`'s own white space around it) that is an id present; otherwise `Invalid ID`, `No task found` or end of input, nothing changed |
| ConsoleTodo.UpdateTask | src/todo.py:108-133 | the found task's title and description are shown first (also when input then ends); a new title or description blank after `strip()` keeps the old one; only the found task changes |
| ConsoleTodo.DeleteTask | src/todo.py:135-151 | exactly the found task is removed, order kept |
| ConsoleTodo.ToggleComplete | src/todo.py:153-170 | only the found task's completion flips |
| ConsoleTodo.ParseCommand | src/todo.py:202-222 | each command is chosen exactly by its aliases in lower case; an empty line is skipped; anything else is reported as unknown |
| ConsoleTodo.Session | src/todo.py:200-229 | the loop prints exactly one goodbye, last (on `quit` or end of input); the counter never decreases; every announced id was handed out in the session |
| ConsoleTodo.Run | src/todo.py:20-21 | from the empty list with counter 1, the final state keeps ids positive, below the counter and increasing |
| ConsoleTodo.SessionKeepsValid | src/todo.py:200-229 | every command keeps ids positive, below the counter and increasing |
| ConsoleTodo.DropKeepsValid | src/todo.py:145 | removing one task keeps ids increasing |
| ConsoleTodo.AddedIdIsFresh | src/todo.py:76-84 | a new id is above every existing id and finds the new task |
| ConsoleTodo.DeletedIdNotReused | src/todo.py:84 | no later add in the session reuses a deleted id |
| ConsoleTodo.DeleteRemovesId | src/todo.py:135-151 | after a delete the id is not found any more |
| ConsoleTodo.ToggleTwice | src/todo.py:153-170 | toggling the same id twice restores the list |
| ConsoleTodo.UnknownIdChangesNothing | src/todo.py:108-170 | update, delete and toggle leave the list alone for an absent id (written within the digit limit) and report it |
| ConsoleTodo.NonNumberRefused | src/todo.py:132-133 | a line that is not an integer is refused without reading further |
| ConsoleTodo.LongIdRefused | src/todo.py:132-133 | an id line of more than 4300 digits gives `Invalid ID` for update, delete and toggle, even when its value is an id present |
| ConsoleTodo.IntOfStripped | src/todo.py:113 | on a line without the ASCII separators U+001C to U+001F, `int` gives the same result on the line and its stripped form |
| ConsoleTodo.SeparatorNotSkipped | src/todo.py:113 | `int("1\x1f")` is a `ValueError` although `"1\x1f".strip()` is `1`, so that id line gives `Invalid ID` |
| ConsoleTodo.NormalizeIdempotent | src/todo.py:202 | stripping and lower-casing a command line is idempotent and does not change the command chosen |

## Left out

- **Outside the model.** Rendering, styling and layout of the React components, and the ANSI colours and table layout the console prints. The console prints events instead of text; the section headers of `print_header`, the start-up banner (`src/todo.py:189-198`) and the input prompts have no event.
- **Other files.** Pages and components outside the four modelled ones: `TaskItem`, `DeleteConfirmModal`, the app pages, `error.tsx`. Also `main.py` (health and root routes, CORS), the database engine and the SQL models, which are taken as the table shapes used here.
- **`security.py`.** bcrypt and python-jose are uninterpreted functions, with only the laws stated in `Backend.Lawful`.
- **Concurrency and timing.** There is no concurrency: each request runs alone, and React state updates happen at once. `toggleTaskComplete` reads and then patches; another change between the two requests is not modelled, so `Interop.ToggleFlipsServerState` speaks only of the PATCH it sends.
- **Server-side failures.** The unique-email database race, cascade deletes, and database failures. A `uuid4` collision is modelled as the 500 the failed insert produces.
- **The `task_id` path parameter.** It is an integer in the model; a non-integer segment, which FastAPI refuses with 422 before the handler, is left out.
- **`UUID` parsing.** The pydantic `UUID` path parameter and `UUID(text)` in `get_current_user` are one uninterpreted parser.
- **Response details.** The `WWW-Authenticate` header of the 401s is not modelled. Of each 422 entry only `loc` is modelled (not `msg`, `type`, `input`).
- **Malformed JSON request bodies.** The parse error FastAPI reports is left out; bodies are JSON values.
- **Numbers.** JavaScript numbers are integers and floating point is left out.
- **Query strings.** Percent-decoding in `URLSearchParams` is left out. The modelled URLs contain no `%`, but the registration message does contain spaces, kept as they are.
- **Case and digits.** Python's `str.lower()` is modelled for ASCII letters only, and `int()` for ASCII digits only. Non-ASCII case mappings and Unicode digits are left out. The white space `int()` skips is modelled exactly: the C locale's ASCII white space and every non-ASCII white-space character, but not U+001C to U+001F. The 4300-digit limit of `int()` (Python 3.11 and later) is modelled; older interpreters accept longer id lines.
- **`LaxBool`.** Only the ASCII-case-insensitive word forms pydantic accepts are modelled.
- **Console interrupts.** `KeyboardInterrupt` (Ctrl-C) in the console is left out; end of input is modelled.
- **`show_help`** is one event; its text is not modelled.
- **`ConsoleTodo.UpdateTask`** uses the new description as read: the `new_desc or "No description"` at `src/todo.py:128` is only reached when `new_desc` is non-empty, so the fallback never applies.
- **`TaskForm.InitialFields`** folds the edit form's `useEffect` (`TaskForm.tsx:25-30`), which re-reads the task on prop change, into the initial values.
- **`TaskRouter.OwnedNewestFirst`** fixes one order for tasks with equal `created_at` (oldest id first); the query leaves that order to the database.
- **`TaskRouter.CreateTask`** uses one clock reading for `created_at` and `updated_at`. The two `default_factory=datetime.utcnow` fields of `backend/src/models/task.py:36-37` read the clock twice, microseconds apart.
- **`AuthSchemas.EmailField`** uses pydantic's `EmailStr` as an uninterpreted normaliser, and the database's maximum e-mail length is left out.

=== FILE: api.dfy ===
/**
 * The client's HTTP layer: one generic `request` that attaches the stored
 * bearer token, sends one request, and classifies the response in a fixed
 * priority order (401, 404, other non-2xx, 204, JSON), plus the typed
 * endpoint wrappers built on it. The network is an input (`FetchResult`);
 * navigation through `window.location` is an output (`nav`).
 */
module Api {
  import opened Common
  import opened Text
  import opened Js
  import opened ClientStorage

  const DefaultBaseUrl := "http://localhost:8000"
  const SessionExpiredMessage := "Session expired. Please log in again."
  const NotFoundMessage := "Resource not found"
  const NetworkFailedMessage := "Network request failed. Please try again."
  const LoginUrl := "/login"
  /** `/login?error=session_expired` */
  const SessionExpiredUrl := LoginUrl + "?" + "error" + "=" + "session_expired"

  /** `NEXT_PUBLIC_API_URL || 'http://localhost:8000'`: an empty setting falls back too. */
  function BaseUrl(env: Env): string {
    if env.apiUrl.Some? && env.apiUrl.value != "" then env.apiUrl.value else DefaultBaseUrl
  }

  datatype Method = GET | POST | PUT | PATCH | DELETE

  type Headers = map<string, string>

  /** The request handed to `fetch`; `body` is the JSON text as an object. */
  datatype Outgoing = Outgoing(url: string, verb: Method, headers: Headers, body: Option<map<string, JsValue>>)

  /** A response body as `response.json()` sees it. */
  datatype Body = Parsed(json: JsValue) | Unparseable(syntaxError: string)

  /** What `fetch` produced: a response, or a rejection (in browsers a
      `TypeError`, which is an `Error` instance). */
  datatype FetchResult =
    | Response(status: int, statusText: string, body: Body)
    | Failed(thrown: Thrown)

  /** One call of the client: the request sent, how the returned promise
      settles, the storage afterwards, and a navigation it triggered. */
  datatype Call = Call(sent: Outgoing, result: Completion<JsValue>, store: Store, nav: Option<string>)

  /** The stored token is sent only when it is a non-empty string. */
  predicate Presentable(token: Option<string>) {
    token.Some? && token.value != ""
  }

  /** `{'Content-Type': 'application/json', ...(token && {Authorization}), ...caller}`:
      later entries win. */
  function RequestHeaders(token: Option<string>, caller: Headers): (h: Headers)
    ensures h.Keys == {"Content-Type"} + caller.Keys + (if Presentable(token) then {"Authorization"} else {})
    ensures h["Content-Type"] == (if "Content-Type" in caller then caller["Content-Type"] else "application/json")
    ensures "Authorization" !in caller && Presentable(token) ==> h["Authorization"] == "Bearer " + token.value
    ensures forall k :: k in caller ==> h[k] == caller[k]
  {
    map["Content-Type" := "application/json"]
      + (if Presentable(token) then map["Authorization" := "Bearer " + token.value] else map[])
      + caller
  }

  /** The `catch` of `request`: an `Error` propagates unchanged, anything else
      becomes the generic network failure. */
  function Rethrow(t: Thrown): Thrown {
    if t.ErrorObject? then t else ErrorObject(NetworkFailedMessage)
  }

  /** The error for a non-2xx status other than 401 and 404: the body's
      `detail` if it is truthy (converted with `String`), otherwise
      `API Error: <statusText>`; a body that is JSON `null` makes the read of
      `detail` itself throw. */
  function ErrorResponseThrown(body: Body, statusText: string): Thrown {
    var fallback := "API Error: " + statusText;
    match body
    case Unparseable(_) => ErrorObject(fallback)
    case Parsed(v) =>
      match Prop(v, "detail")
      case Threw(t) => t
      case Normal(d) => ErrorObject(if Truthy(d) then ToJsString(d) else fallback)
  }

  predicate IsOk(status: int) {
    200 <= status <= 299
  }

  /** `request(endpoint, options)`. */
  function Request(env: Env, s: Store, endpoint: string, verb: Method, caller: Headers,
                   body: Option<map<string, JsValue>>, fetch: FetchResult): (c: Call)
    // outgoing request
    ensures c.sent == Outgoing(BaseUrl(env) + endpoint, verb, RequestHeaders(GetAuthToken(env, s), caller), body)
    // only Error instances reach the caller
    ensures c.result.Threw? ==> c.result.thrown.ErrorObject?
    // storage and navigation change only on a 401
    ensures c.store != s || c.nav.Some? ==> fetch.Response? && fetch.status == 401
    ensures fetch.Response? && fetch.status == 401 ==>
      && c.result == Threw(ErrorObject(SessionExpiredMessage))
      && c.store == RemoveAuthToken(env, s)
      && c.nav == (if env.hasWindow then Some(SessionExpiredUrl) else None)
    ensures fetch.Response? && fetch.status == 404 ==> c.result == Threw(ErrorObject(NotFoundMessage))
    ensures fetch.Response? && fetch.status == 204 ==> c.result == Normal(Obj(map[]))
    ensures fetch.Response? && fetch.status !in {401, 404} && !IsOk(fetch.status) ==>
      c.result == Threw(ErrorResponseThrown(fetch.body, fetch.statusText))
    ensures fetch.Response? && IsOk(fetch.status) && fetch.status != 204 ==>
      c.result == (if fetch.body.Parsed? then Normal(fetch.body.json) else Threw(ErrorObject(fetch.body.syntaxError)))
    // a rejected `fetch`: an Error unchanged, anything else as the generic failure
    ensures fetch.Failed? ==> c.result == Threw(Rethrow(fetch.thrown)) && c.store == s && c.nav.None?
    ensures fetch.Failed? && !fetch.thrown.ErrorObject? ==> c.result == Threw(ErrorObject(NetworkFailedMessage))
    ensures c.result.Normal? ==> fetch.Response? && IsOk(fetch.status)
  {
    var headers := RequestHeaders(GetAuthToken(env, s), caller);
    var sent := Outgoing(BaseUrl(env) + endpoint, verb, headers, body);
    match fetch
    case Failed(t) => Call(sent, Threw(Rethrow(t)), s, None)
    case Response(status, statusText, b) =>
      if status == 401 then
        Call(sent, Threw(ErrorObject(SessionExpiredMessage)), RemoveAuthToken(env, s),
             if env.hasWindow then Some(SessionExpiredUrl) else None)
      else if status == 404 then
        Call(sent, Threw(ErrorObject(NotFoundMessage)), s, None)
      else if !IsOk(status) then
        Call(sent, Threw(Rethrow(ErrorResponseThrown(b, statusText))), s, None)
      else if status == 204 then
        Call(sent, Normal(Obj(map[])), s, None)
      else
        // `return response.json()`: a parse failure rejects with the parser's SyntaxError
        match b
        case Parsed(v) => Call(sent, Normal(v), s, None)
        case Unparseable(m) => Call(sent, Threw(ErrorObject(m)), s, None)
  }

  /** 401, 404 and 204 are decided before the body is looked at: the call is
      the same whatever the body is. */
  lemma StatusBeforeBody(env: Env, s: Store, endpoint: string, verb: Method, caller: Headers,
                         body: Option<map<string, JsValue>>, status: int, text: string, b1: Body, b2: Body)
    requires status == 401 || status == 404 || status == 204
    ensures Request(env, s, endpoint, verb, caller, body, Response(status, text, b1))
         == Request(env, s, endpoint, verb, caller, body, Response(status, text, b2))
  {
  }

  /** A non-2xx error body `{"detail": x}` with non-empty string `x` fails with
      exactly `x`; an unparseable body, or one without a truthy `detail`,
      fails with `API Error: <statusText>`. */
  lemma ErrorDetailMessage(body: Body, text: string)
    ensures body.Parsed? && body.json.Obj? && "detail" in body.json.fields
      && body.json.fields["detail"].Str? && body.json.fields["detail"].s != ""
      ==> ErrorResponseThrown(body, text) == ErrorObject(body.json.fields["detail"].s)
    ensures body.Unparseable? ==> ErrorResponseThrown(body, text) == ErrorObject("API Error: " + text)
    ensures body.Parsed? && body.json.Obj?
      && ("detail" !in body.json.fields || !Truthy(body.json.fields["detail"]))
      ==> ErrorResponseThrown(body, text) == ErrorObject("API Error: " + text)
  {
  }

  /** An error body whose `detail` is a list fails with `String` of that list. */
  lemma ListDetailThrown(items: seq<JsValue>, text: string)
    ensures ErrorResponseThrown(Parsed(Obj(map["detail" := Arr(items)])), text) == ErrorObject(ToJsString(Arr(items)))
  {
  }

  /** A validation error whose `detail` is a list of objects (FastAPI's 422
      shape) reaches the caller as `[object Object]` once per entry,
      comma-separated: none of the entries' contents survives. */
  lemma ListDetailMessage(env: Env, s: Store, endpoint: string, verb: Method, caller: Headers,
                          body: Option<map<string, JsValue>>, items: seq<JsValue>, text: string)
    requires AllObjects(items)
    ensures Request(env, s, endpoint, verb, caller, body,
                    Response(422, text, Parsed(Obj(map["detail" := Arr(items)]))))
      .result == Threw(ErrorObject(ObjectListText(|items|)))
  {
    ListDetailThrown(items, text);
    StringOfObjectList(items);
  }

  /** Across one call the session pair stays paired: it is either untouched or
      cleared. */
  lemma RequestKeepsPairing(env: Env, s: Store, endpoint: string, verb: Method, caller: Headers,
                            body: Option<map<string, JsValue>>, fetch: FetchResult)
    requires Paired(s)
    ensures Paired(Request(env, s, endpoint, verb, caller, body, fetch).store)
  {
  }

  // ---------------------------------------------------------------------
  // Endpoints
  // ---------------------------------------------------------------------

  const RegisterPath := "/api/auth/register"
  const LoginPath := "/api/auth/login"

  /** The task operations of the client. */
  datatype TaskOp = ListOp | GetOp(id: int) | CreateOp | UpdateOp(id: int) | PatchOp(id: int) | DeleteOp(id: int)

  function TasksPath(userId: string): string {
    "/api/" + userId + "/tasks"
  }

  /** Method and path of each task operation: the collection for list and
      create, `/{taskId}` below it for the rest. */
  function Route(op: TaskOp, userId: string): (Method, string) {
    match op
    case ListOp => (GET, TasksPath(userId))
    case CreateOp => (POST, TasksPath(userId))
    case GetOp(id) => (GET, TasksPath(userId) + "/" + IntToDecimal(id))
    case UpdateOp(id) => (PUT, TasksPath(userId) + "/" + IntToDecimal(id))
    case PatchOp(id) => (PATCH, TasksPath(userId) + "/" + IntToDecimal(id))
    case DeleteOp(id) => (DELETE, TasksPath(userId) + "/" + IntToDecimal(id))
  }

  /** Different task operations of one user never produce the same request
      line: the verb separates the kinds and the path separates the ids. */
  lemma RouteInjective(a: TaskOp, b: TaskOp, userId: string)
    requires Route(a, userId) == Route(b, userId)
    ensures a == b
  {
    var base := TasksPath(userId);
    if a.ListOp? || a.CreateOp? {
      assert b.ListOp? || b.CreateOp?;
    } else {
      assert !(b.ListOp? || b.CreateOp?);
      {
        var pa, pb := Route(a, userId).1, Route(b, userId).1;
        assert pa[|base| + 1..] == IntToDecimal(a.id);
        assert pb[|base| + 1..] == IntToDecimal(b.id);
        DecimalInjective(a.id, b.id);
      }
    }
  }

  function TaskRequest(env: Env, s: Store, userId: string, op: TaskOp,
                       data: Option<map<string, JsValue>>, fetch: FetchResult): (c: Call)
    ensures c.sent.verb == Route(op, userId).0 && c.sent.url == BaseUrl(env) + Route(op, userId).1
    ensures c.sent.body == (if data.Some? then Some(WireObject(data.value)) else None)
    ensures c.nav.Some? ==> c.nav.value == SessionExpiredUrl
    ensures c.result.Normal? ==> c.nav.None? && c.store == s
  {
    var (verb, path) := Route(op, userId);
    Request(env, s, path, verb, map[],
            if data.Some? then Some(WireObject(data.value)) else None, fetch)
  }

  /** `api.registerUser`. */
  function RegisterUser(env: Env, s: Store, email: string, password: string, fetch: FetchResult): Call {
    Request(env, s, RegisterPath, POST, map[],
            Some(map["email" := Str(email), "password" := Str(password)]), fetch)
  }

  /** `api.loginUser`: after the request succeeds, a truthy `access_token` is
      stored, then `user.id` is read and stored. */
  function LoginUser(env: Env, s: Store, email: string, password: string, fetch: FetchResult): Call {
    var c := Request(env, s, LoginPath, POST, map[],
                     Some(map["email" := Str(email), "password" := Str(password)]), fetch);
    match c.result
    case Threw(_) => c
    case Normal(resp) =>
      match Prop(resp, "access_token")
      case Threw(t) => c.(result := Threw(t))
      case Normal(token) =>
        if !Truthy(token) then c
        else
          var s1 := SetAuthToken(env, c.store, ToJsString(token));
          match Prop2(resp, "user", "id")
          case Threw(t) => c.(store := s1, result := Threw(t))
          case Normal(id) => c.(store := SetUserId(env, s1, ToJsString(id)))
  }

  /** A login response of the shape the backend sends. */
  predicate WellFormedLogin(resp: JsValue, token: string, userId: string) {
    && resp.Obj? && "access_token" in resp.fields && resp.fields["access_token"] == Str(token)
    && token != ""
    && "user" in resp.fields && resp.fields["user"].Obj?
    && "id" in resp.fields["user"].fields && resp.fields["user"].fields["id"] == Str(userId)
  }

  /** A successful login with a well-formed response stores token and user
      id together (in a browser), and returns the response unchanged. */
  lemma LoginStoresPair(env: Env, s: Store, email: string, password: string,
                        status: int, text: string, resp: JsValue, token: string, userId: string)
    requires IsOk(status) && status != 204 && WellFormedLogin(resp, token, userId)
    ensures var c := LoginUser(env, s, email, password, Response(status, text, Parsed(resp)));
      && c.result == Normal(resp)
      && c.store == (if env.hasWindow then Store(Some(token), Some(userId)) else s)
      && c.nav.None?
  {
  }

  /** `loginUser` writes storage only after a successful request with a truthy
      `access_token`; otherwise the storage is what `request` left. */
  lemma LoginWritesOnlyOnToken(env: Env, s: Store, email: string, password: string, fetch: FetchResult)
    ensures var c := LoginUser(env, s, email, password, fetch);
      var r := Request(env, s, LoginPath, POST, map[],
                       Some(map["email" := Str(email), "password" := Str(password)]), fetch);
      c.store != r.store ==>
        r.result.Normal? && Prop(r.result.value, "access_token").Normal?
        && Truthy(Prop(r.result.value, "access_token").value)
  {
  }

  /** The pairing is only as good as the response: a 200 whose body has a
      token but no `user` stores the token, keeps the old user id, and fails. */
  lemma LoginWithoutUserBreaksPairing(env: Env)
    requires env.hasWindow
    ensures var c := LoginUser(env, Empty, "a@b.co", "pw", Response(200, "OK", Parsed(Obj(map["access_token" := Str("t")]))));
      && c.store == Store(Some("t"), None)
      && !Paired(c.store)
      && c.result == Threw(ErrorObject(NullishReadMessage("undefined", "id")))
  {
  }

  /** `api.logout`: clears both keys and goes to the login page; no request. */
  function Logout(env: Env, s: Store): (Store, Option<string>) {
    (RemoveAuthToken(env, s), if env.hasWindow then Some(LoginUrl) else None)
  }

  /** `api.listTasks`: the `tasks` field of the response body, as sent. */
  function ListTasks(env: Env, s: Store, userId: string, fetch: FetchResult): Call {
    var c := TaskRequest(env, s, userId, ListOp, None, fetch);
    match c.result
    case Threw(_) => c
    case Normal(resp) => c.(result := Prop(resp, "tasks"))
  }

  /** `listTasks` unwraps `{tasks: [...], ...}` to exactly the array, in the
      server's order; other fields of the body are ignored. */
  lemma ListTasksUnwraps(env: Env, s: Store, userId: string, text: string,
                         fields: map<string, JsValue>, tasks: seq<JsValue>)
    requires "tasks" in fields && fields["tasks"] == Arr(tasks)
    ensures var c := ListTasks(env, s, userId, Response(200, text, Parsed(Obj(fields))));
      c.result == Normal(Arr(tasks)) && c.sent.verb == GET
      && c.sent.url == BaseUrl(env) + "/api/" + userId + "/tasks"
  {
  }

  function GetTask(env: Env, s: Store, userId: string, taskId: int, fetch: FetchResult): Call {
    TaskRequest(env, s, userId, GetOp(taskId), None, fetch)
  }

  function CreateTask(env: Env, s: Store, userId: string, data: map<string, JsValue>, fetch: FetchResult): Call {
    TaskRequest(env, s, userId, CreateOp, Some(data), fetch)
  }

  function UpdateTask(env: Env, s: Store, userId: string, taskId: int, data: map<string, JsValue>, fetch: FetchResult): Call {
    TaskRequest(env, s, userId, UpdateOp(taskId), Some(data), fetch)
  }

  function PatchTask(env: Env, s: Store, userId: string, taskId: int, data: map<string, JsValue>, fetch: FetchResult): Call {
    TaskRequest(env, s, userId, PatchOp(taskId), Some(data), fetch)
  }

  function DeleteTask(env: Env, s: Store, userId: string, taskId: int, fetch: FetchResult): Call {
    TaskRequest(env, s, userId, DeleteOp(taskId), None, fetch)
  }

  /** The composite toggle: the requests sent, in order, and how it ends. */
  datatype Toggle = Toggle(sent: seq<Outgoing>, result: Completion<JsValue>, store: Store, nav: Option<string>)

  /** `api.toggleTaskComplete`: GET the task, then PATCH `completed` to the
      negation of what was read. The two steps are sequential and the server
      may change the task between them. */
  function ToggleTaskComplete(env: Env, s: Store, userId: string, taskId: int,
                              getFetch: FetchResult, patchFetch: FetchResult): (t: Toggle)
    ensures 1 <= |t.sent| <= 2
    ensures t.sent[0] == GetTask(env, s, userId, taskId, getFetch).sent
    ensures |t.sent| == 2 <==>
      (GetTask(env, s, userId, taskId, getFetch).result.Normal?
       && Prop(GetTask(env, s, userId, taskId, getFetch).result.value, "completed").Normal?)
    ensures |t.sent| == 2 ==>
      var fetched := GetTask(env, s, userId, taskId, getFetch).result.value;
      && t.sent[1].verb == PATCH && t.sent[1].url == t.sent[0].url
      && t.sent[1].body == Some(map["completed" := Bool(!Truthy(Prop(fetched, "completed").value))])
    // a failed read ends the toggle with that read's error, storage and navigation
    ensures |t.sent| == 1 ==>
      var g := GetTask(env, s, userId, taskId, getFetch);
      && t.result == (if g.result.Threw? then g.result else Threw(Prop(g.result.value, "completed").thrown))
      && t.store == g.store && t.nav == g.nav
    // otherwise the toggle settles as the PATCH does, sent from the storage the read left
    ensures |t.sent| == 2 ==>
      var g := GetTask(env, s, userId, taskId, getFetch);
      var p := PatchTask(env, g.store, userId, taskId,
                         map["completed" := Bool(!Truthy(Prop(g.result.value, "completed").value))], patchFetch);
      t.result == p.result && t.store == p.store && t.nav == p.nav
  {
    var g := GetTask(env, s, userId, taskId, getFetch);
    match g.result
    case Threw(e) => Toggle([g.sent], Threw(e), g.store, g.nav)
    case Normal(current) =>
      match Prop(current, "completed")
      case Threw(e) => Toggle([g.sent], Threw(e), g.store, g.nav)
      case Normal(done) =>
        WireObjectDefined(map["completed" := Bool(!Truthy(done))]);
        var p := PatchTask(env, g.store, userId, taskId, map["completed" := Bool(!Truthy(done))], patchFetch);
        Toggle([g.sent, p.sent], p.result, p.store, p.nav)
  }

  /** A fetched task with `completed: false` is patched with `{completed: true}`
      and vice versa. */
  lemma ToggleNegates(env: Env, s: Store, userId: string, taskId: int, text: string,
                      fields: map<string, JsValue>, done: bool, patchFetch: FetchResult)
    requires "completed" in fields && fields["completed"] == Bool(done)
    ensures var t := ToggleTaskComplete(env, s, userId, taskId, Response(200, text, Parsed(Obj(fields))), patchFetch);
      |t.sent| == 2 && t.sent[1].body == Some(map["completed" := Bool(!done)])
  {
  }
}

=== FILE: auth_router.dfy ===
/**
 * The `/api/auth` endpoints over the `users` table: registration with
 * duplicate rejection and a bcrypt hash in place of the password, and login
 * with one error for an unknown address and a wrong password alike, issuing
 * a signed token both in the body and as an http-only cookie.
 */
module AuthRouter {
  import opened Common
  import opened Js
  import opened Backend
  import opened AuthSchemas

  const EmailTaken := "An account with this email already exists"
  const BadCredentials := "Invalid email or password"
  const DefaultExpireDays := 7
  const SecondsPerDay := 24 * 60 * 60

  /** A row of the `users` table. */
  datatype User = User(id: Uuid, email: string, passwordHash: string)

  /** The `users` table, rows in insertion order. */
  type Users = seq<User>

  /** Ids (the primary key) and addresses (a unique column) are distinct. */
  predicate Valid(users: Users) {
    forall i, j :: 0 <= i < j < |users| ==> users[i].id != users[j].id && users[i].email != users[j].email
  }

  /** What a lookup selects on: the address column or the primary key. */
  datatype Key = ByEmail(email: string) | ById(id: Uuid)

  predicate Matches(u: User, key: Key) {
    match key
    case ByEmail(email) => u.email == email
    case ById(id) => u.id == id
  }

  /** The first row, in table order, that the key selects. */
  function Find(users: Users, key: Key): (r: Option<User>)
    ensures r.Some? <==> exists i :: 0 <= i < |users| && Matches(users[i], key)
    ensures r.Some? ==> r.value in users && Matches(r.value, key)
  {
    if |users| == 0 then None
    else if Matches(users[0], key) then Some(users[0])
    else
      var r := Find(users[1..], key);
      assert forall i :: 1 <= i < |users| ==> users[i] == users[1..][i - 1];
      r
  }

  /** `select(User).where(User.email == email).first()`. */
  function FindByEmail(users: Users, email: string): (r: Option<User>)
    ensures r.Some? <==> exists i :: 0 <= i < |users| && users[i].email == email
    ensures r.Some? ==> r.value in users && r.value.email == email
  {
    Find(users, ByEmail(email))
  }

  /** `session.get(User, id)`. */
  function FindById(users: Users, id: Uuid): (r: Option<User>)
    ensures r.Some? <==> exists i :: 0 <= i < |users| && users[i].id == id
    ensures r.Some? ==> r.value in users && r.value.id == id
  {
    Find(users, ById(id))
  }

  /** The settings login reads: `ACCESS_TOKEN_EXPIRE_DAYS`. */
  datatype Settings = Settings(expireDays: int)

  const DefaultSettings := Settings(DefaultExpireDays)

  /** `register`. `salt` is what `bcrypt.gensalt` draws and `freshId` what
      `uuid4` draws; a drawn id that is already taken makes the insert fail
      on the primary key, which FastAPI turns into a 500. */
  function Register(libs: Libs, users: Users, body: JsValue, salt: string, freshId: Uuid)
    : (r: (Reply, Users))
    ensures r.0.status == 422 <==> DecodeRegister(libs, body).Invalid?
    ensures r.0.status == 409 <==>
      DecodeRegister(libs, body).Valid? && FindByEmail(users, DecodeRegister(libs, body).value.email).Some?
    ensures r.0.status == 409 ==> r.0 == DetailReply(409, EmailTaken)
    ensures r.0.status != 201 ==> r.1 == users
    // a valid body with a free address and a free drawn id creates the account
    ensures r.0.status == 201 <==>
      && DecodeRegister(libs, body).Valid?
      && FindByEmail(users, DecodeRegister(libs, body).value.email).None?
      && FindById(users, freshId).None?
    ensures r.0.status == 500 <==>
      DecodeRegister(libs, body).Valid? && FindByEmail(users, DecodeRegister(libs, body).value.email).None?
      && FindById(users, freshId).Some?
    ensures r.0.status == 201 ==>
      var req := DecodeRegister(libs, body).value;
      && FindByEmail(users, req.email).None? && FindById(users, freshId).None?
      && r.1 == users + [User(freshId, req.email, libs.hashPassword(req.password, salt))]
      && r.0 == Reply(201, Json(RegisterResponseJson(Registered(libs.uuidText(freshId), req.email))))
    ensures r.0.status in {201, 409, 422, 500}
    ensures Valid(users) ==> Valid(r.1)
  {
    match DecodeRegister(libs, body)
    case Invalid(locs) => (ValidationReply(locs), users)
    case Valid(req) =>
      if FindByEmail(users, req.email).Some? then (DetailReply(409, EmailTaken), users)
      else if FindById(users, freshId).Some? then (InternalError, users)
      else
        var user := User(freshId, req.email, libs.hashPassword(req.password, salt));
        (Reply(201, Json(RegisterResponseJson(Registered(libs.uuidText(user.id), user.email)))), users + [user])
  }

  /** The cookie login sets. */
  datatype Cookie = Cookie(name: string, value: string, httpOnly: bool, maxAge: int, sameSite: string, secure: bool)

  /** A login's reply and the cookie it sets, if any. */
  datatype LoginOutcome = LoginOutcome(reply: Reply, cookie: Option<Cookie>)

  /** The claims of a token issued at `now`: the user id as text, expiring
      `expireDays` days later. */
  function TokenClaims(libs: Libs, settings: Settings, user: User, now: int): Claims {
    Claims(libs.uuidText(user.id), now + settings.expireDays * SecondsPerDay)
  }

  /** `login`. */
  function Login(libs: Libs, settings: Settings, users: Users, body: JsValue, now: int): (o: LoginOutcome)
    ensures o.reply.status == 422 <==> DecodeLogin(libs, body).Invalid?
    ensures o.reply.status == 401 <==>
      DecodeLogin(libs, body).Valid? &&
      var req := DecodeLogin(libs, body).value;
      (FindByEmail(users, req.email).None? || !libs.checkPassword(req.password, FindByEmail(users, req.email).value.passwordHash))
    ensures o.reply.status == 401 ==> o.reply == DetailReply(401, BadCredentials)
    ensures o.cookie.Some? <==> o.reply.status == 200
    ensures o.reply.status == 200 ==>
      var user := FindByEmail(users, DecodeLogin(libs, body).value.email).value;
      var token := libs.encodeToken(TokenClaims(libs, settings, user, now));
      && o.cookie == Some(Cookie("access_token", token, true, settings.expireDays * SecondsPerDay, "lax", false))
      && o.reply == Reply(200, Json(AuthResponseJson(AuthResponse(token, BearerTokenType,
           map["id" := Str(libs.uuidText(user.id)), "email" := Str(user.email)]))))
    ensures o.reply.status in {200, 401, 422}
  {
    match DecodeLogin(libs, body)
    case Invalid(locs) => LoginOutcome(ValidationReply(locs), None)
    case Valid(req) =>
      match FindByEmail(users, req.email)
      case None => LoginOutcome(DetailReply(401, BadCredentials), None)
      case Some(user) =>
        if !libs.checkPassword(req.password, user.passwordHash) then LoginOutcome(DetailReply(401, BadCredentials), None)
        else
          var token := libs.encodeToken(TokenClaims(libs, settings, user, now));
          var cookie := Cookie("access_token", token, true, settings.expireDays * 24 * 60 * 60, "lax", false);
          LoginOutcome(Reply(200, Json(AuthResponseJson(AuthResponse(token, BearerTokenType,
            map["id" := Str(libs.uuidText(user.id)), "email" := Str(user.email)])))), Some(cookie))
  }

  // ---------------------------------------------------------------------
  // Properties across calls
  // ---------------------------------------------------------------------

  /** An unknown address and a wrong password are indistinguishable: both
      give the same reply and no cookie. */
  lemma UniformLoginFailure(libs: Libs, settings: Settings, users: Users, other: User, body: JsValue, now: int)
    requires DecodeLogin(libs, body).Valid?
    requires FindByEmail(users, DecodeLogin(libs, body).value.email).None?
    requires other.email == DecodeLogin(libs, body).value.email
    requires !libs.checkPassword(DecodeLogin(libs, body).value.password, other.passwordHash)
    ensures Login(libs, settings, users, body, now) == Login(libs, settings, users + [other], body, now)
    ensures Login(libs, settings, users, body, now) == LoginOutcome(DetailReply(401, BadCredentials), None)
  {
    var email := DecodeLogin(libs, body).value.email;
    FindByEmailAppend(users, other, email);
  }

  /** Appending a row after a match leaves the lookup unchanged; appending
      the first match makes the lookup find it. */
  lemma {:induction false} FindAppend(users: Users, u: User, key: Key)
    ensures Find(users, key).Some? ==> Find(users + [u], key) == Find(users, key)
    ensures Find(users, key).None? && Matches(u, key) ==> Find(users + [u], key) == Some(u)
    decreases |users|
  {
    if |users| > 0 {
      assert (users + [u])[1..] == users[1..] + [u];
      FindAppend(users[1..], u, key);
    }
  }

  /** Lookup by address is stable under appending rows. */
  lemma FindByEmailAppend(users: Users, u: User, email: string)
    ensures FindByEmail(users, email).Some? ==> FindByEmail(users + [u], email) == FindByEmail(users, email)
    ensures FindByEmail(users, email).None? && u.email == email ==> FindByEmail(users + [u], email) == Some(u)
  {
    FindAppend(users, u, ByEmail(email));
  }

  lemma FindByIdAppend(users: Users, u: User, id: Uuid)
    ensures FindById(users, id).None? && u.id == id ==> FindById(users + [u], id) == Some(u)
  {
    FindAppend(users, u, ById(id));
  }

  /** The same address cannot register twice. */
  lemma NoDuplicateRegistration(libs: Libs, users: Users, body: JsValue, salt1: string, id1: Uuid,
                                body2: JsValue, salt2: string, id2: Uuid)
    requires Register(libs, users, body, salt1, id1).0.status == 201
    requires DecodeRegister(libs, body2).Valid?
    requires DecodeRegister(libs, body2).value.email == DecodeRegister(libs, body).value.email
    ensures var users' := Register(libs, users, body, salt1, id1).1;
      Register(libs, users', body2, salt2, id2) == (DetailReply(409, EmailTaken), users')
  {
    var req := DecodeRegister(libs, body).value;
    FindByEmailAppend(users, User(id1, req.email, libs.hashPassword(req.password, salt1)), req.email);
  }

  /** With lawful libraries, a fresh registration can log in with the same
      body, and the token it gets names the new user. */
  lemma RegisterThenLogin(libs: Libs, settings: Settings, users: Users, body: JsValue, salt: string, id: Uuid, now: int)
    requires Lawful(libs)
    requires Register(libs, users, body, salt, id).0.status == 201
    ensures var users' := Register(libs, users, body, salt, id).1;
      var o := Login(libs, settings, users', body, now);
      && o.reply.status == 200
      && o.cookie.value.value == libs.encodeToken(Claims(libs.uuidText(id), now + settings.expireDays * SecondsPerDay))
  {
    var req := DecodeRegister(libs, body).value;
    assert libs.checkPassword(req.password, libs.hashPassword(req.password, salt));
    LoginFindsNewUser(libs, settings, users, body, salt, id, now);
  }

  lemma LoginFindsNewUser(libs: Libs, settings: Settings, users: Users, body: JsValue, salt: string, id: Uuid, now: int)
    requires Register(libs, users, body, salt, id).0.status == 201
    requires libs.checkPassword(DecodeRegister(libs, body).value.password,
                                libs.hashPassword(DecodeRegister(libs, body).value.password, salt))
    ensures var users' := Register(libs, users, body, salt, id).1;
      var o := Login(libs, settings, users', body, now);
      && o.reply.status == 200
      && o.cookie.value.value == libs.encodeToken(Claims(libs.uuidText(id), now + settings.expireDays * SecondsPerDay))
  {
    var req := DecodeRegister(libs, body).value;
    var user := User(id, req.email, libs.hashPassword(req.password, salt));
    assert Register(libs, users, body, salt, id).1 == users + [user];
    LoginAcceptsWhatRegisterAccepts(libs, body);
    assert DecodeLogin(libs, body) == Decoded.Valid(LoginRequest(req.email, req.password));
    FindByEmailAppend(users, user, req.email);
    assert FindByEmail(users + [user], req.email) == Some(user);
    var o := Login(libs, settings, users + [user], body, now);
    assert o.reply.status != 422 && o.reply.status != 401;
  }
}

=== FILE: auth_schemas.dfy ===
/**
 * The request and response bodies of `/api/auth`: which register and login
 * bodies are accepted, and the JSON of the two success responses.
 */
module AuthSchemas {
  import opened Common
  import opened Js
  import opened Backend

  const PasswordMin := 8
  const AccountCreated := "Account created successfully"
  const BearerTokenType := "bearer"

  datatype RegisterRequest = RegisterRequest(email: string, password: string)
  datatype LoginRequest = LoginRequest(email: string, password: string)

  /** An `EmailStr` field: a JSON string that pydantic accepts as an
      address; the value is the normalised address. */
  function EmailField(libs: Libs, fields: map<string, JsValue>): (r: Option<string>)
    ensures r.Some? <==> FieldOf(fields, "email").Str? && libs.normalizeEmail(FieldOf(fields, "email").s).Some?
    ensures r.Some? ==> r == libs.normalizeEmail(FieldOf(fields, "email").s)
  {
    match FieldOf(fields, "email")
    case Str(s) => libs.normalizeEmail(s)
    case _ => None
  }

  /** `RegisterRequest`: an address and a password of at least 8 characters. */
  function DecodeRegister(libs: Libs, body: JsValue): (r: Decoded<RegisterRequest>)
    ensures r.Valid? <==>
      && body.Obj? && EmailField(libs, body.fields).Some?
      && FieldOf(body.fields, "password").Str? && |FieldOf(body.fields, "password").s| >= PasswordMin
    ensures r.Valid? ==>
      && Some(r.value.email) == EmailField(libs, body.fields)
      && Str(r.value.password) == FieldOf(body.fields, "password")
      && |r.value.password| >= PasswordMin
    ensures r.Invalid? ==> |r.locs| > 0
  {
    match body
    case Obj(f) =>
      var email := EmailField(libs, f);
      var password := MinStrField(f, "password", PasswordMin);
      if email.Some? && password.Some? then Valid(RegisterRequest(email.value, password.value))
      else
        var ok := [email.Some?, password.Some?];
        assert !ok[0] || !ok[1];
        Invalid(Failing(["email", "password"], ok))
    case _ => Invalid([WholeBody])
  }

  /** `LoginRequest`: an address and any password at all. */
  function DecodeLogin(libs: Libs, body: JsValue): (r: Decoded<LoginRequest>)
    ensures r.Valid? <==> body.Obj? && EmailField(libs, body.fields).Some? && FieldOf(body.fields, "password").Str?
    ensures r.Valid? ==>
      Some(r.value.email) == EmailField(libs, body.fields) && Str(r.value.password) == FieldOf(body.fields, "password")
    ensures r.Invalid? ==> |r.locs| > 0
  {
    match body
    case Obj(f) =>
      var email := EmailField(libs, f);
      var password := MinStrField(f, "password", 0);
      if email.Some? && password.Some? then Valid(LoginRequest(email.value, password.value))
      else
        var ok := [email.Some?, password.Some?];
        assert !ok[0] || !ok[1];
        Invalid(Failing(["email", "password"], ok))
    case _ => Invalid([WholeBody])
  }

  /** The JSON body a client sends to either endpoint. */
  function CredentialsJson(email: string, password: string): JsValue {
    Obj(map["email" := Str(email), "password" := Str(password)])
  }

  /** Every body the register endpoint accepts, the login endpoint accepts
      too, with the same address and password; a short password is the
      difference. */
  lemma LoginAcceptsWhatRegisterAccepts(libs: Libs, body: JsValue)
    requires DecodeRegister(libs, body).Valid?
    ensures DecodeLogin(libs, body).Valid?
    ensures DecodeLogin(libs, body).value.email == DecodeRegister(libs, body).value.email
    ensures DecodeLogin(libs, body).value.password == DecodeRegister(libs, body).value.password
  {
  }

  /** A password shorter than 8 characters is refused at registration, at
      the `password` field only, and accepted at login. */
  lemma ShortPasswordOnlyAtLogin(libs: Libs, email: string, password: string)
    requires libs.normalizeEmail(email).Some? && |password| < PasswordMin
    ensures DecodeRegister(libs, CredentialsJson(email, password)) == Invalid([BodyLoc("password")])
    ensures DecodeLogin(libs, CredentialsJson(email, password)).Valid?
  {
    var f := map["email" := Str(email), "password" := Str(password)];
    assert FieldOf(f, "email") == Str(email) && FieldOf(f, "password") == Str(password);
    OnlyFailure(["email", "password"], [true, false], 1);
  }

  /** `RegisterResponse`: `id`, `email` and `message`. */
  datatype RegisterResponse = RegisterResponse(id: string, email: string, message: string)

  /** The response as the handler builds it: `message` left at its default. */
  function Registered(id: string, email: string): RegisterResponse {
    RegisterResponse(id, email, AccountCreated)
  }

  function RegisterResponseJson(r: RegisterResponse): (j: JsValue)
    ensures j.Obj? && j.fields.Keys == {"id", "email", "message"}
    ensures j.fields["id"] == Str(r.id) && j.fields["message"] == Str(r.message)
  {
    Obj(map["id" := Str(r.id), "email" := Str(r.email), "message" := Str(r.message)])
  }

  /** `AuthResponse`: the token, its type and a `user` dictionary. */
  datatype AuthResponse = AuthResponse(accessToken: string, tokenType: string, user: map<string, JsValue>)

  function AuthResponseJson(r: AuthResponse): (j: JsValue)
    ensures j.Obj? && j.fields.Keys == {"access_token", "token_type", "user"}
    ensures j.fields["access_token"] == Str(r.accessToken) && j.fields["user"] == Obj(r.user)
  {
    Obj(map["access_token" := Str(r.accessToken), "token_type" := Str(r.tokenType), "user" := Obj(r.user)])
  }
}

=== FILE: backend.dfy ===
/**
 * What the FastAPI backend is built from, as this model sees it: replies with
 * a status code and a body, the 422 body FastAPI sends for a request that
 * fails validation, pydantic's field coercions, and the foreign libraries
 * (bcrypt, python-jose, Python's `uuid`, pydantic's `EmailStr`) as
 * uninterpreted functions together with the laws the code relies on.
 */
module Backend {
  import opened Common
  import opened Text
  import opened Js

  /** A user id (a UUID); only its identity matters. */
  datatype Uuid = Uuid(bits: nat)

  /** The claims of an access token: the subject and the expiry instant, in seconds. */
  datatype Claims = Claims(sub: string, exp: int)

  /** The payload `jwt.decode` returns for a token made from `c`. */
  function ClaimsPayload(c: Claims): map<string, JsValue> {
    map["sub" := Str(c.sub), "exp" := Num(c.exp)]
  }

  /** The foreign functions the backend calls.
      - `normalizeEmail`: pydantic's `EmailStr`; the normalised address, or
        `None` when the text is not an address.
      - `hashPassword(password, salt)`: `bcrypt.hashpw`; the salt is the
        random input `bcrypt.gensalt` would draw.
      - `checkPassword(password, hash)`: `bcrypt.checkpw`.
      - `encodeToken`: `jwt.encode` of `{"sub", "exp"}` with the configured key.
      - `decodeToken(token, now)`: `jwt.decode` at instant `now`; `None` when
        it raises (bad signature, malformed, expired).
      - `uuidText` / `parseUuid`: `str(uuid)` and `UUID(text)` (`None` for a
        `ValueError`); the latter is also how a `UUID` path parameter is read.
      - `timeText`: a timestamp as it appears in JSON. */
  datatype Libs = Libs(
    normalizeEmail: string -> Option<string>,
    hashPassword: (string, string) -> string,
    checkPassword: (string, string) -> bool,
    encodeToken: Claims -> string,
    decodeToken: (string, int) -> Option<map<string, JsValue>>,
    uuidText: Uuid -> string,
    parseUuid: string -> Option<Uuid>,
    timeText: int -> string)

  /** The laws the code relies on: a password checks against its own hash, a
      token decodes to its claims until it expires and not after, a token is non-empty and
      free of spaces (JWT's compact form is base64url text and dots), and a
      rendered UUID parses back. */
  ghost predicate Lawful(libs: Libs) {
    && (forall pw, salt :: libs.checkPassword(pw, libs.hashPassword(pw, salt)))
    && (forall c: Claims, now: int :: now <= c.exp ==> libs.decodeToken(libs.encodeToken(c), now) == Some(ClaimsPayload(c)))
    && (forall c: Claims, now: int :: now > c.exp ==> libs.decodeToken(libs.encodeToken(c), now).None?)
    && (forall c: Claims :: |libs.encodeToken(c)| > 0)
    && (forall c: Claims, i :: 0 <= i < |libs.encodeToken(c)| ==> libs.encodeToken(c)[i] != ' ')
    && (forall u :: libs.parseUuid(libs.uuidText(u)) == Some(u))
  }

  // ---------------------------------------------------------------------
  // Replies
  // ---------------------------------------------------------------------

  /** A reply body: none (204), JSON, or the plain text of a server error. */
  datatype ReplyBody = NoContent | Json(json: JsValue) | PlainText(text: string)

  datatype Reply = Reply(status: int, body: ReplyBody)

  /** What `HTTPException(status, detail)` produces: `{"detail": detail}`. */
  function DetailReply(status: int, detail: string): (r: Reply)
    ensures r.status == status && r.body.Json? && r.body.json.Obj?
    ensures r.body.json.fields == map["detail" := Str(detail)]
  {
    Reply(status, Json(Obj(map["detail" := Str(detail)])))
  }

  /** An unhandled exception: Starlette answers 500 with a plain-text body. */
  const InternalError := Reply(500, PlainText("Internal Server Error"))

  /** A location of a validation error, as FastAPI reports it: `["body"]`,
      `["body", field]` or `["path", parameter]`. */
  type Loc = seq<string>

  function LocJson(loc: Loc): JsValue {
    Arr(seq(|loc|, i requires 0 <= i < |loc| => Str(loc[i])))
  }

  /** The 422 reply for failed validation: `{"detail": [{"loc": ...}, ...]}`,
      one entry per problem in the order they were found. */
  function ValidationReply(locs: seq<Loc>): (r: Reply)
    requires |locs| > 0
    ensures r.status == 422 && r.body.Json? && r.body.json.Obj? && "detail" in r.body.json.fields
    ensures r.body.json.fields["detail"].Arr? && |r.body.json.fields["detail"].items| == |locs|
    ensures AllObjects(r.body.json.fields["detail"].items)
  {
    Reply(422, Json(Obj(map["detail" := Arr(seq(|locs|, i requires 0 <= i < |locs| =>
      Obj(map["loc" := LocJson(locs[i])])))])))
  }

  // ---------------------------------------------------------------------
  // Request validation (pydantic, lax mode)
  // ---------------------------------------------------------------------

  /** A validated value, or the locations of everything that failed. */
  datatype Decoded<+T> = Valid(value: T) | Invalid(locs: seq<Loc>)

  /** A field of a JSON object; a missing field reads as `Undefined`. */
  function FieldOf(fields: map<string, JsValue>, name: string): JsValue {
    if name in fields then fields[name] else Undefined
  }

  /** A required `str` field with `min_length`/`max_length`; lengths count
      code points, like Python's `len`. Numbers are not coerced to text. */
  function StrField(fields: map<string, JsValue>, name: string, lo: nat, hi: nat): (r: Option<string>)
    ensures r.Some? <==> FieldOf(fields, name).Str? && lo <= |FieldOf(fields, name).s| <= hi
    ensures r.Some? ==> FieldOf(fields, name) == Str(r.value)
  {
    match FieldOf(fields, name)
    case Str(s) => if lo <= |s| <= hi then Some(s) else None
    case _ => None
  }

  /** A required `str` field with only a `min_length`. */
  function MinStrField(fields: map<string, JsValue>, name: string, lo: nat): (r: Option<string>)
    ensures r.Some? <==> FieldOf(fields, name).Str? && lo <= |FieldOf(fields, name).s|
    ensures r.Some? ==> FieldOf(fields, name) == Str(r.value)
  {
    match FieldOf(fields, name)
    case Str(s) => if lo <= |s| then Some(s) else None
    case _ => None
  }

  /** An `Optional[str]` field defaulting to `None`, with `max_length`:
      missing and `null` both give `None`. The outer `None` is a failure. */
  function OptStrField(fields: map<string, JsValue>, name: string, hi: nat): (r: Option<Option<string>>)
    ensures r == Some(None) <==> FieldOf(fields, name).Undefined? || FieldOf(fields, name).Null?
    ensures (exists s :: r == Some(Some(s))) <==> FieldOf(fields, name).Str? && |FieldOf(fields, name).s| <= hi
    ensures r.Some? && r.value.Some? ==> FieldOf(fields, name) == Str(r.value.value)
  {
    match FieldOf(fields, name)
    case Undefined => Some(None)
    case Null => Some(None)
    case Str(s) => if |s| <= hi then Some(Some(s)) else None
    case _ => None
  }

  /** pydantic's lax `bool`: booleans, the numbers 0 and 1, and a fixed set
      of words compared without regard to ASCII case. */
  function LaxBool(v: JsValue): (r: Option<bool>)
    ensures v.Bool? ==> r == Some(v.b)
    ensures v.Num? ==> (r.Some? <==> v.n == 0 || v.n == 1) && (r.Some? ==> r.value == (v.n == 1))
    ensures v.Undefined? || v.Null? || v.Arr? || v.Obj? ==> r.None?
  {
    match v
    case Bool(b) => Some(b)
    case Num(n) => if n == 0 then Some(false) else if n == 1 then Some(true) else None
    case Str(s) =>
      var w := AsciiLower(s);
      if s == "0" || w in {"f", "n", "no", "off", "false"} then Some(false)
      else if s == "1" || w in {"t", "y", "on", "yes", "true"} then Some(true)
      else None
    case _ => None
  }

  /** A required `bool` field. */
  function BoolField(fields: map<string, JsValue>, name: string): Option<bool> {
    LaxBool(FieldOf(fields, name))
  }

  /** The location of a failing body field. */
  function BodyLoc(name: string): Loc {
    ["body", name]
  }

  /** The location used when the body as a whole is missing or not an object. */
  const WholeBody: Loc := ["body"]

  /** The positions `i` with `!ok[i]`, in increasing order. */
  function FailedAt(ok: seq<bool>): (ix: seq<nat>)
    ensures forall j :: 0 <= j < |ix| ==> ix[j] < |ok| && !ok[ix[j]]
    ensures forall j, k :: 0 <= j < k < |ix| ==> ix[j] < ix[k]
    ensures forall i :: 0 <= i < |ok| && !ok[i] ==> i in ix
    ensures |ix| == 0 <==> forall i :: 0 <= i < |ok| ==> ok[i]
  {
    if |ok| == 0 then []
    else
      var last := |ok| - 1;
      var before := FailedAt(ok[..last]);
      assert forall i :: 0 <= i < last ==> ok[..last][i] == ok[i];
      before + (if ok[last] then [] else [last])
  }

  /** Locations listed in the order of the failing positions are empty
      exactly when nothing failed, and each names a failing field. */
  lemma {:induction false} LocsOfFailures(names: seq<string>, ok: seq<bool>, locs: seq<Loc>)
    requires |names| == |ok| && |locs| == |FailedAt(ok)|
    requires forall j :: 0 <= j < |locs| ==> locs[j] == BodyLoc(names[FailedAt(ok)[j]])
    ensures |locs| == 0 <==> forall i :: 0 <= i < |ok| ==> ok[i]
    ensures forall l :: l in locs ==> exists i :: 0 <= i < |names| && !ok[i] && l == BodyLoc(names[i])
  {
    var ix := FailedAt(ok);
    if |locs| > 0 {
      assert !ok[ix[0]];
    }
    forall l | l in locs
      ensures exists i :: 0 <= i < |names| && !ok[i] && l == BodyLoc(names[i])
    {
      var j :| 0 <= j < |locs| && locs[j] == l;
      assert !ok[ix[j]] && l == BodyLoc(names[ix[j]]);
    }
  }

  /** The recursion behind `Failing`, from the last field back. */
  function FailingFields(names: seq<string>, ok: seq<bool>): (locs: seq<Loc>)
    requires |names| == |ok|
    ensures |locs| == |FailedAt(ok)|
    ensures forall j :: 0 <= j < |locs| ==> locs[j] == BodyLoc(names[FailedAt(ok)[j]])
  {
    if |names| == 0 then []
    else
      var last := |names| - 1;
      assert forall i :: 0 <= i < last ==> names[..last][i] == names[i];
      FailingFields(names[..last], ok[..last]) + (if ok[last] then [] else [BodyLoc(names[last])])
  }

  /** The locations, among `names`, whose check in `ok` failed: one per
      failing field, in the order of the fields. */
  function Failing(names: seq<string>, ok: seq<bool>): (locs: seq<Loc>)
    requires |names| == |ok|
    ensures |locs| == |FailedAt(ok)|
    ensures forall j :: 0 <= j < |locs| ==> locs[j] == BodyLoc(names[FailedAt(ok)[j]])
    ensures |locs| == 0 <==> forall i :: 0 <= i < |ok| ==> ok[i]
    ensures forall l :: l in locs ==> exists i :: 0 <= i < |names| && !ok[i] && l == BodyLoc(names[i])
  {
    var locs := FailingFields(names, ok);
    LocsOfFailures(names, ok, locs);
    locs
  }

  /** When only position `i` fails, it is the only failing position. */
  lemma {:induction false} OnlyFailedAt(ok: seq<bool>, i: int)
    requires 0 <= i < |ok| && !ok[i]
    requires forall k :: 0 <= k < |ok| && k != i ==> ok[k]
    ensures FailedAt(ok) == [i]
  {
    var last := |ok| - 1;
    if i < last {
      OnlyFailedAt(ok[..last], i);
    } else {
      assert forall k :: 0 <= k < last ==> ok[..last][k];
    }
  }

  /** When exactly one field fails, that field's location is the whole report. */
  lemma OnlyFailure(names: seq<string>, ok: seq<bool>, i: int)
    requires |names| == |ok| && 0 <= i < |ok| && !ok[i]
    requires forall k :: 0 <= k < |ok| && k != i ==> ok[k]
    ensures Failing(names, ok) == [BodyLoc(names[i])]
  {
    OnlyFailedAt(ok, i);
    var locs := Failing(names, ok);
    assert |locs| == 1 && locs[0] == BodyLoc(names[i]);
  }

  /** Every failing field is reported. */
  lemma FailingComplete(names: seq<string>, ok: seq<bool>, i: int)
    requires |names| == |ok| && 0 <= i < |ok| && !ok[i]
    ensures BodyLoc(names[i]) in Failing(names, ok)
  {
    var ix := FailedAt(ok);
    var j :| 0 <= j < |ix| && ix[j] == i;
    assert Failing(names, ok)[j] == BodyLoc(names[i]);
  }

  /** A reply to a request that reached the handler: validation first (path
      parameters before the body), then the handler's own outcome. */
  function Validated<T>(pathLocs: seq<Loc>, body: Decoded<T>): (r: Decoded<T>)
    requires body.Invalid? ==> |body.locs| > 0
    ensures r.Valid? <==> |pathLocs| == 0 && body.Valid?
    ensures r.Valid? ==> r == body
    ensures r.Invalid? ==> |r.locs| > 0
    ensures r.Invalid? ==> r.locs == pathLocs + (if body.Invalid? then body.locs else [])
  {
    match body
    case Valid(v) => if |pathLocs| == 0 then body else Invalid(pathLocs)
    case Invalid(locs) => Invalid(pathLocs + locs)
  }

  /** The validation problems of a `UUID` path parameter: none when it
      parses, else one at `["path", name]`. */
  function UuidProblems(libs: Libs, name: string, text: string): (locs: seq<Loc>)
    ensures |locs| == 0 <==> libs.parseUuid(text).Some?
    ensures |locs| > 0 ==> locs == [["path", name]]
  {
    if libs.parseUuid(text).Some? then [] else [["path", name]]
  }
}

=== FILE: client_storage.dfy ===
/**
 * The browser-side session storage of the client (`localStorage`), reduced
 * to the two keys it uses, `auth_token` and `user_id`, and the environment
 * the client code runs in.
 */
module ClientStorage {
  import opened Common

  /** Where the code runs: in a browser (`window` and `localStorage` exist) or
      during server-side rendering (they do not); and the configured
      `NEXT_PUBLIC_API_URL`, if any. */
  datatype Env = Env(hasWindow: bool, apiUrl: Option<string>)

  /** The `auth_token` and `user_id` entries of `localStorage`. */
  datatype Store = Store(authToken: Option<string>, userId: Option<string>)

  const Empty := Store(None, None)

  /** `getAuthToken`: `null` without a window. */
  function GetAuthToken(env: Env, s: Store): Option<string> {
    if env.hasWindow then s.authToken else None
  }

  /** `setAuthToken`: a no-op without a window. */
  function SetAuthToken(env: Env, s: Store, token: string): Store {
    if env.hasWindow then s.(authToken := Some(token)) else s
  }

  /** `removeAuthToken`: removes BOTH keys (a no-op without a window). */
  function RemoveAuthToken(env: Env, s: Store): Store {
    if env.hasWindow then Empty else s
  }

  /** `getUserId`: `null` without a window. */
  function GetUserId(env: Env, s: Store): Option<string> {
    if env.hasWindow then s.userId else None
  }

  /** `setUserId`: a no-op without a window. */
  function SetUserId(env: Env, s: Store, userId: string): Store {
    if env.hasWindow then s.(userId := Some(userId)) else s
  }

  /** The session invariant `loginUser` and `removeAuthToken` aim at: token
      and user id are stored together or not at all. */
  predicate Paired(s: Store) {
    s.authToken.Some? <==> s.userId.Some?
  }

  /** The storage accessors behave like two independent cells in a browser
      and like an inert, empty storage without one. */
  lemma StorageLaws(env: Env, s: Store, t: string, u: string)
    ensures GetAuthToken(env, SetAuthToken(env, s, t)) == (if env.hasWindow then Some(t) else None)
    ensures GetUserId(env, SetAuthToken(env, s, t)) == GetUserId(env, s)
    ensures GetUserId(env, SetUserId(env, s, u)) == (if env.hasWindow then Some(u) else None)
    ensures GetAuthToken(env, SetUserId(env, s, u)) == GetAuthToken(env, s)
    ensures GetAuthToken(env, RemoveAuthToken(env, s)).None?
    ensures GetUserId(env, RemoveAuthToken(env, s)).None?
    ensures Paired(RemoveAuthToken(env, s)) || !env.hasWindow
    ensures !env.hasWindow ==> SetAuthToken(env, s, t) == s && SetUserId(env, s, u) == s
  {
  }
}

=== FILE: common.dfy ===
/** Small vocabulary shared by every component of the model. */
module Common {

  /** An optional value: JavaScript's `null`, Python's `None`, or a missing key. */
  datatype Option<+T> = None | Some(value: T) {

    /** The value, or `default` when there is none. */
    function GetOr(default: T): T {
      match this
      case Some(v) => v
      case None => default
    }
  }
}

=== FILE: console_todo.dfy ===
/**
 * The in-memory console to-do application: a list of tasks and an id
 * counter, driven by lines of standard input. Each command reads its own
 * further lines; the end of input ends the application wherever it happens.
 * What a command prints is modelled as a sequence of events, one per
 * message; section headers, the start-up banner and the prompts are not.
 */
module ConsoleTodo {
  import opened Common
  import opened Text

  const NoDescription := "No description"

  datatype TodoTask = TodoTask(id: int, title: string, description: string, complete: bool)

  /** The module-level `tasks` list and `task_id_counter`. */
  datatype Todo = Todo(tasks: seq<TodoTask>, counter: int)

  const Start := Todo([], 1)

  /** Ids are positive, below the counter, and increase along the list (so
      they are distinct). */
  predicate Valid(todo: Todo) {
    && todo.counter >= 1
    && (forall i :: 0 <= i < |todo.tasks| ==> 1 <= todo.tasks[i].id < todo.counter)
    && (forall i, j :: 0 <= i < j < |todo.tasks| ==> todo.tasks[i].id < todo.tasks[j].id)
  }

  /** What the application prints, one event per message. */
  datatype Event =
    | TitleEmpty                              // "Title cannot be empty. Please try again."
    | Added(id: int)                          // "Task added successfully! ID: ..."
    | EmptyList                               // "Your list is empty. ..."
    | Listed(rows: seq<TodoTask>)             // the table, one row per task in order
    | InvalidId                               // "Invalid ID. Please enter a valid number."
    | NoTask(id: int)                         // "No task found with ID ..."
    | Current(title: string, description: string)  // "Current → ... — ..." before an update
    | Updated(id: int)                        // "Task ... updated successfully!"
    | Deleted(title: string, id: int)         // "Task '...' (ID ...) deleted."
    | Marked(title: string, complete: bool)   // "Task '...' marked as complete/pending."
    | HelpShown
    | UnknownCommand(cmd: string)             // "Unknown command '...'. ..."
    | Farewell                                // the goodbye of `quit`
    | InputClosed                             // the goodbye of end of input

  predicate Final(e: Event) {
    e.Farewell? || e.InputClosed?
  }

  /** Python's `str.strip()`. */
  function PyStrip(s: string): string {
    Trim(s, IsPySpace)
  }

  // ---------------------------------------------------------------------
  // Lookup
  // ---------------------------------------------------------------------

  /** The position of the first task with id `id`, or `|tasks|`. */
  function FindIndex(tasks: seq<TodoTask>, id: int): (k: nat)
    ensures k <= |tasks|
    ensures k < |tasks| ==> tasks[k].id == id
    ensures forall j :: 0 <= j < k ==> tasks[j].id != id
  {
    if |tasks| == 0 then 0
    else if tasks[0].id == id then 0
    else 1 + FindIndex(tasks[1..], id)
  }

  /** `find_task_by_id`: the first task with the id. */
  function FindTaskById(tasks: seq<TodoTask>, id: int): (r: Option<TodoTask>)
    ensures r.Some? <==> exists i :: 0 <= i < |tasks| && tasks[i].id == id
    ensures r.Some? ==> r.value.id == id && r.value in tasks
  {
    var k := FindIndex(tasks, id);
    if k < |tasks| then Some(tasks[k]) else None
  }

  /** Python's `list.remove(x)`: drop the first element equal to `x`. */
  function RemoveFirst(tasks: seq<TodoTask>, x: TodoTask): (r: seq<TodoTask>)
    ensures x in tasks ==> |r| == |tasks| - 1
    ensures x !in tasks ==> r == tasks
    ensures forall t :: t in r ==> t in tasks
  {
    if |tasks| == 0 then []
    else if tasks[0] == x then tasks[1..]
    else [tasks[0]] + RemoveFirst(tasks[1..], x)
  }

  /** The task `find_task_by_id` returns is the one `remove` drops: an
      earlier equal task would have had the same id. */
  lemma {:induction false} RemoveFound(tasks: seq<TodoTask>, id: int)
    requires FindIndex(tasks, id) < |tasks|
    ensures var k := FindIndex(tasks, id);
      RemoveFirst(tasks, tasks[k]) == tasks[..k] + tasks[k + 1..]
  {
    var k := FindIndex(tasks, id);
    if k > 0 {
      assert FindIndex(tasks[1..], id) == k - 1;
      RemoveFound(tasks[1..], id);
      assert tasks[1..][..k - 1] == tasks[1..k];
      assert tasks[1..][k..] == tasks[k + 1..];
      assert tasks[..k] == [tasks[0]] + tasks[1..k];
    }
  }

  // ---------------------------------------------------------------------
  // Commands. Each command takes the input lines still to be read, as
  // typed, and returns the lines left. Titles, descriptions and the command
  // word go through `strip()`; an id line goes to `int()` as it is.
  // `ended` says the end of input was reached.
  // ---------------------------------------------------------------------

  /** `s` holds none of the ASCII separators U+001C to U+001F: the only
      characters `strip()` removes that `int()` does not skip. */
  predicate NoSeparator(s: string) {
    forall i :: 0 <= i < |s| ==> !('\U{001C}' <= s[i] <= '\U{001F}')
  }

  /** On a line without separators, `int(s)` and `int(s.strip())` agree. */
  lemma IntOfStripped(line: string)
    requires NoSeparator(line)
    ensures ParsePyInt(PyStrip(line)) == ParsePyInt(line)
  {
    var i := TrimFrom(line, IsPySpace);
    var r := PyStrip(line);
    assert AllBetween(line, 0, i, IsIntSpace) && AllBetween(line, i + |r|, |line|, IsIntSpace);
    TrimUnique(line, IsIntSpace, i, i + |r|);
    TrimUnique(r, IsIntSpace, 0, |r|);
    assert r[0..|r|] == r;
  }

  /** A separator is not white space to `int()`: the id line `"1\x1f"`
      is refused although its stripped form is the number 1. */
  lemma SeparatorNotSkipped(todo: Todo, lines: seq<string>)
    ensures ParsePyInt(PyStrip("1\U{001F}")) == Some(1)
    ensures ParsePyInt("1\U{001F}").None?
    ensures UpdateTask(todo, ["1\U{001F}"] + lines) == Step(todo, lines, [InvalidId], false)
  {
    var line := "1\U{001F}";
    TrimUnique(line, IsPySpace, 0, 1);
    assert line[0..1] == "1";
    TrimNoSpace(line, IsIntSpace);
    assert !WellGrouped(line);
    TrimNoSpace("1", IsIntSpace);
    assert WellGrouped("1") && WithoutUnderscores("1") == "1";
    NonNumberRefused(todo, line, lines);
  }

  datatype Step = Step(todo: Todo, rest: seq<string>, events: seq<Event>, ended: bool)

  /** No goodbye among `events`. */
  predicate NoneFinal(events: seq<Event>) {
    forall i :: 0 <= i < |events| ==> !Final(events[i])
  }

  /** `events` end with a goodbye, and only the last one is. */
  predicate EndsOnce(events: seq<Event>) {
    |events| > 0 && Final(events[|events| - 1]) && NoneFinal(events[..|events| - 1])
  }

  /** Every id announced in `events` lies in `[lo, hi)`. */
  predicate IdsWithin(events: seq<Event>, lo: int, hi: int) {
    forall i :: 0 <= i < |events| && events[i].Added? ==> lo <= events[i].id < hi
  }

  /** What the loop needs from every command that started in `before`: the
      counter does not go back, an id announced is one handed out by this
      step, and the step ends exactly when it printed a goodbye, last. */
  predicate Orderly(before: Todo, s: Step) {
    && s.todo.counter >= before.counter
    && IdsWithin(s.events, before.counter, s.todo.counter)
    && (s.ended ==> EndsOnce(s.events))
    && (!s.ended ==> NoneFinal(s.events))
  }

  /** A step that did not end followed by a session that did. */
  lemma Concat(a: seq<Event>, b: seq<Event>, lo: int, mid: int, hi: int)
    requires lo <= mid <= hi
    requires NoneFinal(a) && IdsWithin(a, lo, mid)
    requires EndsOnce(b) && IdsWithin(b, mid, hi)
    ensures EndsOnce(a + b) && IdsWithin(a + b, lo, hi)
  {
    assert (a + b)[..|a + b| - 1] == a + b[..|b| - 1];
    forall i | 0 <= i < |a + b| ensures (a + b)[i] == if i < |a| then a[i] else b[i - |a|] {
    }
  }

  /** A step that ran out of input: nothing changes and the application says
      goodbye after what the command printed `before`. */
  function Closed(todo: Todo, before: seq<Event>): (s: Step)
    ensures s.ended && s.todo == todo && s.rest == [] && |s.events| > 0 && s.events[|s.events| - 1] == InputClosed
    ensures (forall i :: 0 <= i < |before| ==> !Final(before[i]) && !before[i].Added?) ==> Orderly(todo, s)
  {
    Step(todo, [], before + [InputClosed], true)
  }

  /** The first line that is not empty once stripped (`|lines|` if none):
      the title loop of `add_task` asks again after every empty title. */
  function FirstNonBlank(lines: seq<string>): (k: nat)
    ensures k <= |lines|
    ensures k < |lines| ==> PyStrip(lines[k]) != ""
    ensures forall j :: 0 <= j < k ==> PyStrip(lines[j]) == ""
  {
    if |lines| == 0 then 0
    else if PyStrip(lines[0]) != "" then 0
    else 1 + FirstNonBlank(lines[1..])
  }

  function Repeat(e: Event, n: nat): (r: seq<Event>)
    ensures |r| == n && forall i :: 0 <= i < n ==> r[i] == e
  {
    seq(n, _ => e)
  }

  /** `add_task`: the new task takes the counter's value as its id, the
      first line not blank as its title, and the next line as its
      description, or `No description` when that is blank; both stripped. */
  function AddTask(todo: Todo, lines: seq<string>): (s: Step)
    ensures |s.rest| <= |lines| && Orderly(todo, s)
    ensures |s.rest| < |lines| || s.ended
    ensures s.ended <==> FirstNonBlank(lines) + 1 >= |lines|
    // input ends at the title prompt after only empty titles, or at the description prompt
    ensures s.ended ==> s.todo == todo && s.events == Repeat(TitleEmpty, FirstNonBlank(lines)) + [InputClosed]
    ensures !s.ended ==>
      var k := FirstNonBlank(lines);
      && s.todo == Todo(todo.tasks + [TodoTask(todo.counter, PyStrip(lines[k]),
                                               if PyStrip(lines[k + 1]) == "" then NoDescription
                                               else PyStrip(lines[k + 1]), false)],
                        todo.counter + 1)
      && s.rest == lines[k + 2..]
      && s.events == Repeat(TitleEmpty, k) + [Added(todo.counter)]
  {
    var k := FirstNonBlank(lines);
    if k + 1 >= |lines| then Closed(todo, Repeat(TitleEmpty, k))
    else
      var description := PyStrip(lines[k + 1]);
      var t := TodoTask(todo.counter, PyStrip(lines[k]), if description == "" then NoDescription else description, false);
      Step(Todo(todo.tasks + [t], todo.counter + 1), lines[k + 2..], Repeat(TitleEmpty, k) + [Added(todo.counter)], false)
  }

  /** `list_tasks`: reads nothing. */
  function ListTasks(todo: Todo, lines: seq<string>): (s: Step)
    ensures s.todo == todo && s.rest == lines && !s.ended
    ensures s.events == [if |todo.tasks| == 0 then EmptyList else Listed(todo.tasks)]
  {
    Step(todo, lines, [if todo.tasks == [] then EmptyList else Listed(todo.tasks)], false)
  }

  datatype Lookup = Found(id: int, index: nat) | Stopped(step: Step)

  /** The shared start of update, delete and toggle: read an id and find the
      task; `Stopped` when the command ends there (end of input, a
      `ValueError`, or an unknown id). */
  function ReadTask(todo: Todo, lines: seq<string>): (r: Lookup)
    ensures r.Found? <==> |lines| > 0 && ParsePyInt(lines[0]).Some?
                          && FindIndex(todo.tasks, ParsePyInt(lines[0]).value) < |todo.tasks|
    ensures r.Found? ==> r.id == ParsePyInt(lines[0]).value && r.index == FindIndex(todo.tasks, r.id)
    ensures r.Stopped? ==> r.step.todo == todo && |r.step.rest| <= |lines| && Orderly(todo, r.step)
    ensures r.Stopped? && |lines| == 0 ==> r.step == Closed(todo, [])
    ensures r.Stopped? && |lines| > 0 && ParsePyInt(lines[0]).None? ==> r.step == Step(todo, lines[1..], [InvalidId], false)
    ensures r.Stopped? && |lines| > 0 && ParsePyInt(lines[0]).Some? ==>
      r.step == Step(todo, lines[1..], [NoTask(ParsePyInt(lines[0]).value)], false)
  {
    if |lines| == 0 then Stopped(Closed(todo, []))
    else
      match ParsePyInt(lines[0])
      case None => Stopped(Step(todo, lines[1..], [InvalidId], false))
      case Some(id) =>
        var k := FindIndex(todo.tasks, id);
        if k < |todo.tasks| then Found(id, k) else Stopped(Step(todo, lines[1..], [NoTask(id)], false))
  }

  /** `update_task`: the found task is shown, then a new title or
      description that is blank once stripped keeps the old one. */
  function UpdateTask(todo: Todo, lines: seq<string>): (s: Step)
    ensures |s.rest| <= |lines| && Orderly(todo, s)
    ensures ReadTask(todo, lines).Stopped? ==> s == ReadTask(todo, lines).step
    ensures ReadTask(todo, lines).Found? ==>
      var t := todo.tasks[ReadTask(todo, lines).index];
      |s.events| > 0 && s.events[0] == Current(t.title, t.description)
    ensures ReadTask(todo, lines).Found? && |lines| < 3 ==>
      var t := todo.tasks[ReadTask(todo, lines).index];
      s == Closed(todo, [Current(t.title, t.description)])
    ensures ReadTask(todo, lines).Found? && |lines| >= 3 ==>
      var k := ReadTask(todo, lines).index;
      var t := todo.tasks[k];
      var title, description := PyStrip(lines[1]), PyStrip(lines[2]);
      && s.todo == todo.(tasks := todo.tasks[k := t.(title := if title != "" then title else t.title,
                                                     description := if description != "" then description else t.description)])
      && s.events == [Current(t.title, t.description), Updated(t.id)] && s.rest == lines[3..] && !s.ended
  {
    match ReadTask(todo, lines)
    case Stopped(step) => step
    case Found(id, k) =>
      var t := todo.tasks[k];
      if |lines| < 3 then Closed(todo, [Current(t.title, t.description)])
      else
        var title, description := PyStrip(lines[1]), PyStrip(lines[2]);
        var t' := t.(title := if title != "" then title else t.title,
                     description := if description != "" then description else t.description);
        Step(todo.(tasks := todo.tasks[k := t']), lines[3..], [Current(t.title, t.description), Updated(id)], false)
  }

  /** `delete_task`: `remove` drops the task that was found. */
  function DeleteTask(todo: Todo, lines: seq<string>): (s: Step)
    ensures |s.rest| <= |lines| && Orderly(todo, s)
    ensures ReadTask(todo, lines).Stopped? ==> s == ReadTask(todo, lines).step
    ensures ReadTask(todo, lines).Found? ==>
      var k := ReadTask(todo, lines).index;
      && s.todo == todo.(tasks := todo.tasks[..k] + todo.tasks[k + 1..])
      && s.events == [Deleted(todo.tasks[k].title, todo.tasks[k].id)] && s.rest == lines[1..] && !s.ended
  {
    match ReadTask(todo, lines)
    case Stopped(step) => step
    case Found(id, k) =>
      var t := todo.tasks[k];
      RemoveFound(todo.tasks, id);
      Step(todo.(tasks := RemoveFirst(todo.tasks, t)), lines[1..], [Deleted(t.title, id)], false)
  }

  /** `toggle_complete`. */
  function ToggleComplete(todo: Todo, lines: seq<string>): (s: Step)
    ensures |s.rest| <= |lines| && Orderly(todo, s)
    ensures ReadTask(todo, lines).Stopped? ==> s == ReadTask(todo, lines).step
    ensures ReadTask(todo, lines).Found? ==>
      var k := ReadTask(todo, lines).index;
      var t := todo.tasks[k];
      && s.todo == todo.(tasks := todo.tasks[k := t.(complete := !t.complete)])
      && s.events == [Marked(t.title, !t.complete)] && s.rest == lines[1..] && !s.ended
  {
    match ReadTask(todo, lines)
    case Stopped(step) => step
    case Found(id, k) =>
      var t := todo.tasks[k];
      Step(todo.(tasks := todo.tasks[k := t.(complete := !t.complete)]), lines[1..], [Marked(t.title, !t.complete)], false)
  }

  // ---------------------------------------------------------------------
  // The command loop
  // ---------------------------------------------------------------------

  datatype Command = AddCmd | ListCmd | UpdateCmd | DeleteCmd | CompleteCmd | HelpCmd | QuitCmd | Blank
                   | Unknown(text: string)

  /** The command line as the loop compares it: stripped and lower-cased. */
  function Normalize(raw: string): string {
    AsciiLower(PyStrip(raw))
  }

  /** The command a stripped line names, by its aliases, compared in lower case. */
  function ParseCommand(line: string): (c: Command)
    ensures c.Unknown? ==> c.text == AsciiLower(line) && c.text != ""
    ensures c == Blank <==> line == ""
    ensures c == AddCmd <==> AsciiLower(line) in {"add", "a"}
    ensures c == ListCmd <==> AsciiLower(line) in {"list", "l", "view"}
    ensures c == UpdateCmd <==> AsciiLower(line) in {"update", "u"}
    ensures c == DeleteCmd <==> AsciiLower(line) in {"delete", "d"}
    ensures c == CompleteCmd <==> AsciiLower(line) in {"complete", "c", "toggle"}
    ensures c == HelpCmd <==> AsciiLower(line) in {"help", "h", "?"}
    ensures c == QuitCmd <==> AsciiLower(line) in {"quit", "q", "exit"}
  {
    var cmd := AsciiLower(line);
    if cmd in {"add", "a"} then AddCmd
    else if cmd in {"list", "l", "view"} then ListCmd
    else if cmd in {"update", "u"} then UpdateCmd
    else if cmd in {"delete", "d"} then DeleteCmd
    else if cmd in {"complete", "c", "toggle"} then CompleteCmd
    else if cmd in {"help", "h", "?"} then HelpCmd
    else if cmd in {"quit", "q", "exit"} then QuitCmd
    else if cmd == "" then Blank
    else Unknown(cmd)
  }

  /** One command, after its line was read. */
  function Execute(c: Command, todo: Todo, lines: seq<string>): (s: Step)
    ensures |s.rest| <= |lines| && Orderly(todo, s)
  {
    match c
    case AddCmd => AddTask(todo, lines)
    case ListCmd => ListTasks(todo, lines)
    case UpdateCmd => UpdateTask(todo, lines)
    case DeleteCmd => DeleteTask(todo, lines)
    case CompleteCmd => ToggleComplete(todo, lines)
    case HelpCmd => Step(todo, lines, [HelpShown], false)
    case QuitCmd => Step(todo, lines, [Farewell], true)
    case Blank => Step(todo, lines, [], false)
    case Unknown(text) => Step(todo, lines, [UnknownCommand(text)], false)
  }

  /** `main`'s loop from state `todo` over the remaining input lines: the
      final state and everything printed. It prints exactly one goodbye, the
      last thing, on `quit` or at the end of input; the counter never goes
      back and every id it announces was handed out during the session. */
  function Session(todo: Todo, lines: seq<string>): (r: (Todo, seq<Event>))
    ensures r.0.counter >= todo.counter
    ensures EndsOnce(r.1) && IdsWithin(r.1, todo.counter, r.0.counter)
    decreases |lines|
  {
    if |lines| == 0 then
      assert [InputClosed][..0] == [];
      (todo, [InputClosed])
    else
      var s := Execute(ParseCommand(PyStrip(lines[0])), todo, lines[1..]);
      if s.ended then (s.todo, s.events)
      else
        var (t, events) := Session(s.todo, s.rest);
        Concat(s.events, events, todo.counter, s.todo.counter, t.counter);
        (t, s.events + events)
  }

  /** The application from its initial state, on the input lines as typed. */
  function Run(lines: seq<string>): (r: (Todo, seq<Event>))
    ensures Valid(r.0)
    ensures EndsOnce(r.1)
  {
    SessionKeepsValid(Start, lines);
    Session(Start, lines)
  }

  // ---------------------------------------------------------------------
  // The invariant
  // ---------------------------------------------------------------------

  lemma AddKeepsValid(todo: Todo, lines: seq<string>)
    requires Valid(todo)
    ensures Valid(AddTask(todo, lines).todo)
  {
  }

  /** Changing fields other than the id keeps the ids, hence the invariant. */
  lemma SameIdsKeepValid(todo: Todo, tasks: seq<TodoTask>)
    requires Valid(todo)
    requires |tasks| == |todo.tasks| && forall j :: 0 <= j < |tasks| ==> tasks[j].id == todo.tasks[j].id
    ensures Valid(todo.(tasks := tasks))
  {
  }

  lemma UpdateKeepsValid(todo: Todo, lines: seq<string>)
    requires Valid(todo)
    ensures Valid(UpdateTask(todo, lines).todo)
  {
    var s := UpdateTask(todo, lines);
    if ReadTask(todo, lines).Found? && |lines| >= 3 {
      SameIdsKeepValid(todo, s.todo.tasks);
    }
  }

  lemma ToggleKeepsValid(todo: Todo, lines: seq<string>)
    requires Valid(todo)
    ensures Valid(ToggleComplete(todo, lines).todo)
  {
    var s := ToggleComplete(todo, lines);
    if ReadTask(todo, lines).Found? {
      SameIdsKeepValid(todo, s.todo.tasks);
    }
  }

  /** Dropping one task keeps the ids in increasing order. */
  lemma DeleteKeepsValid(todo: Todo, lines: seq<string>)
    requires Valid(todo)
    ensures Valid(DeleteTask(todo, lines).todo)
  {
    if ReadTask(todo, lines).Found? {
      DropKeepsValid(todo, ReadTask(todo, lines).index);
    }
  }

  lemma DropKeepsValid(todo: Todo, k: nat)
    requires Valid(todo) && k < |todo.tasks|
    ensures Valid(todo.(tasks := todo.tasks[..k] + todo.tasks[k + 1..]))
  {
    var tasks' := todo.tasks[..k] + todo.tasks[k + 1..];
    forall i | 0 <= i < |tasks'| ensures tasks'[i] == todo.tasks[if i < k then i else i + 1] {
    }
  }

  lemma ExecuteKeepsValid(c: Command, todo: Todo, lines: seq<string>)
    requires Valid(todo)
    ensures Valid(Execute(c, todo, lines).todo)
  {
    match c
    case AddCmd => AddKeepsValid(todo, lines);
    case UpdateCmd => UpdateKeepsValid(todo, lines);
    case DeleteCmd => DeleteKeepsValid(todo, lines);
    case CompleteCmd => ToggleKeepsValid(todo, lines);
    case _ =>
  }

  /** The whole session keeps the invariant. */
  lemma {:induction false} SessionKeepsValid(todo: Todo, lines: seq<string>)
    requires Valid(todo)
    ensures Valid(Session(todo, lines).0)
    decreases |lines|
  {
    if |lines| > 0 {
      var s := Execute(ParseCommand(PyStrip(lines[0])), todo, lines[1..]);
      ExecuteKeepsValid(ParseCommand(PyStrip(lines[0])), todo, lines[1..]);
      if !s.ended {
        SessionKeepsValid(s.todo, s.rest);
      }
    }
  }

  // ---------------------------------------------------------------------
  // Properties
  // ---------------------------------------------------------------------

  /** The id a new task gets was never used: it is above every id in the
      list, and the added task is found under it. */
  lemma AddedIdIsFresh(todo: Todo, lines: seq<string>)
    requires Valid(todo) && !AddTask(todo, lines).ended
    ensures var s := AddTask(todo, lines);
      && (forall t :: t in todo.tasks ==> t.id < todo.counter)
      && FindTaskById(s.todo.tasks, todo.counter) == Some(s.todo.tasks[|s.todo.tasks| - 1])
  {
    var s := AddTask(todo, lines);
    assert FindIndex(s.todo.tasks, todo.counter) == |todo.tasks| by {
      FindIndexAbsent(todo.tasks, s.todo.tasks[|todo.tasks|], todo.counter);
    }
  }

  /** Looking up an id absent from `tasks` in `tasks + [t]` finds `t`. */
  lemma {:induction false} FindIndexAbsent(tasks: seq<TodoTask>, t: TodoTask, id: int)
    requires forall x :: x in tasks ==> x.id != id
    requires t.id == id
    ensures FindIndex(tasks + [t], id) == |tasks|
    decreases |tasks|
  {
    if |tasks| > 0 {
      assert (tasks + [t])[1..] == tasks[1..] + [t];
      FindIndexAbsent(tasks[1..], t, id);
    }
  }

  /** A deleted id never comes back: no later add in the session reuses it. */
  lemma DeletedIdNotReused(todo: Todo, line: string, lines: seq<string>)
    requires Valid(todo)
    requires ReadTask(todo, [line] + lines).Found?
    ensures var s := DeleteTask(todo, [line] + lines);
      var r := Session(s.todo, s.rest);
      forall i :: 0 <= i < |r.1| && r.1[i].Added? ==> r.1[i].id != ReadTask(todo, [line] + lines).id
  {
  }

  /** Under distinct ids, a deleted task cannot be found any more. */
  lemma DeleteRemovesId(todo: Todo, lines: seq<string>)
    requires Valid(todo) && ReadTask(todo, lines).Found?
    ensures FindTaskById(DeleteTask(todo, lines).todo.tasks, ReadTask(todo, lines).id).None?
  {
    var k := ReadTask(todo, lines).index;
    var id := ReadTask(todo, lines).id;
    var tasks' := DeleteTask(todo, lines).todo.tasks;
    forall i | 0 <= i < |tasks'| ensures tasks'[i].id != id {
      assert tasks'[i] == todo.tasks[if i < k then i else i + 1];
    }
  }

  /** Toggling the same id twice restores the list. */
  lemma ToggleTwice(todo: Todo, line: string, lines: seq<string>)
    requires ReadTask(todo, [line] + lines).Found?
    ensures var s := ToggleComplete(todo, [line] + lines);
      ToggleComplete(s.todo, [line] + lines).todo == todo
  {
    var s := ToggleComplete(todo, [line] + lines);
    var k := ReadTask(todo, [line] + lines).index;
    assert forall j :: 0 <= j < |todo.tasks| ==> s.todo.tasks[j].id == todo.tasks[j].id;
    assert FindIndex(s.todo.tasks, ReadTask(todo, [line] + lines).id) == k by {
      FindIndexSameIds(todo.tasks, s.todo.tasks, ReadTask(todo, [line] + lines).id);
    }
  }

  /** Lookup depends only on the ids. */
  lemma {:induction false} FindIndexSameIds(a: seq<TodoTask>, b: seq<TodoTask>, id: int)
    requires |a| == |b| && forall j :: 0 <= j < |a| ==> a[j].id == b[j].id
    ensures FindIndex(a, id) == FindIndex(b, id)
    decreases |a|
  {
    if |a| > 0 && a[0].id != id {
      FindIndexSameIds(a[1..], b[1..], id);
    }
  }

  /** Update, delete and toggle leave the list alone for an id that is not
      there, and say so. */
  lemma UnknownIdChangesNothing(todo: Todo, n: int, lines: seq<string>)
    requires FindTaskById(todo.tasks, n).None? && DigitCount(n) <= MaxStrDigits
    ensures var line := IntToDecimal(n);
      && UpdateTask(todo, [line] + lines) == Step(todo, lines, [NoTask(n)], false)
      && DeleteTask(todo, [line] + lines) == Step(todo, lines, [NoTask(n)], false)
      && ToggleComplete(todo, [line] + lines) == Step(todo, lines, [NoTask(n)], false)
  {
    ParseRendered(n);
    assert ([IntToDecimal(n)] + lines)[1..] == lines;
  }

  /** A line that is not a number is refused without reading further. */
  lemma NonNumberRefused(todo: Todo, line: string, lines: seq<string>)
    requires ParsePyInt(line).None?
    ensures UpdateTask(todo, [line] + lines) == Step(todo, lines, [InvalidId], false)
    ensures ToggleComplete(todo, [line] + lines) == Step(todo, lines, [InvalidId], false)
    ensures DeleteTask(todo, [line] + lines) == Step(todo, lines, [InvalidId], false)
  {
    assert ([line] + lines)[1..] == lines;
  }

  /** An id line of more digits than Python's `int()` accepts is refused
      like any other non-number, even when its value names a task. */
  lemma LongIdRefused(todo: Todo, line: string, lines: seq<string>)
    requires |line| > MaxStrDigits && All(line, IsDigit)
    ensures UpdateTask(todo, [line] + lines) == Step(todo, lines, [InvalidId], false)
    ensures ToggleComplete(todo, [line] + lines) == Step(todo, lines, [InvalidId], false)
    ensures DeleteTask(todo, [line] + lines) == Step(todo, lines, [InvalidId], false)
  {
    TooManyDigitsRefused(line);
    NonNumberRefused(todo, line, lines);
  }

  /** Lower-casing keeps white space and non-white space apart. */
  lemma LowerKeepsSpace(c: char)
    ensures IsPySpace(AsciiLowerChar(c)) <==> IsPySpace(c)
  {
  }

  /** A command line means the same after it has been stripped and
      lower-cased: surrounding white space and letter case do not matter. */
  lemma NormalizeIdempotent(line: string)
    ensures Normalize(Normalize(line)) == Normalize(line)
    ensures ParseCommand(PyStrip(Normalize(line))) == ParseCommand(PyStrip(line))
  {
    var r := PyStrip(line);
    var l := AsciiLower(r);
    if |l| > 0 {
      LowerKeepsSpace(r[0]);
      LowerKeepsSpace(r[|r| - 1]);
    }
    TrimUnique(l, IsPySpace, 0, |l|);
    assert l[0..|l|] == l;
    assert AsciiLower(l) == l;
  }
}

=== FILE: deps.dfy ===
/**
 * `get_current_user`, the dependency every task endpoint runs first: it
 * takes a token from the `Authorization` header or else the `access_token`
 * cookie, checks it, and loads the user it names; every failure is a 401.
 */
module Deps {
  import opened Common
  import opened Text
  import opened Js
  import opened Backend
  import opened AuthRouter

  const NotAuthenticated := "Not authenticated"
  const InvalidCredentials := "Invalid authentication credentials"
  const UserNotFound := "User not found"
  const BearerPrefix := "Bearer "

  /** The token the request presents. A header that starts with `Bearer `
      wins, with every occurrence of `Bearer ` removed from it (Python's
      `replace`); otherwise a non-empty cookie; otherwise none. */
  function ExtractToken(authorization: Option<string>, cookie: Option<string>): (t: Option<string>)
    ensures authorization.Some? && StartsWith(authorization.value, BearerPrefix) ==>
      t == Some(RemoveAll(authorization.value, BearerPrefix))
    ensures !(authorization.Some? && StartsWith(authorization.value, BearerPrefix)) ==>
      (t.Some? <==> cookie.Some? && |cookie.value| > 0) && (t.Some? ==> t == cookie)
  {
    if authorization.Some? && StartsWith(authorization.value, BearerPrefix) then
      Some(RemoveAll(authorization.value, BearerPrefix))
    else if cookie.Some? && |cookie.value| > 0 then cookie
    else None
  }

  /** The user id a token names at instant `now`: the token must decode,
      carry a string `sub`, and that string must be a UUID. */
  function Subject(libs: Libs, token: string, now: int): (r: Option<Uuid>)
    ensures r.Some? ==> libs.decodeToken(token, now).Some?
    ensures r.Some? ==> var p := libs.decodeToken(token, now).value;
      "sub" in p && p["sub"].Str? && libs.parseUuid(p["sub"].s) == r
  {
    match libs.decodeToken(token, now)
    case None => None
    case Some(payload) =>
      if "sub" in payload && payload["sub"].Str? then libs.parseUuid(payload["sub"].s) else None
  }

  /** The outcome of the dependency: the user, or the 401 it raises. */
  datatype Auth = Authenticated(user: User) | Rejected(reply: Reply)

  function GetCurrentUser(libs: Libs, users: Users, authorization: Option<string>, cookie: Option<string>, now: int)
    : (a: Auth)
    ensures a.Rejected? ==> a.reply.status == 401
    ensures a.Rejected? ==> a.reply in {DetailReply(401, NotAuthenticated), DetailReply(401, InvalidCredentials),
                                        DetailReply(401, UserNotFound)}
    ensures var t := ExtractToken(authorization, cookie);
      a == Rejected(DetailReply(401, NotAuthenticated)) <==> t.None? || t.value == ""
    ensures var t := ExtractToken(authorization, cookie);
      a.Authenticated? <==> (t.Some? && t.value != "" && Subject(libs, t.value, now).Some? &&
                             FindById(users, Subject(libs, t.value, now).value).Some?)
    ensures a.Authenticated? ==> (a.user in users &&
      Some(a.user.id) == Subject(libs, ExtractToken(authorization, cookie).value, now))
  {
    assert DetailReply(401, NotAuthenticated).body.json.fields["detail"] != DetailReply(401, InvalidCredentials).body.json.fields["detail"]
      by { assert NotAuthenticated[0] != InvalidCredentials[0]; }
    assert DetailReply(401, NotAuthenticated).body.json.fields["detail"] != DetailReply(401, UserNotFound).body.json.fields["detail"]
      by { assert NotAuthenticated[0] != UserNotFound[0]; }
    var token := ExtractToken(authorization, cookie);
    if token.None? || token.value == "" then Rejected(DetailReply(401, NotAuthenticated))
    else
      match Subject(libs, token.value, now)
      case None => Rejected(DetailReply(401, InvalidCredentials))
      case Some(id) =>
        match FindById(users, id)
        case None => Rejected(DetailReply(401, UserNotFound))
        case Some(user) => Authenticated(user)
  }

  // ---------------------------------------------------------------------
  // Where the token comes from
  // ---------------------------------------------------------------------

  /** Text without a space cannot contain `Bearer `. */
  lemma NoSpaceNoPrefix(t: string)
    requires forall i :: 0 <= i < |t| ==> t[i] != ' '
    ensures !Contains(t, BearerPrefix)
  {
    forall i | 0 <= i <= |t| ensures !OccursAt(t, BearerPrefix, i) {
      if i + |BearerPrefix| <= |t| {
        assert t[i..i + |BearerPrefix|][6] == t[i + 6] != BearerPrefix[6];
      }
    }
  }

  /** A header `Bearer <t>` yields `t`, whatever the cookie holds, when `t`
      itself contains no `Bearer `. */
  lemma HeaderWins(t: string, cookie: Option<string>)
    requires !Contains(t, BearerPrefix)
    ensures ExtractToken(Some(BearerPrefix + t), cookie) == Some(t)
  {
    var h := BearerPrefix + t;
    assert h[..|BearerPrefix|] == BearerPrefix;
    assert h[|BearerPrefix|..] == t;
    RemoveAllAbsent(t, BearerPrefix);
  }

  /** A doubled prefix is accepted too: every occurrence is removed. */
  lemma DoubledPrefixAccepted(t: string, cookie: Option<string>)
    requires !Contains(t, BearerPrefix)
    ensures ExtractToken(Some(BearerPrefix + BearerPrefix + t), cookie) == Some(t)
  {
    var h := BearerPrefix + BearerPrefix + t;
    assert h[..|BearerPrefix|] == BearerPrefix;
    assert h[|BearerPrefix|..] == BearerPrefix + t;
    assert (BearerPrefix + t)[..|BearerPrefix|] == BearerPrefix;
    assert (BearerPrefix + t)[|BearerPrefix|..] == t;
    RemoveAllAbsent(t, BearerPrefix);
    assert RemoveAll(BearerPrefix + t, BearerPrefix) == t;
    assert RemoveAll(h, BearerPrefix) == RemoveAll(BearerPrefix + t, BearerPrefix);
  }

  /** A header of another scheme is ignored and the cookie is used. */
  lemma OtherSchemeUsesCookie(header: string, cookie: string)
    requires !StartsWith(header, BearerPrefix) && |cookie| > 0
    ensures ExtractToken(Some(header), Some(cookie)) == Some(cookie)
  {
  }

  /** A bare `Bearer ` header hides a perfectly good cookie: the request is
      refused as unauthenticated. */
  lemma BareBearerHidesCookie(libs: Libs, users: Users, cookie: Option<string>, now: int)
    ensures GetCurrentUser(libs, users, Some(BearerPrefix), cookie, now) == Rejected(DetailReply(401, NotAuthenticated))
  {
    assert StartsWith(BearerPrefix, BearerPrefix);
    assert BearerPrefix[|BearerPrefix|..] == "";
  }

  // ---------------------------------------------------------------------
  // Tokens issued by login
  // ---------------------------------------------------------------------

  /** Under distinct ids, the lookup by id finds exactly the row with it. */
  lemma {:induction false} FindByIdOfMember(users: Users, user: User)
    requires AuthRouter.Valid(users) && user in users
    ensures FindById(users, user.id) == Some(user)
    decreases |users|
  {
    if users[0] != user {
      assert users[0].id != user.id by {
        var k :| 0 <= k < |users| && users[k] == user;
        assert k != 0;
      }
      assert user in users[1..] by {
        var k :| 0 <= k < |users| && users[k] == user;
        assert users[1..][k - 1] == user;
      }
      FindByIdOfMember(users[1..], user);
    }
  }

  /** A token login issued names its user until it expires. */
  lemma IssuedTokenNamesUser(libs: Libs, c: Claims, user: User, now: int)
    requires Lawful(libs)
    requires c.sub == libs.uuidText(user.id) && now <= c.exp
    ensures Subject(libs, libs.encodeToken(c), now) == Some(user.id)
  {
    assert libs.decodeToken(libs.encodeToken(c), now) == Some(ClaimsPayload(c));
    assert libs.parseUuid(libs.uuidText(user.id)) == Some(user.id);
  }

  /** The token login issues authenticates its user, sent the way the web
      client sends it (the header) or as the cookie, until it expires. */
  lemma LoginTokenAuthenticates(libs: Libs, settings: Settings, users: Users, user: User, issued: int, now: int,
                                cookie: Option<string>)
    requires Lawful(libs) && AuthRouter.Valid(users) && user in users
    requires now <= TokenClaims(libs, settings, user, issued).exp
    ensures var token := libs.encodeToken(TokenClaims(libs, settings, user, issued));
      && GetCurrentUser(libs, users, Some(BearerPrefix + token), cookie, now) == Authenticated(user)
      && GetCurrentUser(libs, users, None, Some(token), now) == Authenticated(user)
  {
    var c := TokenClaims(libs, settings, user, issued);
    var token := libs.encodeToken(c);
    assert |token| > 0;
    NoSpaceNoPrefix(token);
    HeaderWins(token, cookie);
    IssuedTokenNamesUser(libs, c, user, now);
    FindByIdOfMember(users, user);
  }

  /** After its expiry the same token is refused as invalid. */
  lemma ExpiredTokenRefused(libs: Libs, users: Users, c: Claims, now: int)
    requires Lawful(libs) && now > c.exp
    ensures GetCurrentUser(libs, users, None, Some(libs.encodeToken(c)), now) == Rejected(DetailReply(401, InvalidCredentials))
  {
    assert libs.decodeToken(libs.encodeToken(c), now).None?;
    assert |libs.encodeToken(c)| > 0;
  }
}

=== FILE: interop.dfy ===
/**
 * The web client against the backend: what the client sends is what the
 * server validates, and what the server answers is what the client shows.
 * A reply reaches the client as `fetch` would see it: JSON bodies parse,
 * empty (204) and plain-text (500) bodies do not.
 */
module Interop {
  import opened Common
  import opened Text
  import opened Js
  import opened ClientStorage
  import opened Backend
  import Api
  import SessionManager
  import TaskForm
  import RegisterForm
  import LoginForm
  import TaskSchemas
  import AuthSchemas
  import AuthRouter
  import Deps

  /** The message `JSON.parse` gives for an empty body. */
  const EmptyBodyError := "Unexpected end of JSON input"
  /** The message `JSON.parse` gives for a body that is not JSON text. */
  const NotJsonError := "Unexpected token, not valid JSON"

  /** A server reply as the client's `fetch` receives it. */
  function Delivered(reply: Reply, statusText: string): (f: Api.FetchResult)
    ensures f.Response? && f.status == reply.status && f.statusText == statusText
    ensures f.body.Parsed? <==> reply.body.Json?
    ensures f.body.Parsed? ==> f.body.json == reply.body.json
  {
    Api.Response(reply.status, statusText,
      match reply.body
      case Json(j) => Api.Parsed(j)
      case NoContent => Api.Unparseable(EmptyBodyError)
      case PlainText(_) => Api.Unparseable(NotJsonError))
  }

  // ---------------------------------------------------------------------
  // Registration and login
  // ---------------------------------------------------------------------

  /** The body the client's `registerUser` and `loginUser` send is the JSON
      the auth endpoints read. */
  lemma CredentialsOnTheWire(env: Env, s: Store, email: string, password: string, fetch: Api.FetchResult)
    ensures Api.RegisterUser(env, s, email, password, fetch).sent.body
      == Some(AuthSchemas.CredentialsJson(email, password).fields)
    ensures Api.LoginUser(env, s, email, password, fetch).sent.body
      == Some(AuthSchemas.CredentialsJson(email, password).fields)
    ensures Api.RegisterUser(env, s, email, password, fetch).sent.url == Api.BaseUrl(env) + Api.RegisterPath
    ensures Api.LoginUser(env, s, email, password, fetch).sent.url == Api.BaseUrl(env) + Api.LoginPath
  {
  }

  /** Registering a taken address shows the server's own message and leaves
      the browser's storage alone. */
  lemma DuplicateEmailShown(libs: Libs, users: AuthRouter.Users, env: Env, s: Store, email: string, password: string,
                            salt: string, id: Uuid, text: string)
    requires AuthRouter.Register(libs, users, AuthSchemas.CredentialsJson(email, password), salt, id).0.status == 409
    ensures var reply := AuthRouter.Register(libs, users, AuthSchemas.CredentialsJson(email, password), salt, id).0;
      var r := SessionManager.Register(env, s, email, password, Delivered(reply, text));
      r == (SessionManager.Failure(AuthRouter.EmailTaken), s, None)
  {
    var reply := AuthRouter.Register(libs, users, AuthSchemas.CredentialsJson(email, password), salt, id).0;
    assert reply == DetailReply(409, AuthRouter.EmailTaken);
    Api.ErrorDetailMessage(Delivered(reply, text).body, text);
  }

  /** A successful registration reports the server's message, but the
      client reads `user_id` where the server sends `id`: the user id the
      client gets is `undefined`. */
  lemma RegistrationLosesUserId(libs: Libs, users: AuthRouter.Users, env: Env, s: Store, email: string, password: string,
                                salt: string, id: Uuid, text: string)
    requires AuthRouter.Register(libs, users, AuthSchemas.CredentialsJson(email, password), salt, id).0.status == 201
    ensures var reply := AuthRouter.Register(libs, users, AuthSchemas.CredentialsJson(email, password), salt, id).0;
      SessionManager.Register(env, s, email, password, Delivered(reply, text)).0
        == SessionManager.Success(Str(AuthSchemas.AccountCreated), Undefined)
  {
    var body := AuthSchemas.CredentialsJson(email, password);
    var req := AuthSchemas.DecodeRegister(libs, body).value;
    SessionManager.RegisterUserIdIsUndefined(env, s, email, password, text, libs.uuidText(id), req.email,
                                             AuthSchemas.AccountCreated);
  }

  /** The id the server names a user by in its login answer. */
  function LoggedInUser(libs: Libs, users: AuthRouter.Users, email: string, password: string): Option<AuthRouter.User> {
    match AuthSchemas.DecodeLogin(libs, AuthSchemas.CredentialsJson(email, password))
    case Valid(req) => AuthRouter.FindByEmail(users, req.email)
    case Invalid(_) => None
  }

  /** A successful server login leaves a browser signed in as the user the
      server found: the token and the user's id are stored together. */
  lemma ServerLoginSignsIn(libs: Libs, settings: AuthRouter.Settings, users: AuthRouter.Users,
                           env: Env, s: Store, email: string, password: string, now: int, text: string)
    requires Lawful(libs) && env.hasWindow
    requires AuthRouter.Login(libs, settings, users, AuthSchemas.CredentialsJson(email, password), now).reply.status == 200
    ensures LoggedInUser(libs, users, email, password).Some?
    ensures var user := LoggedInUser(libs, users, email, password).value;
      var token := libs.encodeToken(AuthRouter.TokenClaims(libs, settings, user, now));
      var reply := AuthRouter.Login(libs, settings, users, AuthSchemas.CredentialsJson(email, password), now).reply;
      var (result, s', nav) := SessionManager.Login(env, s, email, password, Delivered(reply, text));
      && s' == Store(Some(token), Some(libs.uuidText(user.id)))
      && result == SessionManager.Success(Str(SessionManager.LoginSucceeded), Str(libs.uuidText(user.id)))
      && nav.None?
  {
    var body := AuthSchemas.CredentialsJson(email, password);
    var req := AuthSchemas.DecodeLogin(libs, body).value;
    var user := AuthRouter.FindByEmail(users, req.email).value;
    var token := libs.encodeToken(AuthRouter.TokenClaims(libs, settings, user, now));
    var reply := AuthRouter.Login(libs, settings, users, body, now).reply;
    var resp := reply.body.json;
    assert |token| > 0;
    assert Api.WellFormedLogin(resp, token, libs.uuidText(user.id));
    Api.LoginStoresPair(env, s, email, password, 200, text, resp, token, libs.uuidText(user.id));
  }

  /** After such a login, every later request of the browser carries a
      header that the backend accepts as that user, until the token expires. */
  lemma SignedInRequestsAuthenticate(libs: Libs, settings: AuthRouter.Settings, users: AuthRouter.Users,
                                     env: Env, s: Store, email: string, password: string, now: int, text: string,
                                     later: int, cookie: Option<string>)
    requires Lawful(libs) && env.hasWindow && AuthRouter.Valid(users)
    requires AuthRouter.Login(libs, settings, users, AuthSchemas.CredentialsJson(email, password), now).reply.status == 200
    requires later <= now + settings.expireDays * AuthRouter.SecondsPerDay
    ensures var reply := AuthRouter.Login(libs, settings, users, AuthSchemas.CredentialsJson(email, password), now).reply;
      var s' := SessionManager.Login(env, s, email, password, Delivered(reply, text)).1;
      var headers := Api.RequestHeaders(GetAuthToken(env, s'), map[]);
      && "Authorization" in headers
      && Deps.GetCurrentUser(libs, users, Some(headers["Authorization"]), cookie, later)
         == Deps.Authenticated(LoggedInUser(libs, users, email, password).value)
  {
    ServerLoginSignsIn(libs, settings, users, env, s, email, password, now, text);
    var user := LoggedInUser(libs, users, email, password).value;
    assert user in users;
    Deps.LoginTokenAuthenticates(libs, settings, users, user, now, later, cookie);
  }

  /** A wrong password is answered 401, which the client's request layer
      treats as an expired session: storage is cleared, the browser is sent
      to the login page with the expired-session banner, and the login
      reports `Session expired` instead of the server's message. */
  lemma WrongPasswordLooksExpired(libs: Libs, settings: AuthRouter.Settings, users: AuthRouter.Users,
                                  env: Env, s: Store, email: string, password: string, now: int, text: string)
    requires env.hasWindow
    requires AuthRouter.Login(libs, settings, users, AuthSchemas.CredentialsJson(email, password), now).reply.status == 401
    ensures var reply := AuthRouter.Login(libs, settings, users, AuthSchemas.CredentialsJson(email, password), now).reply;
      var (result, s', nav) := SessionManager.Login(env, s, email, password, Delivered(reply, text));
      && result == SessionManager.Failure(Api.SessionExpiredMessage)
      && s' == ClientStorage.Empty
      && nav == Some(Api.SessionExpiredUrl)
      && LoginForm.InitialBanners(nav.value).generalError == LoginForm.SessionExpiredBanner
  {
    LoginForm.ExpiredRedirectShowsBanner();
  }

  /** Every 401 of `get_current_user` sends the browser back to the login
      page with its storage cleared, whatever the request was. */
  lemma RejectedRequestEndsSession(libs: Libs, users: AuthRouter.Users, authorization: Option<string>,
                                   cookie: Option<string>, now: int, env: Env, s: Store, endpoint: string,
                                   verb: Api.Method, body: Option<map<string, JsValue>>, text: string)
    requires env.hasWindow
    requires Deps.GetCurrentUser(libs, users, authorization, cookie, now).Rejected?
    ensures var reply := Deps.GetCurrentUser(libs, users, authorization, cookie, now).reply;
      var c := Api.Request(env, s, endpoint, verb, map[], body, Delivered(reply, text));
      && c.result == Js.Threw(Js.ErrorObject(Api.SessionExpiredMessage))
      && c.store == ClientStorage.Empty
      && c.nav == Some(Api.SessionExpiredUrl)
  {
  }

  /** A password of four characters outside the Basic Multilingual Plane is
      eight UTF-16 code units: the registration form accepts it, and the
      server, which counts characters, refuses it at the `password` field. */
  lemma PasswordLengthDisagrees(libs: Libs, email: string)
    requires RegisterForm.MatchesEmailPattern(email) && libs.normalizeEmail(email).Some?
    ensures var password := "\U{1F600}\U{1F600}\U{1F600}\U{1F600}";
      && RegisterForm.FormValid(email, password, password)
      && AuthSchemas.DecodeRegister(libs, AuthSchemas.CredentialsJson(email, password))
         == Backend.Invalid([BodyLoc("password")])
  {
    var password := "\U{1F600}\U{1F600}\U{1F600}\U{1F600}";
    assert Utf16Length(password) == 8 by {
      assert password[1..][1..][1..][1..] == [];
    }
    RegisterForm.FormValidIff(email, password, password);
    AuthSchemas.ShortPasswordOnlyAtLogin(libs, email, password);
  }

  /** A FastAPI validation error reaches the caller as `[object Object]`
      once per failing field, comma-separated: the client turns the list in
      `detail` into text, and no field name or message survives. */
  lemma ValidationErrorUnreadable(locs: seq<Loc>, env: Env, s: Store, endpoint: string, verb: Api.Method,
                                  caller: Api.Headers, body: Option<map<string, JsValue>>, text: string)
    requires |locs| > 0
    ensures var c := Api.Request(env, s, endpoint, verb, caller, body, Delivered(ValidationReply(locs), text));
      && c.result == Js.Threw(Js.ErrorObject(ObjectListText(|locs|)))
      && (c.result.thrown.message == "[object Object]" <==> |locs| == 1)
  {
    var detail := ValidationReply(locs).body.json.fields["detail"];
    assert ValidationReply(locs).body.json == Obj(map["detail" := Arr(detail.items)]);
    Api.ListDetailMessage(env, s, endpoint, verb, caller, body, detail.items, text);
    ObjectListTextSingle(|locs|);
  }

  // ---------------------------------------------------------------------
  // Tasks
  // ---------------------------------------------------------------------

  /** The JSON object the server reads from a request the client sent. */
  function Received(sent: Api.Outgoing): JsValue {
    if sent.body.Some? then Obj(sent.body.value) else Undefined
  }

  /** The create form's request passes validation exactly when the trimmed
      title has 1 to 200 characters and the trimmed description at most
      1000; it then carries the trimmed title, and the trimmed description
      or none when that is empty. */
  lemma CreateFormAccepted(env: Env, s: Store, userId: string, title: string, description: string,
                           fetch: Api.FetchResult)
    ensures var sent := Api.CreateTask(env, s, userId, TaskForm.CreatePayload(title, description), fetch).sent;
      var t, d := TaskForm.JsTrim(title), TaskForm.JsTrim(description);
      && (TaskSchemas.DecodeCreate(Received(sent)).Valid? <==> 1 <= |t| <= TaskSchemas.TitleMax && |d| <= TaskSchemas.DescriptionMax)
      && (TaskSchemas.DecodeCreate(Received(sent)).Valid? ==>
           TaskSchemas.DecodeCreate(Received(sent)).value
             == TaskSchemas.CreateRequest(t, if d == "" then None else Some(d)))
  {
    var p := TaskForm.CreatePayload(title, description);
    var w := WireObject(p);
    assert FieldOf(w, "title") == Str(TaskForm.JsTrim(title));
    assert FieldOf(w, "description") == (if TaskForm.JsTrim(description) == "" then Undefined else Str(TaskForm.JsTrim(description)));
  }

  /** The edit form's request passes validation under the same length
      bounds, and keeps the task's completion state. */
  lemma EditFormAccepted(env: Env, s: Store, userId: string, task: TaskForm.FormTask, title: string, description: string,
                         fetch: Api.FetchResult)
    ensures var sent := Api.UpdateTask(env, s, userId, task.id, TaskForm.UpdatePayload(task, title, description), fetch).sent;
      var t, d := TaskForm.JsTrim(title), TaskForm.JsTrim(description);
      && (TaskSchemas.DecodeUpdate(Received(sent)).Valid? <==> 1 <= |t| <= TaskSchemas.TitleMax && |d| <= TaskSchemas.DescriptionMax)
      && (TaskSchemas.DecodeUpdate(Received(sent)).Valid? ==>
           TaskSchemas.DecodeUpdate(Received(sent)).value
             == TaskSchemas.UpdateRequest(t, if d == "" then None else Some(d), task.completed))
  {
    var p := TaskForm.UpdatePayload(task, title, description);
    WireObjectDefined(p);
    assert Received(Api.UpdateTask(env, s, userId, task.id, p, fetch).sent) == Obj(p);
    EditPayloadDecodes(task, title, description);
  }

  lemma EditPayloadDecodes(task: TaskForm.FormTask, title: string, description: string)
    ensures var t, d := TaskForm.JsTrim(title), TaskForm.JsTrim(description);
      var r := TaskSchemas.DecodeUpdate(Obj(TaskForm.UpdatePayload(task, title, description)));
      && (r.Valid? <==> 1 <= |t| <= TaskSchemas.TitleMax && |d| <= TaskSchemas.DescriptionMax)
      && (r.Valid? ==> r.value == TaskSchemas.UpdateRequest(t, if d == "" then None else Some(d), task.completed))
  {
    var p := TaskForm.UpdatePayload(task, title, description);
    assert FieldOf(p, "title") == Str(TaskForm.JsTrim(title));
    assert FieldOf(p, "completed") == Bool(task.completed);
  }

  /** Toggling a task the server returned patches it to the opposite state. */
  lemma ToggleFlipsServerState(env: Env, s: Store, userId: string, taskId: int, t: TaskSchemas.TaskResponse,
                               text: string, patchFetch: Api.FetchResult)
    ensures var get := Delivered(Reply(200, Json(TaskSchemas.TaskResponseJson(t))), text);
      var toggle := Api.ToggleTaskComplete(env, s, userId, taskId, get, patchFetch);
      && |toggle.sent| == 2
      && TaskSchemas.DecodePatch(Received(toggle.sent[1])) == Backend.Valid(TaskSchemas.PatchRequest(!t.completed))
  {
    var fields := TaskSchemas.TaskResponseJson(t).fields;
    Api.ToggleNegates(env, s, userId, taskId, text, fields, t.completed, patchFetch);
  }

  /** The client's list is the server's list, item for item and in order. */
  lemma ListShowsServerOrder(env: Env, s: Store, userId: string, rs: seq<TaskSchemas.TaskResponse>, text: string)
    ensures var c := Api.ListTasks(env, s, userId, Delivered(Reply(200, Json(TaskSchemas.TaskListJson(rs))), text));
      && c.result.Normal? && c.result.value.Arr? && |c.result.value.items| == |rs|
      && forall i :: 0 <= i < |rs| ==> c.result.value.items[i] == TaskSchemas.TaskResponseJson(rs[i])
  {
    var j := TaskSchemas.TaskListJson(rs);
    Api.ListTasksUnwraps(env, s, userId, text, j.fields, j.fields["tasks"].items);
  }
}

=== FILE: js.dfy ===
/**
 * The JavaScript values the browser client handles: parsed JSON bodies,
 * `undefined`, truthiness, property reads (which throw a TypeError on
 * `null`/`undefined`), `String(v)`, and the values a `throw` can carry.
 */
module Js {
  import opened Text

  /** A JavaScript value restricted to what JSON can carry, plus `undefined`.
      Numbers are integers in this model. */
  datatype JsValue =
    | Undefined
    | Null
    | Bool(b: bool)
    | Num(n: int)
    | Str(s: string)
    | Arr(items: seq<JsValue>)
    | Obj(fields: map<string, JsValue>)

  /** JavaScript truthiness (`!!v`). */
  predicate Truthy(v: JsValue) {
    match v
    case Undefined => false
    case Null => false
    case Bool(b) => b
    case Num(n) => n != 0
    case Str(s) => s != ""
    case Arr(_) => true
    case Obj(_) => true
  }

  /** What a `throw` carries: an `Error` instance with its message, or any other value. */
  datatype Thrown = ErrorObject(message: string) | NonError(value: JsValue)

  /** How the evaluation of an expression or an awaited call ends. */
  datatype Completion<+T> = Normal(value: T) | Threw(thrown: Thrown)

  /** The message of the TypeError a browser (V8 wording) raises when a
      property of `null` or `undefined` is read. */
  function NullishReadMessage(base: string, key: string): string {
    "Cannot read properties of " + base + " (reading '" + key + "')"
  }

  /** `v.key` for the keys the client reads (`detail`, `tasks`, `access_token`,
      `user`, `id`, `message`, `user_id`, `completed`): none of them is a
      built-in property of strings, arrays or plain objects, so only an
      object's own fields are found; reading from `null`/`undefined` throws. */
  function Prop(v: JsValue, key: string): Completion<JsValue> {
    match v
    case Undefined => Threw(ErrorObject(NullishReadMessage("undefined", key)))
    case Null => Threw(ErrorObject(NullishReadMessage("null", key)))
    case Obj(f) => Normal(if key in f then f[key] else Undefined)
    case _ => Normal(Undefined)
  }

  /** `v.outer.inner`. */
  function Prop2(v: JsValue, outer: string, inner: string): Completion<JsValue> {
    match Prop(v, outer)
    case Threw(t) => Threw(t)
    case Normal(w) => Prop(w, inner)
  }

  /** A read of `v.key` throws exactly when `v` is `null` or `undefined`, and
      then with an `Error` instance. */
  lemma PropThrowsOnlyOnNullish(v: JsValue, key: string)
    ensures Prop(v, key).Threw? <==> (v.Null? || v.Undefined?)
    ensures Prop(v, key).Threw? ==> Prop(v, key).thrown.ErrorObject?
  {
  }

  /** `String(v)`, which is also how `new Error(v)` and `localStorage.setItem`
      turn a value into a string. */
  function ToJsString(v: JsValue): string
    decreases v, 1
  {
    match v
    case Undefined => "undefined"
    case Null => "null"
    case Bool(b) => if b then "true" else "false"
    case Num(n) => IntToDecimal(n)
    case Str(s) => s
    case Arr(items) => JoinItems(v, 0)
    case Obj(_) => "[object Object]"
  }

  /** `Array.prototype.join(",")` from index `i` on; `null` and `undefined`
      items render as the empty string. */
  function JoinItems(v: JsValue, i: nat): string
    requires v.Arr? && i <= |v.items|
    decreases v, 0, |v.items| - i
  {
    if i == |v.items| then ""
    else
      var item := v.items[i];
      var rendered := if item.Undefined? || item.Null? then "" else ToJsString(item);
      (if i == 0 then "" else ",") + rendered + JoinItems(v, i + 1)
  }

  /** `n` copies of `[object Object]` separated by commas. */
  function ObjectListText(n: nat): (t: string)
    ensures n == 0 <==> t == ""
  {
    if n == 0 then ""
    else "[object Object]" + (if n == 1 then "" else "," + ObjectListText(n - 1))
  }

  predicate AllObjects(items: seq<JsValue>) {
    forall i :: 0 <= i < |items| ==> items[i].Obj?
  }

  /** The join from a position past the first item: a comma before every
      remaining `[object Object]`. */
  lemma {:induction false} JoinObjectsFrom(v: JsValue, i: nat)
    requires v.Arr? && AllObjects(v.items) && 0 < i <= |v.items|
    ensures JoinItems(v, i) == if i == |v.items| then "" else "," + ObjectListText(|v.items| - i)
    decreases |v.items| - i
  {
    if i < |v.items| {
      JoinObjectsFrom(v, i + 1);
    }
  }

  /** The join of a non-empty array of objects starts with the first
      object's text and no comma. */
  lemma JoinFirstObject(items: seq<JsValue>)
    requires AllObjects(items) && |items| > 0
    ensures ToJsString(Arr(items)) == "[object Object]" + JoinItems(Arr(items), 1)
  {
    assert ToJsString(items[0]) == "[object Object]";
  }

  /** `String` of an array of plain objects is `[object Object]` repeated
      once per item and comma-separated: it depends only on how many items
      there are, never on their contents. */
  lemma StringOfObjectList(items: seq<JsValue>)
    requires AllObjects(items)
    ensures ToJsString(Arr(items)) == ObjectListText(|items|)
  {
    if |items| > 0 {
      JoinFirstObject(items);
      JoinObjectsFrom(Arr(items), 1);
    }
  }

  /** For a single object the text is exactly `[object Object]`; for two or
      more it is not. */
  lemma ObjectListTextSingle(n: nat)
    ensures ObjectListText(n) == "[object Object]" <==> n == 1
  {
    if n > 1 {
      assert ObjectListText(n)[15] == ',';
    }
  }

  /** `JSON.stringify` of a flat object literal: fields whose value is
      `undefined` are left out of the text. */
  function WireObject(fields: map<string, JsValue>): (w: map<string, JsValue>)
    ensures forall k :: k in w <==> k in fields && !fields[k].Undefined?
    ensures forall k :: k in w ==> w[k] == fields[k]
  {
    map k | k in fields && !fields[k].Undefined? :: fields[k]
  }

  /** An object with no `undefined` member is sent exactly as it is. */
  lemma WireObjectDefined(fields: map<string, JsValue>)
    requires forall k :: k in fields ==> !fields[k].Undefined?
    ensures WireObject(fields) == fields
  {
  }

  /** JavaScript `s.length`: UTF-16 code units, two for a character outside
      the Basic Multilingual Plane. */
  function Utf16Length(s: string): (n: nat)
    ensures |s| <= n <= 2 * |s|
  {
    if |s| == 0 then 0
    else (if s[0] as int >= 0x10000 then 2 else 1) + Utf16Length(s[1..])
  }
}

=== FILE: login_form.dfy ===
/**
 * The login form: the banner messages it derives from the page's query
 * string, its emptiness-only validation, and where a submit leads.
 */
module LoginForm {
  import opened Common
  import opened Text
  import opened Js
  import opened ClientStorage
  import opened Api
  import opened SessionManager
  import RegisterForm

  const EmailRequired := "Email is required"
  const PasswordRequired := "Password is required"
  const SessionExpiredBanner := "Your session has expired. Please log in again."
  const HomeUrl := "/"

  /** `+` stands for a space in a query component. */
  function PlusToSpace(s: string): (r: string)
    ensures |r| == |s|
    ensures forall i :: 0 <= i < |s| ==> r[i] == (if s[i] == '+' then ' ' else s[i])
  {
    seq(|s|, i requires 0 <= i < |s| => if s[i] == '+' then ' ' else s[i])
  }

  /** The query of a URL: after the first `?`, up to a `#`. */
  function SearchOf(url: string): (q: string)
    ensures '?' !in url ==> q == ""
  {
    var i := IndexOf(url, '?');
    if i == |url| then ""
    else
      var rest := url[i + 1..];
      rest[..IndexOf(rest, '#')]
  }

  /** `new URLSearchParams(q).get(name)`: the value of the first
      `&`-separated pair whose name is `name`, where a pair without `=` has
      the empty value. */
  function QueryGet(q: string, name: string): (v: Option<string>)
    ensures v.Some? ==> |v.value| <= |q|
    decreases |q|
  {
    var k := IndexOf(q, '&');
    var pair := q[..k];
    var eq := IndexOf(pair, '=');
    if pair != "" && PlusToSpace(pair[..eq]) == name then
      Some(if eq == |pair| then "" else PlusToSpace(pair[eq + 1..]))
    else if k == |q| then None
    else QueryGet(q[k + 1..], name)
  }

  /** The general error and success banner the page starts with. */
  datatype Banners = Banners(generalError: string, success: string)

  /** The effect run on load: a truthy `message` becomes the success banner,
      and `error=session_expired` the expired-session error. */
  function InitialBanners(url: string): (b: Banners)
    ensures b.success != "" <==> QueryGet(SearchOf(url), "message").Some? && QueryGet(SearchOf(url), "message").value != ""
    ensures b.generalError != "" <==> QueryGet(SearchOf(url), "error") == Some("session_expired")
    ensures b.generalError != "" ==> b.generalError == SessionExpiredBanner
    // the banner is the `message` value itself
    ensures b.success == (if QueryGet(SearchOf(url), "message").Some? then QueryGet(SearchOf(url), "message").value else "")
  {
    var q := SearchOf(url);
    var message := QueryGet(q, "message");
    var error := QueryGet(q, "error");
    Banners(if error == Some("session_expired") then SessionExpiredBanner else "",
            if message.Some? then message.value else "")
  }

  /** The first `c` of `a + [c] + b` is the one after `a` when `a` has none. */
  lemma {:induction false} IndexOfJoin(a: string, c: char, b: string)
    requires c !in a
    ensures IndexOf(a + [c] + b, c) == |a|
  {
    if a != [] {
      assert (a + [c] + b)[1..] == a[1..] + [c] + b;
      IndexOfJoin(a[1..], c, b);
    }
  }

  /** The query of `path?q` is `q` when `path` has no `?` and `q` no `#`. */
  lemma SearchOfJoin(path: string, q: string)
    requires '?' !in path && '#' !in q
    ensures SearchOf(path + "?" + q) == q
  {
    IndexOfJoin(path, '?', q);
    var url := path + "?" + q;
    assert url[|path| + 1..] == q;
  }

  /** A one-pair query `name=value` yields `value` for `name` and nothing for
      any other key, when neither part holds a separator or a `+`. */
  lemma QueryGetSingle(name: string, value: string, key: string)
    requires name != "" && '&' !in name && '=' !in name && '+' !in name
    requires '&' !in value && '+' !in value
    ensures QueryGet(name + "=" + value, key) == if key == name then Some(value) else None
  {
    var q := name + "=" + value;
    assert '&' !in q by {
      forall i | 0 <= i < |q| ensures q[i] != '&' {
        if i < |name| { assert q[i] == name[i]; }
        else if i > |name| { assert q[i] == value[i - |name| - 1]; }
      }
    }
    assert IndexOf(q, '&') == |q|;
    assert q[..|q|] == q;
    IndexOfJoin(name, '=', value);
    assert q[..|name|] == name;
    assert q[|name| + 1..] == value;
    assert PlusToSpace(name) == name;
    assert PlusToSpace(value) == value;
  }

  /** No character of `s` separates or encodes query components. */
  predicate PlainComponent(s: string) {
    forall i :: 0 <= i < |s| ==> s[i] != '&' && s[i] != '+' && s[i] != '#'
  }

  lemma RegisteredMessageIsPlain()
    ensures PlainComponent(RegisterForm.RegisteredMessage)
  {
  }

  /** A page whose URL carries the single pair `name=value` opens with the
      banners that pair selects. */
  lemma OnePairBanners(path: string, name: string, value: string)
    requires '?' !in path && name != "" && '=' !in name
    requires PlainComponent(name) && PlainComponent(value)
    ensures InitialBanners(path + "?" + name + "=" + value) == Banners(
      if name == "error" && value == "session_expired" then SessionExpiredBanner else "",
      if name == "message" then value else "")
  {
    assert path + "?" + name + "=" + value == path + "?" + (name + "=" + value);
    SearchOfJoin(path, name + "=" + value);
    QueryGetSingle(name, value, "error");
    QueryGetSingle(name, value, "message");
  }

  /** A page reached by the API layer's 401 redirect opens with the
      expired-session error and no success banner. */
  lemma ExpiredRedirectShowsBanner()
    ensures InitialBanners(SessionExpiredUrl) == Banners(SessionExpiredBanner, "")
  {
    OnePairBanners(LoginUrl, "error", "session_expired");
  }

  /** A page reached after a successful registration opens with the
      registration message as its success banner and no error. */
  lemma RegisteredRedirectShowsMessage()
    ensures InitialBanners(RegisterForm.RegisteredUrl) == Banners("", RegisterForm.RegisteredMessage)
  {
    RegisteredMessageIsPlain();
    OnePairBanners(LoginUrl, "message", RegisterForm.RegisteredMessage);
  }

  /** `validateForm`: only emptiness is checked. */
  function ValidateForm(email: string, password: string): (errors: map<string, string>)
    ensures "email" in errors <==> email == ""
    ensures "password" in errors <==> password == ""
    ensures errors.Keys <= {"email", "password"}
    ensures "email" in errors ==> errors["email"] == EmailRequired
    ensures "password" in errors ==> errors["password"] == PasswordRequired
  {
    (if email == "" then map["email" := EmailRequired] else map[])
      + (if password == "" then map["password" := PasswordRequired] else map[])
  }

  /** What a submit did: field errors, banners, whether `login` was called,
      the router navigation, and the API layer's navigation and storage. */
  datatype Submit = Submit(errors: map<string, string>, banners: Banners, called: bool,
                           push: Option<string>, locationNav: Option<string>, store: Store)

  /** `handleSubmit`: both banners are cleared first. */
  function HandleSubmit(env: Env, s: Store, email: string, password: string, fetch: FetchResult): (r: Submit)
    ensures r.errors == ValidateForm(email, password)
    ensures r.called <==> email != "" && password != ""
    ensures r.banners.success == ""
    ensures !r.called ==> r.banners.generalError == "" && r.push.None? && r.locationNav.None? && r.store == s
    ensures r.called ==> var (result, s', nav) := Login(env, s, email, password, fetch);
      && r.store == s' && r.locationNav == nav
      && (r.push.Some? <==> result.Success?)
      && (r.push.Some? ==> r.push.value == HomeUrl && r.banners.generalError == "")
      && (result.Failure? ==> r.banners.generalError == result.reason)
  {
    var errors := ValidateForm(email, password);
    if |errors| != 0 then Submit(errors, Banners("", ""), false, None, None, s)
    else
      var (result, s', nav) := Login(env, s, email, password, fetch);
      match result
      case Success(_, _) => Submit(errors, Banners("", ""), true, Some(HomeUrl), nav, s')
      case Failure(message) => Submit(errors, Banners(message, ""), true, None, nav, s')
  }

  /** Submitting valid credentials that the server accepts lands on the home
      page with a session whose user is the one the server named. */
  lemma LoginSubmitAuthenticates(env: Env, s: Store, email: string, password: string,
                                 text: string, resp: JsValue, token: string, userId: string)
    requires env.hasWindow && email != "" && password != ""
    requires WellFormedLogin(resp, token, userId) && userId != ""
    ensures var r := HandleSubmit(env, s, email, password, Response(200, text, Parsed(resp)));
      && r.push == Some(HomeUrl)
      && IsAuthenticated(env, r.store)
      && GetCurrentUserId(env, r.store) == Some(userId)
  {
    LoginAuthenticates(env, s, email, password, 200, text, resp, token, userId);
  }
}

=== FILE: register_form.dfy ===
/**
 * The registration form: the e-mail pattern, per-field validation, and
 * where a submit leads.
 */
module RegisterForm {
  import opened Common
  import opened Text
  import opened Js
  import opened ClientStorage
  import opened Api
  import opened SessionManager

  const EmailRequired := "Email is required"
  const EmailInvalid := "Enter a valid email address"
  const PasswordRequired := "Password is required"
  const PasswordTooShort := "Password must be at least 8 characters"
  const ConfirmRequired := "Please confirm your password"
  const PasswordsDiffer := "Passwords do not match"
  const MinPasswordLength := 8
  const RegisteredMessage := "Registration successful! Please log in."
  /** `/login?message=Registration successful! Please log in.` */
  const RegisteredUrl := LoginUrl + "?" + "message" + "=" + RegisteredMessage

  /** A character `[^\s@]` accepts. */
  predicate Plain(c: char) {
    c != '@' && !IsJsSpace(c)
  }

  /** `s` is `A@B.C` with the `@` at `at` and the `.` at `dot`, where `A`,
      `B` and `C` are non-empty runs of plain characters (`B` and `C` may
      hold further dots). */
  predicate EmailShape(s: string, at: int, dot: int) {
    && 0 < at && at + 1 < dot < |s| - 1
    && s[at] == '@' && s[dot] == '.'
    && forall k :: 0 <= k < |s| && k != at ==> Plain(s[k])
  }

  /** `/^[^\s@]+@[^\s@]+\.[^\s@]+$/.test(s)`. */
  predicate MatchesEmailPattern(s: string) {
    exists at, dot | 0 <= at < |s| && 0 <= dot < |s| :: EmailShape(s, at, dot)
  }

  /** `validateEmail`: one scan for white space and the single `@`, then a
      search for a `.` that leaves characters on both of its sides. */
  method ValidateEmail(s: string) returns (ok: bool)
    ensures ok <==> MatchesEmailPattern(s)
  {
    var at := -1;
    var i := 0;
    while i < |s|
      invariant 0 <= i <= |s| && -1 <= at < i
      invariant at >= 0 ==> s[at] == '@'
      invariant forall k :: 0 <= k < i && k != at ==> Plain(s[k])
    {
      if IsJsSpace(s[i]) || (s[i] == '@' && at != -1) {
        NotEmailAt(s, i, at);
        return false;
      }
      if s[i] == '@' {
        at := i;
      }
      i := i + 1;
    }
    if at < 1 {
      forall a, e | 0 <= a < |s| && 0 <= e < |s| ensures !EmailShape(s, a, e) {
      }
      return false;
    }
    var d := at + 2;
    while d < |s| - 1
      invariant at + 2 <= d
      invariant forall k :: at + 2 <= k < d && k < |s| ==> s[k] != '.'
    {
      if s[d] == '.' {
        assert EmailShape(s, at, d);
        return true;
      }
      d := d + 1;
    }
    forall a, e | 0 <= a < |s| && 0 <= e < |s| ensures !EmailShape(s, a, e) {
    }
    return false;
  }

  /** A white-space character, or a second `@`, rules the pattern out. */
  lemma NotEmailAt(s: string, i: int, at: int)
    requires 0 <= i < |s| && -1 <= at < i && (at >= 0 ==> s[at] == '@')
    requires IsJsSpace(s[i]) || (s[i] == '@' && at != -1)
    ensures !MatchesEmailPattern(s)
  {
    assert !Plain(s[i]);
    forall a, d | 0 <= a < |s| && 0 <= d < |s| ensures !EmailShape(s, a, d) {
    }
  }

  /** Two sample addresses: a plain one is accepted, and one with a space is not. */
  lemma EmailExamples()
    ensures MatchesEmailPattern("ab@cd.ef")
    ensures !MatchesEmailPattern("a b@cd.ef")
    ensures !MatchesEmailPattern("ab@cd.")
  {
    assert EmailShape("ab@cd.ef", 2, 5);
    NotEmailAt("a b@cd.ef", 1, -1);
  }

  /** The error map of `validateForm`: at most one message per field, the
      first failing check winning. */
  function ValidateForm(email: string, password: string, confirm: string): (errors: map<string, string>)
    ensures errors.Keys <= {"email", "password", "confirmPassword"}
    ensures "email" in errors <==> !MatchesEmailPattern(email)
    ensures "email" in errors ==> errors["email"] == (if email == "" then EmailRequired else EmailInvalid)
    ensures "password" in errors <==> Utf16Length(password) < MinPasswordLength
    ensures "password" in errors ==> errors["password"] == (if password == "" then PasswordRequired else PasswordTooShort)
    ensures "confirmPassword" in errors <==> confirm == "" || password != confirm
    ensures "confirmPassword" in errors ==>
      errors["confirmPassword"] == (if confirm == "" then ConfirmRequired else PasswordsDiffer)
  {
    var e1: map<string, string> :=
      if email == "" then map["email" := EmailRequired]
      else if !MatchesEmailPattern(email) then map["email" := EmailInvalid]
      else map[];
    var e2: map<string, string> :=
      if password == "" then e1["password" := PasswordRequired]
      else if Utf16Length(password) < MinPasswordLength then e1["password" := PasswordTooShort]
      else e1;
    if confirm == "" then e2["confirmPassword" := ConfirmRequired]
    else if password != confirm then e2["confirmPassword" := PasswordsDiffer]
    else e2
  }

  /** The form is valid exactly when every field passes. */
  predicate FormValid(email: string, password: string, confirm: string) {
    |ValidateForm(email, password, confirm)| == 0
  }

  lemma FormValidIff(email: string, password: string, confirm: string)
    ensures FormValid(email, password, confirm) <==>
      MatchesEmailPattern(email) && Utf16Length(password) >= MinPasswordLength && confirm == password
  {
    var errors := ValidateForm(email, password, confirm);
    if !MatchesEmailPattern(email) {
      assert "email" in errors;
    } else if Utf16Length(password) < MinPasswordLength {
      assert "password" in errors;
    } else if confirm != password {
      assert "confirmPassword" in errors;
    } else {
      assert errors.Keys == {};
    }
  }

  /** What a submit did: the field errors and general error shown, whether
      `register` was called, the router navigation, and the API layer's
      own navigation and storage. */
  datatype Submit = Submit(errors: map<string, string>, generalError: string, called: bool,
                           push: Option<string>, locationNav: Option<string>, store: Store)

  /** `handleSubmit`. */
  function HandleSubmit(env: Env, s: Store, email: string, password: string, confirm: string,
                        fetch: FetchResult): (r: Submit)
    ensures r.errors == ValidateForm(email, password, confirm)
    ensures r.called <==> FormValid(email, password, confirm)
    ensures !r.called ==> r.generalError == "" && r.push.None? && r.locationNav.None? && r.store == s
    ensures r.called ==> var (result, s', nav) := Register(env, s, email, password, fetch);
      && r.store == s' && r.locationNav == nav
      && (r.push.Some? <==> result.Success?)
      && (r.push.Some? ==> r.push.value == RegisteredUrl && r.generalError == "")
      && (result.Failure? ==> r.generalError == result.reason)
  {
    var errors := ValidateForm(email, password, confirm);
    if |errors| != 0 then Submit(errors, "", false, None, None, s)
    else
      var (result, s', nav) := Register(env, s, email, password, fetch);
      match result
      case Success(_, _) => Submit(errors, "", true, Some(RegisteredUrl), nav, s')
      case Failure(message) => Submit(errors, message, true, None, nav, s')
  }
}

=== FILE: server.dfy ===
/**
 * A request to a task endpoint as the application serves it: the
 * `get_current_user` dependency runs first and its 401 ends the request;
 * otherwise the handler runs on behalf of the user it returned.
 */
module Server {
  import opened Common
  import opened Js
  import opened Backend
  import opened AuthRouter
  import opened Deps
  import opened TaskRouter

  /** A call to one of the six task routes under `/api/{user_id}/tasks`;
      `urlUser` is the `{user_id}` path segment as text. */
  datatype TaskCall =
    | ListCall(urlUser: string)
    | CreateCall(urlUser: string, body: JsValue)
    | GetCall(urlUser: string, taskId: int)
    | UpdateCall(urlUser: string, taskId: int, body: JsValue)
    | PatchCall(urlUser: string, taskId: int, body: JsValue)
    | DeleteCall(urlUser: string, taskId: int)

  /** The handler's outcome for an authenticated user. */
  method Handle(libs: Libs, db: TaskDb, current: Uuid, call: TaskCall, now: int) returns (reply: Reply, db': TaskDb)
    requires TaskRouter.Valid(db)
    ensures TaskRouter.Valid(db') && Isolated(db, db', current)
    ensures reply.status in {200, 201, 204, 404, 422}
    ensures reply.status == 422 ==> db' == db
    ensures reply.status == 404 ==> reply == NotFound && db' == db
    ensures call.ListCall? || call.GetCall? ==> db' == db
  {
    match call
    case ListCall(u) =>
      var listed;
      reply, listed := ListTasks(libs, db, current, u);
      db' := db;
    case CreateCall(u, body) =>
      var o := CreateTask(libs, db, current, u, body, now);
      reply, db' := o.reply, o.db;
    case GetCall(u, id) =>
      var o := GetTask(libs, db, current, u, id);
      reply, db' := o.reply, o.db;
    case UpdateCall(u, id, body) =>
      var o := UpdateTask(libs, db, current, u, id, body, now);
      reply, db' := o.reply, o.db;
    case PatchCall(u, id, body) =>
      var o := PatchTask(libs, db, current, u, id, body, now);
      reply, db' := o.reply, o.db;
    case DeleteCall(u, id) =>
      var o := DeleteTask(libs, db, current, u, id);
      reply, db' := o.reply, o.db;
  }

  /** A task request, dependency first. Without a user, nothing changes and
      the reply is the dependency's 401, before any validation; with one,
      only that user's rows may change. */
  method ServeTask(libs: Libs, users: Users, db: TaskDb, call: TaskCall,
                   authorization: Option<string>, cookie: Option<string>, now: int)
    returns (reply: Reply, db': TaskDb)
    requires TaskRouter.Valid(db)
    ensures TaskRouter.Valid(db')
    ensures var auth := GetCurrentUser(libs, users, authorization, cookie, now);
      && (auth.Rejected? ==> reply == auth.reply && db' == db)
      && (auth.Authenticated? ==> Isolated(db, db', auth.user.id) && reply.status != 401)
    ensures reply.status == 401 <==> GetCurrentUser(libs, users, authorization, cookie, now).Rejected?
  {
    match GetCurrentUser(libs, users, authorization, cookie, now)
    case Rejected(r) =>
      reply, db' := r, db;
    case Authenticated(user) =>
      reply, db' := Handle(libs, db, user.id, call, now);
  }

  /** Without any credentials every task request is refused with
      `Not authenticated`, the store unchanged, whatever the body. */
  method Anonymous(libs: Libs, users: Users, db: TaskDb, call: TaskCall, now: int) returns (reply: Reply, db': TaskDb)
    requires TaskRouter.Valid(db)
    ensures reply == DetailReply(401, NotAuthenticated) && db' == db
  {
    reply, db' := ServeTask(libs, users, db, call, None, None, now);
  }
}

=== FILE: session_manager.dfy ===
/**
 * The client's session helpers: whether a session is present, and the
 * register/login/logout wrappers the forms call. They turn the API layer's
 * thrown errors into a result record and never throw themselves.
 */
module SessionManager {
  import opened Common
  import opened Js
  import opened ClientStorage
  import opened Api

  /** The `{success, message, userId?}` record returned by `register` and
      `login`; on success `message` and `userId` are whatever the response
      carried. */
  datatype AuthResult = Success(message: JsValue, userId: JsValue) | Failure(reason: string)

  const RegistrationFailed := "Registration failed"
  const LoginFailed := "Login failed"
  const LoginSucceeded := "Login successful"

  function NonEmpty(v: Option<string>): bool {
    v.Some? && v.value != ""
  }

  /** `isAuthenticated`: in a browser, both stored values are non-empty. */
  function IsAuthenticated(env: Env, s: Store): (b: bool)
    ensures b <==> env.hasWindow && NonEmpty(s.authToken) && NonEmpty(s.userId)
    ensures b ==> NonEmpty(GetAuthToken(env, s)) && NonEmpty(GetUserId(env, s))
  {
    env.hasWindow && NonEmpty(s.authToken) && NonEmpty(s.userId)
  }

  function GetCurrentUserId(env: Env, s: Store): Option<string> {
    GetUserId(env, s)
  }

  function GetToken(env: Env, s: Store): Option<string> {
    GetAuthToken(env, s)
  }

  /** The `catch` clause shared by `register` and `login`. */
  function FailureMessage(t: Thrown, fallback: string): string {
    if t.ErrorObject? then t.message else fallback
  }

  /** `register`: the result, the storage and a navigation the API layer did. */
  function Register(env: Env, s: Store, email: string, password: string, fetch: FetchResult)
    : (r: (AuthResult, Store, Option<string>))
    ensures r.1 == s || (r.1 == RemoveAuthToken(env, s) && fetch.Response? && fetch.status == 401)
    // storage and navigation are what the request left
    ensures r.1 == RegisterUser(env, s, email, password, fetch).store
    ensures r.2 == RegisterUser(env, s, email, password, fetch).nav
    ensures r.0.Success? <==>
      (RegisterUser(env, s, email, password, fetch).result.Normal?
       && !RegisterUser(env, s, email, password, fetch).result.value.Null?
       && !RegisterUser(env, s, email, password, fetch).result.value.Undefined?)
    // success: `message` and `userId` are the response's own `message` and `user_id`
    ensures var c := RegisterUser(env, s, email, password, fetch);
      r.0.Success? ==> Normal(r.0.message) == Prop(c.result.value, "message")
                       && Normal(r.0.userId) == Prop(c.result.value, "user_id")
    // failure: the thrown error's message, or the fixed fallback for a non-Error
    ensures var c := RegisterUser(env, s, email, password, fetch);
      c.result.Threw? ==> r.0 == Failure(FailureMessage(c.result.thrown, RegistrationFailed))
    ensures var c := RegisterUser(env, s, email, password, fetch);
      c.result.Normal? && r.0.Failure? ==> r.0.reason == Prop(c.result.value, "message").thrown.message
  {
    var c := RegisterUser(env, s, email, password, fetch);
    var result :=
      match c.result
      case Threw(t) => Failure(FailureMessage(t, RegistrationFailed))
      case Normal(resp) =>
        match (Prop(resp, "message"), Prop(resp, "user_id"))
        case (Threw(t), _) => Failure(FailureMessage(t, RegistrationFailed))
        case (_, Threw(t)) => Failure(FailureMessage(t, RegistrationFailed))
        case (Normal(m), Normal(u)) => Success(m, u);
    (result, c.store, c.nav)
  }

  /** `login`: on success the message is fixed and `userId` is `response.user.id`. */
  function Login(env: Env, s: Store, email: string, password: string, fetch: FetchResult)
    : (r: (AuthResult, Store, Option<string>))
    ensures r.1 == LoginUser(env, s, email, password, fetch).store
    ensures r.0.Success? ==>
      (r.0.message == Str(LoginSucceeded) && LoginUser(env, s, email, password, fetch).result.Normal?)
    ensures r.2 == LoginUser(env, s, email, password, fetch).nav
    // success exactly when `response.user.id` could be read, and `userId` is that value
    ensures var c := LoginUser(env, s, email, password, fetch);
      r.0.Success? <==> c.result.Normal? && Prop2(c.result.value, "user", "id").Normal?
    ensures var c := LoginUser(env, s, email, password, fetch);
      r.0.Success? ==> Normal(r.0.userId) == Prop2(c.result.value, "user", "id")
    // failure: the thrown error's message, or the fixed fallback for a non-Error
    ensures var c := LoginUser(env, s, email, password, fetch);
      c.result.Threw? ==> r.0 == Failure(FailureMessage(c.result.thrown, LoginFailed))
    ensures var c := LoginUser(env, s, email, password, fetch);
      c.result.Normal? && r.0.Failure? ==> r.0 == Failure(FailureMessage(Prop2(c.result.value, "user", "id").thrown, LoginFailed))
  {
    var c := LoginUser(env, s, email, password, fetch);
    var result :=
      match c.result
      case Threw(t) => Failure(FailureMessage(t, LoginFailed))
      case Normal(resp) =>
        match Prop2(resp, "user", "id")
        case Threw(t) => Failure(FailureMessage(t, LoginFailed))
        case Normal(u) => Success(Str(LoginSucceeded), u);
    (result, c.store, c.nav)
  }

  function Logout(env: Env, s: Store): (Store, Option<string>) {
    Api.Logout(env, s)
  }

  /** `requireAuth`: the navigation it performs, if any. */
  function RequireAuth(env: Env, s: Store): (nav: Option<string>)
    ensures nav.Some? <==> env.hasWindow && !IsAuthenticated(env, s)
    ensures nav.Some? ==> nav.value == LoginUrl
  {
    if !env.hasWindow then None
    else if !IsAuthenticated(env, s) then Some(LoginUrl)
    else None
  }

  /** A well-formed login with a non-empty user id leaves the browser
      authenticated as that user, and `login` reports that user. */
  lemma LoginAuthenticates(env: Env, s: Store, email: string, password: string,
                           status: int, text: string, resp: JsValue, token: string, userId: string)
    requires env.hasWindow && IsOk(status) && status != 204
    requires WellFormedLogin(resp, token, userId) && userId != ""
    ensures var (result, s', nav) := Login(env, s, email, password, Response(status, text, Parsed(resp)));
      && IsAuthenticated(env, s')
      && GetCurrentUserId(env, s') == Some(userId)
      && GetToken(env, s') == Some(token)
      && result == Success(Str(LoginSucceeded), Str(userId))
      && nav.None?
  {
    LoginStoresPair(env, s, email, password, status, text, resp, token, userId);
  }

  /** After `logout` no session remains, and a later `requireAuth` sends the
      browser to the login page. */
  lemma LogoutEndsSession(env: Env, s: Store)
    ensures var (s', nav) := Logout(env, s);
      && !IsAuthenticated(env, s')
      && (env.hasWindow ==> nav == Some(LoginUrl) && RequireAuth(env, s') == Some(LoginUrl))
  {
  }

  /** Registering never creates a session: a browser that was not
      authenticated is not authenticated afterwards, whatever the server answers. */
  lemma RegisterNeverAuthenticates(env: Env, s: Store, email: string, password: string, fetch: FetchResult)
    requires !IsAuthenticated(env, s)
    ensures !IsAuthenticated(env, Register(env, s, email, password, fetch).1)
  {
  }

  /** The server's registration answer names the new account `id`, but the
      client reads `user_id`: against that response shape `register` succeeds
      with the server's message and an undefined `userId`. */
  lemma RegisterUserIdIsUndefined(env: Env, s: Store, email: string, password: string,
                                  text: string, id: string, echoed: string, message: string)
    ensures var resp := Obj(map["id" := Str(id), "email" := Str(echoed), "message" := Str(message)]);
      Register(env, s, email, password, Response(201, text, Parsed(resp))).0
        == Success(Str(message), Undefined)
  {
  }

  /** Everything the API layer throws at `login` is an `Error` instance, so a
      failed login always reports the error's own message and the
      `Login failed` fallback is never used for a non-Error. */
  lemma LoginFailureIsErrorMessage(env: Env, s: Store, email: string, password: string, fetch: FetchResult)
    ensures var c := LoginUser(env, s, email, password, fetch);
      c.result.Threw? ==>
        (c.result.thrown.ErrorObject? && Login(env, s, email, password, fetch).0 == Failure(c.result.thrown.message))
  {
    var c := LoginUser(env, s, email, password, fetch);
    var r := Request(env, s, LoginPath, POST, map[],
                     Some(map["email" := Str(email), "password" := Str(password)]), fetch);
    if r.result.Normal? {
      PropThrowsOnlyOnNullish(r.result.value, "access_token");
      match Prop(r.result.value, "access_token")
      case Threw(_) =>
      case Normal(token) =>
        PropThrowsOnlyOnNullish(r.result.value, "user");
        match Prop(r.result.value, "user")
        case Threw(_) =>
        case Normal(u) => PropThrowsOnlyOnNullish(u, "id");
    }
  }
}

=== FILE: task_form.dfy ===
/**
 * The create/edit task form: which request its submit sends, with which
 * payload, and how the outcome is shown.
 */
module TaskForm {
  import opened Common
  import opened Text
  import opened Js
  import opened ClientStorage
  import opened Api

  const SaveFailedMessage := "Failed to save task"
  const NotAuthenticatedMessage := "User not authenticated"
  const HomeUrl := "/"

  /** The fields of the `task` prop the form reads. */
  datatype FormTask = FormTask(id: int, title: string, description: Option<string>, completed: bool)

  /** Edit mode is `!!task`. */
  predicate IsEditMode(task: Option<FormTask>) {
    task.Some?
  }

  /** The initial field values: `task?.title || ''` and `task?.description || ''`. */
  function InitialFields(task: Option<FormTask>): (f: (string, string))
    ensures task.None? ==> f == ("", "")
    ensures task.Some? ==> f.0 == task.value.title
    ensures task.Some? ==> f.1 == (if task.value.description.Some? then task.value.description.value else "")
  {
    match task
    case None => ("", "")
    case Some(t) => (t.title, t.description.GetOr(""))
  }

  function JsTrim(s: string): string {
    Trim(s, IsJsSpace)
  }

  /** The edit payload: trimmed title, trimmed description or `null`, and
      the task's own `completed`. */
  function UpdatePayload(task: FormTask, title: string, description: string): (p: map<string, JsValue>)
    ensures p.Keys == {"title", "description", "completed"}
    ensures p["title"] == Str(JsTrim(title)) && p["completed"] == Bool(task.completed)
    ensures p["description"] == (if JsTrim(description) == "" then Null else Str(JsTrim(description)))
  {
    var d := JsTrim(description);
    map["title" := Str(JsTrim(title)),
        "description" := (if d == "" then Null else Str(d)),
        "completed" := Bool(task.completed)]
  }

  /** The create payload as written: an empty description is `undefined`,
      which `JSON.stringify` later leaves out. */
  function CreatePayload(title: string, description: string): (p: map<string, JsValue>)
    ensures p.Keys == {"title", "description"} && p["title"] == Str(JsTrim(title))
    ensures p["description"] == (if JsTrim(description) == "" then Undefined else Str(JsTrim(description)))
  {
    var d := JsTrim(description);
    map["title" := Str(JsTrim(title)), "description" := (if d == "" then Undefined else Str(d))]
  }

  /** The save request of a submit by user `userId`: an update in edit mode,
      a create otherwise. */
  function SaveCall(env: Env, s: Store, userId: string, task: Option<FormTask>, title: string, description: string,
                    fetch: FetchResult): (c: Call)
    ensures c.sent.verb == (if IsEditMode(task) then PUT else POST)
    ensures c.nav.Some? ==> c.nav.value == SessionExpiredUrl
    ensures c.result.Normal? ==> c.nav.None?
  {
    match task
    case Some(t) => UpdateTask(env, s, userId, t.id, UpdatePayload(t, title, description), fetch)
    case None => CreateTask(env, s, userId, CreatePayload(title, description), fetch)
  }

  /** What a submit did: the error shown (empty for none), the request sent,
      whether `onSuccess` ran, the navigation, and the storage afterwards. */
  datatype Submit = Submit(error: string, sent: Option<Outgoing>, calledOnSuccess: bool, nav: Option<string>, store: Store)

  /** `handleSubmit`. `hasOnSuccess` says whether the `onSuccess` prop was given. */
  function HandleSubmit(env: Env, s: Store, task: Option<FormTask>, title: string, description: string,
                        hasOnSuccess: bool, fetch: FetchResult): (r: Submit)
    ensures r.sent.None? <==> !(GetUserId(env, s).Some? && GetUserId(env, s).value != "")
    ensures r.sent.None? ==> r == Submit(NotAuthenticatedMessage, None, false, None, s)
    ensures r.sent.Some? ==> (r.sent.value.verb == PUT <==> IsEditMode(task))
    ensures r.sent.Some? ==> (r.sent.value.verb == POST <==> !IsEditMode(task))
    ensures r.error != "" ==> !r.calledOnSuccess && (r.nav.Some? ==> r.nav.value == SessionExpiredUrl)
    ensures r.sent.Some? && r.error != "" ==> r.error == SaveFailedMessage
    ensures r.calledOnSuccess ==> hasOnSuccess && r.error == "" && r.nav.None?
    ensures r.sent.Some? && r.error == "" && !hasOnSuccess ==> r.nav == Some(HomeUrl)
    // the outcome follows the save request: any failure shows the fixed message
    ensures r.sent.Some? ==>
      var c := SaveCall(env, s, GetUserId(env, s).value, task, title, description, fetch);
      && r.sent == Some(c.sent) && r.store == c.store
      && (r.error == SaveFailedMessage <==> c.result.Threw?)
      && (c.result.Threw? ==> r.nav == c.nav && !r.calledOnSuccess)
      && (c.result.Normal? ==> r.error == "" && r.calledOnSuccess == hasOnSuccess)
  {
    var userId := GetUserId(env, s);
    if !(userId.Some? && userId.value != "") then
      Submit(NotAuthenticatedMessage, None, false, None, s)
    else
      var c := SaveCall(env, s, userId.value, task, title, description, fetch);
      if c.result.Threw? then Submit(SaveFailedMessage, Some(c.sent), false, c.nav, c.store)
      else if hasOnSuccess then Submit("", Some(c.sent), true, None, c.store)
      else Submit("", Some(c.sent), false, Some(HomeUrl), c.store)
  }

  /** The create request carries a `description` key only when the trimmed
      description is non-empty; the title always goes out trimmed. */
  lemma CreateBodyOmitsEmptyDescription(env: Env, s: Store, title: string, description: string,
                                        hasOnSuccess: bool, fetch: FetchResult)
    requires GetUserId(env, s).Some? && GetUserId(env, s).value != ""
    ensures var r := HandleSubmit(env, s, None, title, description, hasOnSuccess, fetch);
      && r.sent.Some? && r.sent.value.body.Some?
      && r.sent.value.url == BaseUrl(env) + TasksPath(GetUserId(env, s).value)
      && ("description" in r.sent.value.body.value <==> !All(description, IsJsSpace))
      && r.sent.value.body.value["title"] == Str(JsTrim(title))
  {
    TrimEmptyIff(description, IsJsSpace);
    var c := CreateTask(env, s, GetUserId(env, s).value, CreatePayload(title, description), fetch);
    assert HandleSubmit(env, s, None, title, description, hasOnSuccess, fetch).sent == Some(c.sent);
  }

  /** The edit request goes to the task's own path and always carries all
      three fields, with an all-blank description sent as `null`. */
  lemma EditBodyIsComplete(env: Env, s: Store, t: FormTask, title: string, description: string,
                           hasOnSuccess: bool, fetch: FetchResult)
    requires GetUserId(env, s).Some? && GetUserId(env, s).value != ""
    ensures var r := HandleSubmit(env, s, Some(t), title, description, hasOnSuccess, fetch);
      && r.sent.Some?
      && r.sent.value.url == BaseUrl(env) + TasksPath(GetUserId(env, s).value) + "/" + IntToDecimal(t.id)
      && r.sent.value.body == Some(UpdatePayload(t, title, description))
  {
    var p := UpdatePayload(t, title, description);
    WireObjectDefined(p);
    var c := UpdateTask(env, s, GetUserId(env, s).value, t.id, p, fetch);
    assert c.sent.body == Some(p);
    assert HandleSubmit(env, s, Some(t), title, description, hasOnSuccess, fetch).sent == Some(c.sent);
  }

  /** An all-blank description is sent as `null`, any other one trimmed. */
  lemma BlankDescriptionIsNull(t: FormTask, title: string, description: string)
    ensures UpdatePayload(t, title, description)["description"]
      == (if All(description, IsJsSpace) then Null else Str(JsTrim(description)))
  {
    TrimEmptyIff(description, IsJsSpace);
  }

  /** No surrounding white space, so trimming keeps the string. */
  predicate TrimmedJs(s: string) {
    s == [] || (!IsJsSpace(s[0]) && !IsJsSpace(s[|s| - 1]))
  }

  /** A string without surrounding white space is its own trim. */
  lemma TrimmedJsFixed(s: string)
    requires TrimmedJs(s)
    ensures JsTrim(s) == s
  {
    TrimUnique(s, IsJsSpace, 0, |s|);
    assert s[0..|s|] == s;
  }

  /** Saving an edit form whose fields were left as loaded sends the task's
      own values back, provided they carry no surrounding white space and
      the description is not empty. */
  lemma UnchangedEditRoundTrip(t: FormTask)
    requires TrimmedJs(t.title)
    requires t.description.Some? ==> TrimmedJs(t.description.value) && t.description.value != ""
    ensures var (title, description) := InitialFields(Some(t));
      var p := UpdatePayload(t, title, description);
      && p["title"] == Str(t.title)
      && p["description"] == (if t.description.Some? then Str(t.description.value) else Null)
      && p["completed"] == Bool(t.completed)
  {
    TrimmedJsFixed(t.title);
    if t.description.Some? {
      TrimmedJsFixed(t.description.value);
    }
  }
}

=== FILE: task_list_view.dfy ===
/**
 * The task list component: loading the list once, the two list reducers
 * its items call back into, and which of its four views is shown.
 */
module TaskListView {
  import opened Common
  import opened Js
  import opened ClientStorage
  import opened Api

  const NotAuthenticatedMessage := "User not authenticated"
  const InvalidResponseMessage := "Invalid response from server"
  const LoadFailedMessage := "Failed to load tasks"

  /** The component's state: the tasks as received, the loading flag and the
      error text (empty when there is none). */
  datatype ListState = ListState(tasks: seq<JsValue>, loading: bool, error: string)

  const Initial := ListState([], true, "")

  /** The outcome of `loadTasks`: the new state and what the API layer did on
      the way (the request, if one was made, storage and navigation). */
  datatype Load = Load(state: ListState, sent: Option<Outgoing>, store: Store, nav: Option<string>)

  /** `loadTasks`, starting from state `st`. */
  function LoadTasks(env: Env, s: Store, st: ListState, fetch: FetchResult): (l: Load)
    ensures !l.state.loading
    ensures l.sent.None? <==> !(GetUserId(env, s).Some? && GetUserId(env, s).value != "")
    ensures l.sent.None? ==> l.state == st.(error := NotAuthenticatedMessage, loading := false) && l.store == s && l.nav.None?
    ensures l.state.tasks != st.tasks ==> l.state.error == st.error && fetch.Response? && IsOk(fetch.status)
    // one GET of the user's collection; what the API layer did is passed on
    ensures l.sent.Some? ==>
      var c := ListTasks(env, s, GetUserId(env, s).value, fetch);
      && l.sent == Some(c.sent) && l.store == c.store && l.nav == c.nav
      // a thrown error shows its message, or the fixed text for a non-Error
      && (c.result.Threw? ==>
            l.state == st.(error := if c.result.thrown.ErrorObject? then c.result.thrown.message else LoadFailedMessage,
                           loading := false))
      // an array is shown as the list; anything else is an invalid response
      && (c.result.Normal? && c.result.value.Arr? ==> l.state == st.(tasks := c.result.value.items, loading := false))
      && (c.result.Normal? && !c.result.value.Arr? ==> l.state == st.(error := InvalidResponseMessage, loading := false))
  {
    var userId := GetUserId(env, s);
    if !(userId.Some? && userId.value != "") then
      Load(st.(error := NotAuthenticatedMessage, loading := false), None, s, None)
    else
      var c := ListTasks(env, s, userId.value, fetch);
      var next :=
        match c.result
        case Threw(t) => st.(error := if t.ErrorObject? then t.message else LoadFailedMessage)
        case Normal(v) =>
          if v.Arr? then st.(tasks := v.items) else st.(error := InvalidResponseMessage);
      Load(next.(loading := false), Some(c.sent), c.store, c.nav)
  }

  /** A first load that gets `{tasks: [...]}` back shows exactly those tasks,
      with no error, after a single GET of the user's collection. */
  lemma LoadShowsServerList(env: Env, s: Store, text: string, fields: map<string, JsValue>, tasks: seq<JsValue>)
    requires GetUserId(env, s).Some? && GetUserId(env, s).value != ""
    requires "tasks" in fields && fields["tasks"] == Arr(tasks)
    ensures var l := LoadTasks(env, s, Initial, Response(200, text, Parsed(Obj(fields))));
      && l.state == ListState(tasks, false, "")
      && l.sent.Some? && l.sent.value.verb == GET
      && l.sent.value.url == BaseUrl(env) + TasksPath(GetUserId(env, s).value)
  {
    ListTasksUnwraps(env, s, GetUserId(env, s).value, text, fields, tasks);
  }

  /** A 2xx body whose `tasks` is not an array (a 204's `{}`, say) is
      reported as an invalid response. */
  lemma LoadRejectsNonArray(env: Env, s: Store, st: ListState, text: string, fields: map<string, JsValue>)
    requires GetUserId(env, s).Some? && GetUserId(env, s).value != ""
    requires "tasks" !in fields || !fields["tasks"].Arr?
    ensures LoadTasks(env, s, st, Response(200, text, Parsed(Obj(fields)))).state
      == st.(error := InvalidResponseMessage, loading := false)
  {
  }

  /** `a === b` for values parsed from JSON: primitives compare by value;
      arrays and objects compare by identity, and two separately parsed
      ones are never the same object. */
  predicate StrictEquals(a: JsValue, b: JsValue) {
    match (a, b)
    case (Undefined, Undefined) => true
    case (Null, Null) => true
    case (Bool(x), Bool(y)) => x == y
    case (Num(x), Num(y)) => x == y
    case (Str(x), Str(y)) => x == y
    case _ => false
  }

  /** Neither `null` nor `undefined`: reading `id` from it does not throw. */
  predicate Readable(v: JsValue) {
    !v.Null? && !v.Undefined?
  }

  predicate AllReadable(tasks: seq<JsValue>) {
    forall i :: 0 <= i < |tasks| ==> Readable(tasks[i])
  }

  /** The id an entry is matched on. */
  function IdOf(v: JsValue): JsValue
    requires Readable(v)
  {
    Prop(v, "id").value
  }

  /** `handleTaskUpdate`: `prev.map(task => task.id === u.id ? u : task)`; a
      `null` entry (or a `null` update, once there is an entry) throws. */
  function ReplaceById(tasks: seq<JsValue>, u: JsValue): (r: Completion<seq<JsValue>>)
    ensures r.Normal? ==> |r.value| == |tasks|
    ensures r.Normal? <==> AllReadable(tasks) && (tasks == [] || Readable(u))
  {
    if tasks == [] then Normal([])
    else
      match Prop(tasks[0], "id")
      case Threw(t) => Threw(t)
      case Normal(a) =>
        match Prop(u, "id")
        case Threw(t) => Threw(t)
        case Normal(b) =>
          match ReplaceById(tasks[1..], u)
          case Threw(t) => Threw(t)
          case Normal(rest) => Normal([if StrictEquals(a, b) then u else tasks[0]] + rest)
  }

  /** `handleTaskDelete`: `prev.filter(task => task.id !== taskId)`. */
  function DeleteById(tasks: seq<JsValue>, taskId: int): (r: Completion<seq<JsValue>>)
    ensures r.Normal? ==> |r.value| <= |tasks|
    ensures r.Normal? <==> AllReadable(tasks)
    ensures r.Normal? ==> forall t :: t in r.value ==> t in tasks && Readable(t) && !StrictEquals(IdOf(t), Num(taskId))
  {
    if tasks == [] then Normal([])
    else
      match Prop(tasks[0], "id")
      case Threw(t) => Threw(t)
      case Normal(a) =>
        match DeleteById(tasks[1..], taskId)
        case Threw(t) => Threw(t)
        case Normal(rest) => Normal(if StrictEquals(a, Num(taskId)) then rest else [tasks[0]] + rest)
  }

  /** Over entries that are all task objects the update reducer succeeds,
      keeps length and order, replaces exactly the entries whose id is
      `===` to the update's, and leaves every other entry as it was. */
  lemma {:induction false} ReplaceByIdExact(tasks: seq<JsValue>, u: JsValue)
    requires AllReadable(tasks) && Readable(u)
    ensures ReplaceById(tasks, u).Normal?
    ensures forall i :: 0 <= i < |tasks| ==>
      ReplaceById(tasks, u).value[i] == (if StrictEquals(IdOf(tasks[i]), IdOf(u)) then u else tasks[i])
  {
    if tasks != [] {
      ReplaceByIdExact(tasks[1..], u);
      var r := ReplaceById(tasks, u).value;
      forall i | 0 <= i < |tasks|
        ensures r[i] == (if StrictEquals(IdOf(tasks[i]), IdOf(u)) then u else tasks[i])
      {
        if i > 0 {
          assert tasks[1..][i - 1] == tasks[i];
        }
      }
    }
  }

  /** Applying the same update twice is the same as applying it once. */
  lemma ReplaceByIdIdempotent(tasks: seq<JsValue>, u: JsValue)
    requires AllReadable(tasks) && Readable(u)
    ensures ReplaceById(tasks, u).Normal?
    ensures ReplaceById(ReplaceById(tasks, u).value, u) == ReplaceById(tasks, u)
  {
    ReplaceByIdExact(tasks, u);
    var once := ReplaceById(tasks, u).value;
    assert AllReadable(once);
    ReplaceByIdExact(once, u);
    var twice := ReplaceById(once, u).value;
    assert |twice| == |once|;
    forall i | 0 <= i < |once| ensures twice[i] == once[i] {
    }
  }

  /** The delete reducer over task objects, stated as a reference: it keeps,
      in order, exactly the entries whose id is not `===` to `taskId`. */
  function Kept(tasks: seq<JsValue>, taskId: int): seq<JsValue>
    requires AllReadable(tasks)
  {
    if tasks == [] then []
    else (if StrictEquals(IdOf(tasks[0]), Num(taskId)) then [] else [tasks[0]]) + Kept(tasks[1..], taskId)
  }

  lemma {:induction false} DeleteByIdIsKept(tasks: seq<JsValue>, taskId: int)
    requires AllReadable(tasks)
    ensures DeleteById(tasks, taskId) == Normal(Kept(tasks, taskId))
  {
    if tasks != [] {
      DeleteByIdIsKept(tasks[1..], taskId);
      var rest := Kept(tasks[1..], taskId);
      assert [] + rest == rest;
    }
  }

  /** Deleting from a concatenation deletes from each part. */
  lemma {:induction false} KeptAppend(a: seq<JsValue>, b: seq<JsValue>, taskId: int)
    requires AllReadable(a) && AllReadable(b)
    ensures AllReadable(a + b)
    ensures Kept(a + b, taskId) == Kept(a, taskId) + Kept(b, taskId)
  {
    if a == [] {
      assert a + b == b;
    } else {
      assert (a + b)[0] == a[0];
      assert (a + b)[1..] == a[1..] + b;
      KeptAppend(a[1..], b, taskId);
    }
  }

  /** After a delete no entry with that id remains, and every entry with
      another id is still there. */
  lemma {:induction false} KeptExact(tasks: seq<JsValue>, taskId: int)
    requires AllReadable(tasks)
    ensures forall t :: t in Kept(tasks, taskId) <==> t in tasks && !StrictEquals(IdOf(t), Num(taskId))
  {
    if tasks != [] {
      KeptExact(tasks[1..], taskId);
      assert tasks == [tasks[0]] + tasks[1..];
    }
  }

  /** Deleting a task after replacing it by an update with the same id is
      the same as deleting it outright. */
  lemma {:induction false} DeleteAfterReplace(tasks: seq<JsValue>, u: JsValue, taskId: int)
    requires AllReadable(tasks) && Readable(u) && IdOf(u) == Num(taskId)
    ensures ReplaceById(tasks, u).Normal?
    ensures DeleteById(ReplaceById(tasks, u).value, taskId) == DeleteById(tasks, taskId)
  {
    ReplaceByIdExact(tasks, u);
    var r := ReplaceById(tasks, u).value;
    assert AllReadable(r);
    DeleteByIdIsKept(tasks, taskId);
    DeleteByIdIsKept(r, taskId);
    KeptPointwise(tasks, r, u, taskId);
  }

  /** Helper: two lists that differ only in entries that both carry the id
      keep the same entries. */
  lemma {:induction false} KeptPointwise(tasks: seq<JsValue>, r: seq<JsValue>, u: JsValue, taskId: int)
    requires AllReadable(tasks) && AllReadable(r) && Readable(u) && IdOf(u) == Num(taskId)
    requires |r| == |tasks|
    requires forall i :: 0 <= i < |tasks| ==> r[i] == (if StrictEquals(IdOf(tasks[i]), IdOf(u)) then u else tasks[i])
    ensures Kept(r, taskId) == Kept(tasks, taskId)
  {
    if tasks != [] {
      assert forall i :: 0 <= i < |tasks| - 1 ==> r[1..][i] == r[i + 1] && tasks[1..][i] == tasks[i + 1];
      KeptPointwise(tasks[1..], r[1..], u, taskId);
    }
  }

  /** What the component renders. */
  datatype View = Spinner | ErrorBox(message: string) | EmptyList | Items(tasks: seq<JsValue>)

  /** Loading wins over an error, an error over the empty state, and only a
      non-empty list without error is shown as items. */
  function Render(st: ListState): (v: View)
    ensures v.Spinner? <==> st.loading
    ensures v.ErrorBox? <==> !st.loading && st.error != ""
    ensures v.EmptyList? <==> !st.loading && st.error == "" && st.tasks == []
    ensures v.Items? ==> v.tasks == st.tasks && v.tasks != []
    ensures v.ErrorBox? ==> v.message == st.error
  {
    if st.loading then Spinner
    else if st.error != "" then ErrorBox(st.error)
    else if |st.tasks| == 0 then EmptyList
    else Items(st.tasks)
  }
}

=== FILE: task_router.dfy ===
/**
 * The task endpoints under `/api/{user_id}/tasks` as transitions on the
 * `tasks` table. Every handler receives the user the access token
 * authenticated (`current`) and the raw `user_id` path segment; requests
 * are validated first, then the URL user must be the caller, then the task
 * must be the caller's. Another user's task and a missing task look the
 * same from outside.
 */
module TaskRouter {
  import opened Common
  import opened Js
  import opened Backend
  import opened TaskSchemas

  const ResourceNotFound := "Resource not found"

  /** A row of the `tasks` table. */
  datatype Task = Task(id: int, owner: Uuid, title: string, description: Option<string>,
                       completed: bool, createdAt: int, updatedAt: int)

  /** The `tasks` table: rows by id, and the next value of its id sequence. */
  datatype TaskDb = TaskDb(rows: map<int, Task>, nextId: int)

  const EmptyDb := TaskDb(map[], 1)

  /** Each row is stored under its own id, and ids come from the sequence,
      which starts at 1 and has not yet reached `nextId`. */
  predicate Valid(db: TaskDb) {
    && db.nextId >= 1
    && forall id :: id in db.rows ==> db.rows[id].id == id && 1 <= id < db.nextId
  }

  /** A handler's reply and the table afterwards. */
  datatype Outcome = Outcome(reply: Reply, db: TaskDb)

  const NotFound := DetailReply(404, ResourceNotFound)

  /** The rows of users other than `user`. */
  function OthersOf(db: TaskDb, user: Uuid): map<int, Task> {
    map id | id in db.rows && db.rows[id].owner != user :: db.rows[id]
  }

  /** Isolation: the rows of every other user are exactly as they were. */
  predicate Isolated(db: TaskDb, db': TaskDb, user: Uuid) {
    OthersOf(db, user) == OthersOf(db', user)
  }

  /** `select(Task).where(Task.id == task_id).where(Task.user_id == current_user.id).first()`. */
  function Owned(db: TaskDb, owner: Uuid, taskId: int): (r: Option<Task>)
    ensures r.Some? <==> taskId in db.rows && db.rows[taskId].owner == owner
    ensures r.Some? ==> r.value == db.rows[taskId]
  {
    if taskId in db.rows && db.rows[taskId].owner == owner then Some(db.rows[taskId]) else None
  }

  /** A row as `TaskResponse` renders it. */
  function Response(libs: Libs, t: Task): TaskResponse {
    TaskResponse(t.id, libs.uuidText(t.owner), t.title, t.description, t.completed,
                 libs.timeText(t.createdAt), libs.timeText(t.updatedAt))
  }

  function TaskReply(libs: Libs, status: int, t: Task): Reply {
    Reply(status, Json(TaskResponseJson(Response(libs, t))))
  }

  /** The URL names a well-formed user id that is not the caller's. */
  predicate Mismatch(libs: Libs, current: Uuid, urlUser: string) {
    libs.parseUuid(urlUser).Some? && libs.parseUuid(urlUser).value != current
  }

  /** The URL names the caller. */
  predicate Matches(libs: Libs, current: Uuid, urlUser: string) {
    libs.parseUuid(urlUser) == Some(current)
  }

  // ---------------------------------------------------------------------
  // POST /api/{user_id}/tasks
  // ---------------------------------------------------------------------

  /** `create_task`: a new row owned by the caller, with the next id, not
      completed, both timestamps `now`; 201 with the row. */
  function CreateTask(libs: Libs, db: TaskDb, current: Uuid, urlUser: string, body: JsValue, now: int): (o: Outcome)
    ensures Valid(db) ==> Isolated(db, o.db, current)
    ensures o.reply.status == 422 <==> libs.parseUuid(urlUser).None? || DecodeCreate(body).Invalid?
    ensures o.reply.status == 201 <==> Matches(libs, current, urlUser) && DecodeCreate(body).Valid?
    ensures o.reply.status !in {201, 422} ==> o.reply == NotFound && Mismatch(libs, current, urlUser)
    ensures o.reply.status != 201 ==> o.db == db
    ensures o.reply.status == 201 ==>
      var req := DecodeCreate(body).value;
      var t := Task(db.nextId, current, req.title, req.description, false, now, now);
      && o.db == TaskDb(db.rows[db.nextId := t], db.nextId + 1)
      && o.reply == TaskReply(libs, 201, t)
    ensures Valid(db) ==> Valid(o.db)
  {
    match Validated(UuidProblems(libs, "user_id", urlUser), DecodeCreate(body))
    case Invalid(locs) => Outcome(ValidationReply(locs), db)
    case Valid(req) =>
      if libs.parseUuid(urlUser).value != current then Outcome(NotFound, db)
      else
        var t := Task(db.nextId, current, req.title, req.description, false, now, now);
        var db' := TaskDb(db.rows[db.nextId := t], db.nextId + 1);
        assert Valid(db) ==> OthersOf(db', current) == OthersOf(db, current);
        Outcome(TaskReply(libs, 201, t), db')
  }

  // ---------------------------------------------------------------------
  // GET /api/{user_id}/tasks
  // ---------------------------------------------------------------------

  /** Newest first: `order_by(Task.created_at.desc())`. */
  predicate NewestFirst(ts: seq<Task>) {
    forall i, j :: 0 <= i < j < |ts| ==> ts[i].createdAt >= ts[j].createdAt
  }

  /** `ts` lists exactly the rows of `owner`, each once. */
  predicate ListsExactly(db: TaskDb, owner: Uuid, ts: seq<Task>) {
    && (forall i :: 0 <= i < |ts| ==> ts[i].id in db.rows && db.rows[ts[i].id] == ts[i] && ts[i].owner == owner)
    && (forall id :: id in db.rows && db.rows[id].owner == owner ==> db.rows[id] in ts)
    && DistinctIds(ts)
  }

  /** Ids are pairwise distinct. */
  predicate DistinctIds(ts: seq<Task>) {
    forall i, j :: 0 <= i < j < |ts| ==> ts[i].id != ts[j].id
  }

  /** In a newest-first list the head is at least as new as everything after it. */
  lemma HeadIsNewest(ts: seq<Task>)
    requires |ts| > 0 && NewestFirst(ts)
    ensures forall x :: x in ts[1..] ==> x.createdAt <= ts[0].createdAt
  {
    forall x | x in ts[1..] ensures x.createdAt <= ts[0].createdAt {
      var i :| 0 <= i < |ts[1..]| && ts[1..][i] == x;
      assert ts[i + 1] == x;
    }
  }

  /** With distinct ids, no later entry shares the head's id. */
  lemma HeadIdUnique(ts: seq<Task>)
    requires |ts| > 0 && DistinctIds(ts)
    ensures forall x :: x in ts[1..] ==> x.id != ts[0].id
  {
    forall x | x in ts[1..] ensures x.id != ts[0].id {
      var i :| 0 <= i < |ts[1..]| && ts[1..][i] == x;
      assert ts[i + 1] == x;
    }
  }

  /** `t` put into a newest-first list: after every task at least as new as
      it, before the older ones. */
  function Insert(ts: seq<Task>, t: Task): (r: seq<Task>)
    ensures |r| == |ts| + 1
    ensures forall x :: x in r <==> x == t || x in ts
  {
    if |ts| == 0 || ts[0].createdAt < t.createdAt then [t] + ts
    else
      var rest := Insert(ts[1..], t);
      assert forall x :: x in ts[1..] ==> x in ts;
      assert ts == [ts[0]] + ts[1..];
      [ts[0]] + rest
  }

  /** Insertion keeps a list newest first. */
  lemma {:induction false} InsertKeepsOrder(ts: seq<Task>, t: Task)
    requires NewestFirst(ts)
    ensures NewestFirst(Insert(ts, t))
  {
    if |ts| == 0 || ts[0].createdAt < t.createdAt {
      if |ts| > 0 {
        HeadIsNewest(ts);
        assert ts == [ts[0]] + ts[1..];
      }
    } else {
      InsertKeepsOrder(ts[1..], t);
      HeadIsNewest(ts);
    }
  }

  /** Insertion of a task with a new id keeps ids distinct. */
  lemma {:induction false} InsertKeepsDistinct(ts: seq<Task>, t: Task)
    requires DistinctIds(ts) && forall x :: x in ts ==> x.id != t.id
    ensures DistinctIds(Insert(ts, t))
  {
    if |ts| == 0 || ts[0].createdAt < t.createdAt {
    } else {
      assert forall x :: x in ts[1..] ==> x in ts;
      InsertKeepsDistinct(ts[1..], t);
      HeadIdUnique(ts);
    }
  }

  /** The caller's rows, newest first: the query of `list_tasks`. Rows are
      visited in id order; rows with equal creation times therefore come
      oldest id first, one of the orders the query allows. */
  method OwnedNewestFirst(db: TaskDb, owner: Uuid) returns (ts: seq<Task>)
    requires Valid(db)
    ensures ListsExactly(db, owner, ts) && NewestFirst(ts)
  {
    var id := 1;
    ts := [];
    while id < db.nextId
      invariant 1 <= id <= db.nextId
      invariant NewestFirst(ts) && DistinctIds(ts)
      invariant forall x :: x in ts ==> x.id in db.rows && x.id < id && db.rows[x.id] == x && x.owner == owner
      invariant forall k :: k in db.rows && k < id && db.rows[k].owner == owner ==> db.rows[k] in ts
    {
      if id in db.rows && db.rows[id].owner == owner {
        var t := db.rows[id];
        InsertKeepsOrder(ts, t);
        InsertKeepsDistinct(ts, t);
        ts := Insert(ts, t);
      }
      id := id + 1;
    }
    assert forall i :: 0 <= i < |ts| ==> ts[i] in ts;
  }

  function Responses(libs: Libs, ts: seq<Task>): (rs: seq<TaskResponse>)
    ensures |rs| == |ts| && forall i :: 0 <= i < |ts| ==> rs[i] == Response(libs, ts[i])
  {
    seq(|ts|, i requires 0 <= i < |ts| => Response(libs, ts[i]))
  }

  /** `list_tasks`: the caller's tasks, newest first, under `tasks`; the
      table is only read. */
  method ListTasks(libs: Libs, db: TaskDb, current: Uuid, urlUser: string) returns (reply: Reply, listed: seq<Task>)
    requires Valid(db)
    ensures libs.parseUuid(urlUser).None? ==> reply == ValidationReply([["path", "user_id"]]) && listed == []
    ensures Mismatch(libs, current, urlUser) ==> reply == NotFound && listed == []
    ensures Matches(libs, current, urlUser) ==>
      && reply == Reply(200, Json(TaskListJson(Responses(libs, listed))))
      && ListsExactly(db, current, listed) && NewestFirst(listed)
  {
    listed := [];
    match libs.parseUuid(urlUser)
    case None =>
      reply := ValidationReply([["path", "user_id"]]);
    case Some(u) =>
      if u != current {
        reply := NotFound;
      } else {
        listed := OwnedNewestFirst(db, current);
        reply := Reply(200, Json(TaskListJson(Responses(libs, listed))));
      }
  }

  // ---------------------------------------------------------------------
  // GET/PUT/PATCH/DELETE /api/{user_id}/tasks/{task_id}
  // ---------------------------------------------------------------------

  /** `get_task`: the caller's task, read only. */
  function GetTask(libs: Libs, db: TaskDb, current: Uuid, urlUser: string, taskId: int): (o: Outcome)
    ensures o.db == db
    ensures o.reply.status == 422 <==> libs.parseUuid(urlUser).None?
    ensures o.reply.status == 200 <==> Matches(libs, current, urlUser) && Owned(db, current, taskId).Some?
    ensures o.reply.status !in {200, 422} ==> o.reply == NotFound
    ensures o.reply.status == 200 ==> o.reply == TaskReply(libs, 200, db.rows[taskId])
  {
    match Validated(UuidProblems(libs, "user_id", urlUser), Decoded.Valid(()))
    case Invalid(locs) => Outcome(ValidationReply(locs), db)
    case Valid(_) =>
      if libs.parseUuid(urlUser).value != current then Outcome(NotFound, db)
      else
        match Owned(db, current, taskId)
        case None => Outcome(NotFound, db)
        case Some(t) => Outcome(TaskReply(libs, 200, t), db)
  }

  /** `update_task`: title, description and completed from the request and
      `updated_at` refreshed; id, owner and `created_at` kept. */
  function UpdateTask(libs: Libs, db: TaskDb, current: Uuid, urlUser: string, taskId: int, body: JsValue, now: int)
    : (o: Outcome)
    ensures Isolated(db, o.db, current)
    ensures o.reply.status == 422 <==> libs.parseUuid(urlUser).None? || DecodeUpdate(body).Invalid?
    ensures o.reply.status == 200 <==>
      Matches(libs, current, urlUser) && DecodeUpdate(body).Valid? && Owned(db, current, taskId).Some?
    ensures o.reply.status !in {200, 422} ==> o.reply == NotFound
    ensures o.reply.status != 200 ==> o.db == db
    ensures o.reply.status == 200 ==>
      var req := DecodeUpdate(body).value;
      var old_ := db.rows[taskId];
      var t := Task(old_.id, old_.owner, req.title, req.description, req.completed, old_.createdAt, now);
      && o.db == db.(rows := db.rows[taskId := t])
      && o.reply == TaskReply(libs, 200, t)
    ensures Valid(db) ==> Valid(o.db)
  {
    match Validated(UuidProblems(libs, "user_id", urlUser), DecodeUpdate(body))
    case Invalid(locs) => Outcome(ValidationReply(locs), db)
    case Valid(req) =>
      if libs.parseUuid(urlUser).value != current then Outcome(NotFound, db)
      else
        match Owned(db, current, taskId)
        case None => Outcome(NotFound, db)
        case Some(t) =>
          var t' := t.(title := req.title, description := req.description, completed := req.completed, updatedAt := now);
          var db' := db.(rows := db.rows[taskId := t']);
          assert OthersOf(db', current) == OthersOf(db, current);
          Outcome(TaskReply(libs, 200, t'), db')
  }

  /** `patch_task`: only `completed` and `updated_at` change. */
  function PatchTask(libs: Libs, db: TaskDb, current: Uuid, urlUser: string, taskId: int, body: JsValue, now: int)
    : (o: Outcome)
    ensures Isolated(db, o.db, current)
    ensures o.reply.status == 422 <==> libs.parseUuid(urlUser).None? || DecodePatch(body).Invalid?
    ensures o.reply.status == 200 <==>
      Matches(libs, current, urlUser) && DecodePatch(body).Valid? && Owned(db, current, taskId).Some?
    ensures o.reply.status !in {200, 422} ==> o.reply == NotFound
    ensures o.reply.status != 200 ==> o.db == db
    ensures o.reply.status == 200 ==>
      var t := db.rows[taskId].(completed := DecodePatch(body).value.completed, updatedAt := now);
      && o.db == db.(rows := db.rows[taskId := t])
      && o.reply == TaskReply(libs, 200, t)
    ensures Valid(db) ==> Valid(o.db)
  {
    match Validated(UuidProblems(libs, "user_id", urlUser), DecodePatch(body))
    case Invalid(locs) => Outcome(ValidationReply(locs), db)
    case Valid(req) =>
      if libs.parseUuid(urlUser).value != current then Outcome(NotFound, db)
      else
        match Owned(db, current, taskId)
        case None => Outcome(NotFound, db)
        case Some(t) =>
          var t' := t.(completed := req.completed, updatedAt := now);
          var db' := db.(rows := db.rows[taskId := t']);
          assert OthersOf(db', current) == OthersOf(db, current);
          Outcome(TaskReply(libs, 200, t'), db')
  }

  /** `delete_task`: the row is removed; 204 with no body. */
  function DeleteTask(libs: Libs, db: TaskDb, current: Uuid, urlUser: string, taskId: int): (o: Outcome)
    ensures Isolated(db, o.db, current)
    ensures o.reply.status == 422 <==> libs.parseUuid(urlUser).None?
    ensures o.reply.status == 204 <==> Matches(libs, current, urlUser) && Owned(db, current, taskId).Some?
    ensures o.reply.status !in {204, 422} ==> o.reply == NotFound
    ensures o.reply.status != 204 ==> o.db == db
    ensures o.reply.status == 204 ==> o.reply.body == NoContent && o.db == db.(rows := db.rows - {taskId})
    ensures Valid(db) ==> Valid(o.db)
  {
    match Validated(UuidProblems(libs, "user_id", urlUser), Decoded.Valid(()))
    case Invalid(locs) => Outcome(ValidationReply(locs), db)
    case Valid(_) =>
      if libs.parseUuid(urlUser).value != current then Outcome(NotFound, db)
      else
        match Owned(db, current, taskId)
        case None => Outcome(NotFound, db)
        case Some(t) =>
          var db' := db.(rows := db.rows - {taskId});
          assert OthersOf(db', current) == OthersOf(db, current);
          Outcome(Reply(204, NoContent), db')
  }

  // ---------------------------------------------------------------------
  // Properties across calls
  // ---------------------------------------------------------------------

  /** A missing task and another user's task get the same reply from every
      per-task handler, so a caller cannot tell whether an id exists. */
  lemma MissingLooksLikeForeign(libs: Libs, db: TaskDb, current: Uuid, urlUser: string, taskId: int,
                                other: Task, body: JsValue, now: int)
    requires taskId !in db.rows && other.owner != current
    ensures var db2 := db.(rows := db.rows[taskId := other]);
      && GetTask(libs, db, current, urlUser, taskId).reply == GetTask(libs, db2, current, urlUser, taskId).reply
      && UpdateTask(libs, db, current, urlUser, taskId, body, now).reply
         == UpdateTask(libs, db2, current, urlUser, taskId, body, now).reply
      && PatchTask(libs, db, current, urlUser, taskId, body, now).reply
         == PatchTask(libs, db2, current, urlUser, taskId, body, now).reply
      && DeleteTask(libs, db, current, urlUser, taskId).reply == DeleteTask(libs, db2, current, urlUser, taskId).reply
  {
    var db2 := db.(rows := db.rows[taskId := other]);
    assert Owned(db, current, taskId).None? && Owned(db2, current, taskId).None?;
  }

  /** A created task can be read back at once, with the same body. */
  lemma CreateThenGet(libs: Libs, db: TaskDb, current: Uuid, urlUser: string, body: JsValue, now: int)
    requires CreateTask(libs, db, current, urlUser, body, now).reply.status == 201
    ensures var c := CreateTask(libs, db, current, urlUser, body, now);
      var g := GetTask(libs, c.db, current, urlUser, db.nextId);
      g.reply.status == 200 && g.reply.body == c.reply.body
  {
  }

  /** A deleted task is gone: reading it again is a 404. */
  lemma DeleteThenGet(libs: Libs, db: TaskDb, current: Uuid, urlUser: string, taskId: int)
    requires DeleteTask(libs, db, current, urlUser, taskId).reply.status == 204
    ensures GetTask(libs, DeleteTask(libs, db, current, urlUser, taskId).db, current, urlUser, taskId).reply == NotFound
  {
  }

  /** The same patch applied twice: the second succeeds too, leaves
      `completed` as the first set it, and changes nothing but `updated_at`. */
  lemma PatchTwice(libs: Libs, db: TaskDb, current: Uuid, urlUser: string, taskId: int,
                   body: JsValue, now1: int, now2: int)
    requires PatchTask(libs, db, current, urlUser, taskId, body, now1).reply.status == 200
    ensures var p1 := PatchTask(libs, db, current, urlUser, taskId, body, now1);
      var p2 := PatchTask(libs, p1.db, current, urlUser, taskId, body, now2);
      && p2.reply.status == 200
      && p2.db.rows[taskId].completed == p1.db.rows[taskId].completed
      && p2.db.rows == p1.db.rows[taskId := p1.db.rows[taskId].(updatedAt := now2)]
  {
  }

  /** An update with the task's own values changes only `updated_at`. */
  lemma UpdateWithSameValues(libs: Libs, db: TaskDb, current: Uuid, urlUser: string, taskId: int, now: int)
    requires Matches(libs, current, urlUser) && Owned(db, current, taskId).Some?
    requires ValidTitle(db.rows[taskId].title) && ValidDescription(db.rows[taskId].description)
    ensures var t := db.rows[taskId];
      var u := UpdateTask(libs, db, current, urlUser, taskId,
                          UpdateJson(UpdateRequest(t.title, t.description, t.completed)), now);
      u.reply.status == 200 && u.db.rows == db.rows[taskId := t.(updatedAt := now)]
  {
    var t := db.rows[taskId];
    UpdateRoundTrip(UpdateRequest(t.title, t.description, t.completed));
  }
}

=== FILE: task_schemas.dfy ===
/**
 * The request and response bodies of the task endpoints: which JSON bodies
 * the three request schemas accept and what they read from them, and the
 * JSON the task and task-list responses carry.
 */
module TaskSchemas {
  import opened Common
  import opened Js
  import opened Backend

  const TitleMax := 200
  const DescriptionMax := 1000

  datatype CreateRequest = CreateRequest(title: string, description: Option<string>)
  datatype UpdateRequest = UpdateRequest(title: string, description: Option<string>, completed: bool)
  datatype PatchRequest = PatchRequest(completed: bool)

  /** `title: str = Field(min_length=1, max_length=200)`. */
  predicate ValidTitle(title: string) {
    1 <= |title| <= TitleMax
  }

  /** `description: Optional[str] = Field(default=None, max_length=1000)`. */
  predicate ValidDescription(description: Option<string>) {
    description.None? || |description.value| <= DescriptionMax
  }

  /** The JSON a valid title arrives as. */
  predicate TitleJson(v: JsValue) {
    v.Str? && ValidTitle(v.s)
  }

  /** The JSON a valid description arrives as: absent, `null`, or a string
      of at most 1000 characters. */
  predicate DescriptionJson(v: JsValue) {
    v.Undefined? || v.Null? || (v.Str? && |v.s| <= DescriptionMax)
  }

  /** The description a valid description field denotes. */
  function DescriptionOf(v: JsValue): Option<string> {
    if v.Str? then Some(v.s) else None
  }

  /** `TaskCreateRequest`: a JSON object with a valid title and an optional
      valid description; other members are ignored. */
  function DecodeCreate(body: JsValue): (r: Decoded<CreateRequest>)
    ensures r.Valid? <==>
      body.Obj? && TitleJson(FieldOf(body.fields, "title")) && DescriptionJson(FieldOf(body.fields, "description"))
    ensures r.Valid? ==>
      && Str(r.value.title) == FieldOf(body.fields, "title")
      && r.value.description == DescriptionOf(FieldOf(body.fields, "description"))
      && ValidTitle(r.value.title) && ValidDescription(r.value.description)
    ensures r.Invalid? ==> |r.locs| > 0
    ensures !body.Obj? ==> r == Invalid([WholeBody])
  {
    match body
    case Obj(f) =>
      var title := StrField(f, "title", 1, TitleMax);
      var description := OptStrField(f, "description", DescriptionMax);
      if title.Some? && description.Some? then Valid(CreateRequest(title.value, description.value))
      else
        var ok := [title.Some?, description.Some?];
        assert !ok[0] || !ok[1];
        Invalid(Failing(["title", "description"], ok))
    case _ => Invalid([WholeBody])
  }

  /** `TaskUpdateRequest`: as for create, and a required lax `completed`. */
  function DecodeUpdate(body: JsValue): (r: Decoded<UpdateRequest>)
    ensures r.Valid? <==>
      && body.Obj? && TitleJson(FieldOf(body.fields, "title"))
      && DescriptionJson(FieldOf(body.fields, "description"))
      && LaxBool(FieldOf(body.fields, "completed")).Some?
    ensures r.Valid? ==>
      && Str(r.value.title) == FieldOf(body.fields, "title")
      && r.value.description == DescriptionOf(FieldOf(body.fields, "description"))
      && Some(r.value.completed) == LaxBool(FieldOf(body.fields, "completed"))
      && ValidTitle(r.value.title) && ValidDescription(r.value.description)
    ensures r.Invalid? ==> |r.locs| > 0
    ensures !body.Obj? ==> r == Invalid([WholeBody])
  {
    match body
    case Obj(f) =>
      var title := StrField(f, "title", 1, TitleMax);
      var description := OptStrField(f, "description", DescriptionMax);
      var completed := BoolField(f, "completed");
      if title.Some? && description.Some? && completed.Some? then
        Valid(UpdateRequest(title.value, description.value, completed.value))
      else
        var ok := [title.Some?, description.Some?, completed.Some?];
        assert !ok[0] || !ok[1] || !ok[2];
        Invalid(Failing(["title", "description", "completed"], ok))
    case _ => Invalid([WholeBody])
  }

  /** `TaskPatchRequest`: only a required lax `completed`. */
  function DecodePatch(body: JsValue): (r: Decoded<PatchRequest>)
    ensures r.Valid? <==> body.Obj? && LaxBool(FieldOf(body.fields, "completed")).Some?
    ensures r.Valid? ==> Some(r.value.completed) == LaxBool(FieldOf(body.fields, "completed"))
    ensures r.Invalid? ==> |r.locs| > 0
    ensures !body.Obj? ==> r == Invalid([WholeBody])
  {
    match body
    case Obj(f) =>
      (match BoolField(f, "completed")
       case Some(c) => Valid(PatchRequest(c))
       case None => Invalid([BodyLoc("completed")]))
    case _ => Invalid([WholeBody])
  }

  // ---------------------------------------------------------------------
  // Request bodies as a client writes them
  // ---------------------------------------------------------------------

  function DescriptionValue(description: Option<string>): JsValue {
    if description.Some? then Str(description.value) else Null
  }

  function CreateJson(req: CreateRequest): JsValue {
    Obj(map["title" := Str(req.title), "description" := DescriptionValue(req.description)])
  }

  function UpdateJson(req: UpdateRequest): JsValue {
    Obj(map["title" := Str(req.title), "description" := DescriptionValue(req.description),
            "completed" := Bool(req.completed)])
  }

  function PatchJson(req: PatchRequest): JsValue {
    Obj(map["completed" := Bool(req.completed)])
  }

  /** A valid create request survives writing it as JSON and reading it back;
      an invalid one is refused. */
  lemma CreateRoundTrip(req: CreateRequest)
    ensures DecodeCreate(CreateJson(req)).Valid? <==> ValidTitle(req.title) && ValidDescription(req.description)
    ensures ValidTitle(req.title) && ValidDescription(req.description) ==> DecodeCreate(CreateJson(req)) == Valid(req)
  {
  }

  lemma UpdateRoundTrip(req: UpdateRequest)
    ensures DecodeUpdate(UpdateJson(req)).Valid? <==> ValidTitle(req.title) && ValidDescription(req.description)
    ensures ValidTitle(req.title) && ValidDescription(req.description) ==> DecodeUpdate(UpdateJson(req)) == Valid(req)
  {
  }

  lemma PatchRoundTrip(req: PatchRequest)
    ensures DecodePatch(PatchJson(req)) == Valid(req)
  {
  }

  /** An update request has no default for `completed`: a body without it is
      refused even when title and description are fine. */
  lemma UpdateNeedsCompleted(title: string)
    requires ValidTitle(title)
    ensures DecodeUpdate(Obj(map["title" := Str(title)])) == Invalid([BodyLoc("completed")])
  {
    var f := map["title" := Str(title)];
    assert StrField(f, "title", 1, TitleMax) == Some(title);
    assert OptStrField(f, "description", DescriptionMax) == Some(None);
    assert BoolField(f, "completed") == None;
    OnlyFailure(["title", "description", "completed"], [true, true, false], 2);
  }

  // ---------------------------------------------------------------------
  // Responses
  // ---------------------------------------------------------------------

  /** `TaskResponse`: a stored task as the client receives it. */
  datatype TaskResponse = TaskResponse(id: int, userId: string, title: string, description: Option<string>,
                                       completed: bool, createdAt: string, updatedAt: string)

  function TaskResponseJson(t: TaskResponse): (j: JsValue)
    ensures j.Obj?
  {
    Obj(map["id" := Num(t.id), "user_id" := Str(t.userId), "title" := Str(t.title),
            "description" := DescriptionValue(t.description), "completed" := Bool(t.completed),
            "created_at" := Str(t.createdAt), "updated_at" := Str(t.updatedAt)])
  }

  /** `TaskListResponse`: the tasks, in order, under the single key `tasks`. */
  function TaskListJson(ts: seq<TaskResponse>): (j: JsValue)
    ensures j.Obj? && j.fields.Keys == {"tasks"} && j.fields["tasks"].Arr?
    ensures |j.fields["tasks"].items| == |ts|
    ensures forall i :: 0 <= i < |ts| ==> j.fields["tasks"].items[i] == TaskResponseJson(ts[i])
  {
    Obj(map["tasks" := Arr(seq(|ts|, i requires 0 <= i < |ts| => TaskResponseJson(ts[i])))])
  }
}

=== FILE: text.dfy ===
/**
 * Character- and string-level operations that the JavaScript and Python
 * sources rely on: white-space trimming with each language's notion of
 * white space, ASCII lower-casing, decimal rendering and Python's `int()`
 * parser, prefix tests and Python's `str.replace(pattern, "")`.
 */
module Text {
  import opened Common

  // ---------------------------------------------------------------------
  // White space
  // ---------------------------------------------------------------------

  /** White space as ECMAScript defines it for `\s` and `String.prototype.trim`
      (its WhiteSpace and LineTerminator productions). */
  predicate IsJsSpace(c: char) {
    c == '\t' || c == '\n' || c == '\U{000B}' || c == '\U{000C}' || c == '\r' || c == ' '
    || c == '\U{00A0}' || c == '\U{1680}' || ('\U{2000}' <= c <= '\U{200A}')
    || c == '\U{2028}' || c == '\U{2029}' || c == '\U{202F}' || c == '\U{205F}'
    || c == '\U{3000}' || c == '\U{FEFF}'
  }

  /** White space as Python's `str.strip()` (no argument) and `str.isspace` see it. */
  predicate IsPySpace(c: char) {
    ('\t' <= c <= '\r') || ('\U{001C}' <= c <= '\U{001F}') || c == ' ' || c == '\U{0085}'
    || c == '\U{00A0}' || c == '\U{1680}' || ('\U{2000}' <= c <= '\U{200A}')
    || c == '\U{2028}' || c == '\U{2029}' || c == '\U{202F}' || c == '\U{205F}'
    || c == '\U{3000}'
  }

  /** White space as `int()` skips it around a number: CPython turns every
      non-ASCII white-space character into a space but then skips only the
      C locale's ASCII white space, so the separators U+001C to U+001F, which
      `str.strip()` removes, are not skipped. */
  predicate IsIntSpace(c: char) {
    IsPySpace(c) && !('\U{001C}' <= c <= '\U{001F}')
  }

  /** Every character of `s` satisfies `p`. */
  predicate All(s: string, p: char -> bool) {
    forall i :: 0 <= i < |s| ==> p(s[i])
  }

  /** No character of `s` satisfies `p`. */
  predicate NoneOf(s: string, p: char -> bool) {
    forall i :: 0 <= i < |s| ==> !p(s[i])
  }

  /** Every character of `s` at an index in `[lo, hi)` satisfies `p`. */
  predicate AllBetween(s: string, lo: int, hi: int, p: char -> bool) {
    forall k :: 0 <= lo <= k < hi <= |s| ==> p(s[k])
  }

  /** The first index at or after `i` whose character is not white space
      (`|s|` if there is none). */
  function SkipSpace(s: string, space: char -> bool, i: nat): (k: nat)
    requires i <= |s|
    ensures i <= k <= |s| && AllBetween(s, i, k, space)
    ensures k == |s| || !space(s[k])
    decreases |s| - i
  {
    if i < |s| && space(s[i]) then SkipSpace(s, space, i + 1) else i
  }

  /** The smallest index `k` in `[lo, j]` such that `s[k..j]` is all white space. */
  function BackSpace(s: string, space: char -> bool, lo: nat, j: nat): (k: nat)
    requires lo <= j <= |s|
    ensures lo <= k <= j && AllBetween(s, k, j, space)
    ensures k == lo || !space(s[k - 1])
    decreases j
  {
    if j > lo && space(s[j - 1]) then BackSpace(s, space, lo, j - 1) else j
  }

  /** Where the core of `s` starts: after its leading white space. */
  function TrimFrom(s: string, space: char -> bool): nat {
    SkipSpace(s, space, 0)
  }

  /** `s` is white space, then `r` from index `i`, then white space, and `r`
      neither starts nor ends with white space. */
  predicate CutAt(s: string, space: char -> bool, i: int, r: string) {
    && 0 <= i <= |s| - |r| && s[i..i + |r|] == r
    && AllBetween(s, 0, i, space) && AllBetween(s, i + |r|, |s|, space)
    && (r == [] || (!space(r[0]) && !space(r[|r| - 1])))
  }

  /** `s` without leading and trailing white space: JavaScript's `trim()` with
      `IsJsSpace`, Python's `strip()` with `IsPySpace`. */
  function Trim(s: string, space: char -> bool): (r: string)
    ensures CutAt(s, space, TrimFrom(s, space), r)
  {
    var i := TrimFrom(s, space);
    var j := BackSpace(s, space, i, |s|);
    assert j > i ==> s[i..j][0] == s[i] && s[i..j][j - i - 1] == s[j - 1];
    s[i..j]
  }

  /** `SkipSpace` stops at the first character that is not white space. */
  lemma {:induction false} SkipSpaceAt(s: string, space: char -> bool, i: nat, k: nat)
    requires i <= k <= |s| && AllBetween(s, i, k, space)
    requires k == |s| || !space(s[k])
    ensures SkipSpace(s, space, i) == k
    decreases k - i
  {
    if i < k {
      SkipSpaceAt(s, space, i + 1, k);
    }
  }

  /** `BackSpace` stops after the last character that is not white space. */
  lemma {:induction false} BackSpaceAt(s: string, space: char -> bool, lo: nat, j: nat, k: nat)
    requires lo <= k <= j <= |s| && AllBetween(s, k, j, space)
    requires k == lo || !space(s[k - 1])
    ensures BackSpace(s, space, lo, j) == k
    decreases j
  {
    if k < j {
      BackSpaceAt(s, space, lo, j - 1, k);
    }
  }

  /** The core of `Trim` is unique: any cut of `s` into white space, a core
      that neither starts nor ends with white space, and white space, has
      `Trim(s)` as its core. */
  lemma TrimUnique(s: string, space: char -> bool, i: nat, j: nat)
    requires i <= j <= |s|
    requires AllBetween(s, 0, i, space) && AllBetween(s, j, |s|, space)
    requires i == j || (!space(s[i]) && !space(s[j - 1]))
    ensures Trim(s, space) == s[i..j]
  {
    if i < j {
      SkipSpaceAt(s, space, 0, i);
      BackSpaceAt(s, space, i, |s|, j);
    } else {
      SkipSpaceAt(s, space, 0, |s|);
      BackSpaceAt(s, space, |s|, |s|, |s|);
    }
  }

  /** Trimming cuts `s` into white space, a core, and white space, where the
      core neither starts nor ends with white space. */
  lemma TrimShape(s: string, space: char -> bool)
    ensures exists i :: CutAt(s, space, i, Trim(s, space))
  {
    assert CutAt(s, space, TrimFrom(s, space), Trim(s, space));
  }

  /** Trimming twice is the same as trimming once. */
  lemma TrimIdempotent(s: string, space: char -> bool)
    ensures Trim(Trim(s, space), space) == Trim(s, space)
  {
    var r := Trim(s, space);
    TrimUnique(r, space, 0, |r|);
    assert r[0..|r|] == r;
  }

  /** The trimmed string is empty exactly when every character is white space. */
  lemma TrimEmptyIff(s: string, space: char -> bool)
    ensures Trim(s, space) == [] <==> All(s, space)
  {
    var r := Trim(s, space);
    var i := TrimFrom(s, space);
    if r != [] {
      assert s[i] == r[0];
    } else {
      assert AllBetween(s, 0, i, space) && AllBetween(s, i, |s|, space);
    }
  }

  /** A string with no white space is its own trim. */
  lemma TrimNoSpace(s: string, space: char -> bool)
    requires NoneOf(s, space)
    ensures Trim(s, space) == s
  {
    TrimUnique(s, space, 0, |s|);
    assert s[0..|s|] == s;
  }

  // ---------------------------------------------------------------------
  // Case and prefixes
  // ---------------------------------------------------------------------

  /** Python's `str.lower()` restricted to ASCII letters. */
  function AsciiLowerChar(c: char): char {
    if 'A' <= c <= 'Z' then (c as int + 32) as char else c
  }

  function AsciiLower(s: string): (r: string)
    ensures |r| == |s|
    ensures forall i :: 0 <= i < |s| ==> r[i] == AsciiLowerChar(s[i])
  {
    seq(|s|, i requires 0 <= i < |s| => AsciiLowerChar(s[i]))
  }

  /** `s` begins with `p` (JavaScript `startsWith`, Python `startswith`). */
  predicate StartsWith(s: string, p: string) {
    |p| <= |s| && s[..|p|] == p
  }

  /** `pat` occurs in `s` at index `i`. */
  predicate OccursAt(s: string, pat: string, i: int) {
    0 <= i && i + |pat| <= |s| && s[i..i + |pat|] == pat
  }

  predicate Contains(s: string, pat: string) {
    exists i :: 0 <= i <= |s| && OccursAt(s, pat, i)
  }

  /** The index of the first `c` in `s`, or `|s|` when there is none. */
  function IndexOf(s: string, c: char): (k: nat)
    ensures k <= |s| && (k < |s| ==> s[k] == c)
    ensures forall j :: 0 <= j < k ==> s[j] != c
  {
    if |s| == 0 then 0
    else if s[0] == c then 0
    else 1 + IndexOf(s[1..], c)
  }

  /** Python's `s.replace(pat, "")` for a non-empty pattern: scanning from the
      left, every non-overlapping occurrence of `pat` is deleted. */
  function RemoveAll(s: string, pat: string): (r: string)
    requires |pat| > 0
    decreases |s|
  {
    if |s| < |pat| then s
    else if s[..|pat|] == pat then RemoveAll(s[|pat|..], pat)
    else [s[0]] + RemoveAll(s[1..], pat)
  }

  /** Without an occurrence of the pattern, removal changes nothing. */
  lemma {:induction false} RemoveAllAbsent(s: string, pat: string)
    requires |pat| > 0 && !Contains(s, pat)
    ensures RemoveAll(s, pat) == s
    decreases |s|
  {
    if |s| < |pat| {
    } else {
      assert !OccursAt(s, pat, 0);
      assert !Contains(s[1..], pat) by {
        forall i | OccursAt(s[1..], pat, i) ensures false {
          assert s[1..][i..i + |pat|] == s[i + 1..i + 1 + |pat|];
          assert OccursAt(s, pat, i + 1);
        }
      }
      RemoveAllAbsent(s[1..], pat);
      assert s == [s[0]] + s[1..];
    }
  }

  /** Removal never lengthens a string. */
  lemma {:induction false} RemoveAllShorter(s: string, pat: string)
    requires |pat| > 0
    ensures |RemoveAll(s, pat)| <= |s|
    decreases |s|
  {
    if |s| < |pat| {
    } else if s[..|pat|] == pat {
      RemoveAllShorter(s[|pat|..], pat);
    } else {
      RemoveAllShorter(s[1..], pat);
    }
  }

  // ---------------------------------------------------------------------
  // Decimal numbers
  // ---------------------------------------------------------------------

  predicate IsDigit(c: char) {
    '0' <= c <= '9'
  }

  function DigitChar(d: nat): (c: char)
    requires d < 10
    ensures IsDigit(c)
  {
    (48 + d) as char
  }

  /** The value of a string of ASCII digits, most significant first. */
  function DigitsValue(ds: string): nat
    requires All(ds, IsDigit)
  {
    if |ds| == 0 then 0
    else 10 * DigitsValue(ds[..|ds| - 1]) + (ds[|ds| - 1] as int - 48)
  }

  /** The shortest decimal rendering of `n` (JavaScript's `String(n)` and
      Python's `str(n)` on integers). */
  function NatToDecimal(n: nat): (r: string)
    ensures |r| >= 1 && All(r, IsDigit)
    ensures r[0] != '0' || n == 0
    decreases n
  {
    if n < 10 then [DigitChar(n)] else NatToDecimal(n / 10) + [DigitChar(n % 10)]
  }

  function IntToDecimal(n: int): (r: string)
    ensures |r| >= 1
  {
    if n < 0 then "-" + NatToDecimal(-n) else NatToDecimal(n)
  }

  /** Reading back a rendered number gives the number. */
  lemma {:induction false} DigitsValueOfDecimal(n: nat)
    ensures DigitsValue(NatToDecimal(n)) == n
    decreases n
  {
    if n >= 10 {
      var ds := NatToDecimal(n);
      assert ds[..|ds| - 1] == NatToDecimal(n / 10);
      DigitsValueOfDecimal(n / 10);
    }
  }

  /** Distinct numbers render differently. */
  lemma DecimalInjective(m: int, n: int)
    requires IntToDecimal(m) == IntToDecimal(n)
    ensures m == n
  {
    var sm, sn := IntToDecimal(m), IntToDecimal(n);
    assert (m < 0) == (sm[0] == '-');
    assert (n < 0) == (sn[0] == '-');
    var am: nat := if m < 0 then -m else m;
    var an: nat := if n < 0 then -n else n;
    assert NatToDecimal(am) == NatToDecimal(an) by {
      if m < 0 { assert sm[1..] == NatToDecimal(am) && sn[1..] == NatToDecimal(an); }
    }
    DigitsValueOfDecimal(am);
    DigitsValueOfDecimal(an);
  }

  /** Digits with single underscores between them: Python's grammar for the
      body of a decimal integer literal as `int()` accepts it. */
  predicate WellGrouped(s: string) {
    && |s| > 0 && IsDigit(s[0]) && IsDigit(s[|s| - 1])
    && (forall i :: 0 <= i < |s| ==> IsDigit(s[i]) || s[i] == '_')
    && (forall i :: 0 <= i < |s| - 1 ==> s[i] != '_' || s[i + 1] != '_')
  }

  function WithoutUnderscores(s: string): (r: string)
    ensures (forall i :: 0 <= i < |s| ==> IsDigit(s[i]) || s[i] == '_') ==> All(r, IsDigit)
    ensures All(s, IsDigit) ==> r == s
  {
    if |s| == 0 then []
    else (if s[0] == '_' then [] else [s[0]]) + WithoutUnderscores(s[1..])
  }

  /** Python's `int(s)` in base 10, for ASCII digits: surrounding white space
      (`IsIntSpace`) is ignored, one optional sign, then underscore-grouped
      digits; anything else is a `ValueError`, here `None`. */
  function ParsePyInt(s: string): Option<int> {
    ParseSigned(Trim(s, IsIntSpace))
  }

  /** An optional sign followed by a well-grouped body. */
  function ParseSigned(t: string): Option<int> {
    if |t| > 0 && (t[0] == '-' || t[0] == '+') then
      match ParseGroups(t[1..])
      case Some(v) => Some(if t[0] == '-' then -v else v)
      case None => None
    else ParseGroups(t)
  }

  /** `sys.int_info.default_max_str_digits`: since Python 3.11, `int()` of a
      decimal string with more digits than this (underscores not counted,
      leading zeros counted) raises `ValueError`. */
  const MaxStrDigits := 4300

  function ParseGroups(body: string): Option<int> {
    if WellGrouped(body) && |WithoutUnderscores(body)| <= MaxStrDigits then Some(DigitsValue(WithoutUnderscores(body)))
    else None
  }

  /** The number of decimal digits of `n`, sign not counted. */
  function DigitCount(n: int): nat {
    |NatToDecimal(if n < 0 then -n else n)|
  }

  /** A plain run of more than `MaxStrDigits` digits is refused, whatever
      its value: `"0" * 4300 + "1"` is a `ValueError`, not 1. */
  lemma TooManyDigitsRefused(s: string)
    requires |s| > MaxStrDigits && All(s, IsDigit)
    ensures ParsePyInt(s).None?
  {
    assert NoneOf(s, IsIntSpace) by {
      forall i | 0 <= i < |s| ensures !IsIntSpace(s[i]) {
        assert IsDigit(s[i]);
      }
    }
    TrimNoSpace(s, IsIntSpace);
    assert IsDigit(s[0]);
  }

  /** A rendered integer holds no white space. */
  lemma DecimalHasNoSpace(n: int)
    ensures NoneOf(IntToDecimal(n), IsIntSpace)
  {
    var s := IntToDecimal(n);
    if n < 0 {
      var d := NatToDecimal(-n);
      assert forall k :: 1 <= k < |s| ==> s[k] == d[k - 1];
    }
  }

  /** A rendered natural number is a well-grouped body whose value is the number. */
  lemma DecimalBody(m: nat)
    ensures WellGrouped(NatToDecimal(m))
    ensures DigitsValue(WithoutUnderscores(NatToDecimal(m))) == m
  {
    DigitsValueOfDecimal(m);
  }

  /** Python's `int(str(n)) == n`: parsing a rendered integer gives it back,
      within the digit limit. */
  lemma ParseRendered(n: int)
    requires DigitCount(n) <= MaxStrDigits
    ensures ParsePyInt(IntToDecimal(n)) == Some(n)
  {
    var s := IntToDecimal(n);
    DecimalHasNoSpace(n);
    TrimNoSpace(s, IsIntSpace);
    assert ParsePyInt(s) == ParseSigned(s);
    ParseSignedRendered(n);
  }

  lemma ParseSignedRendered(n: int)
    requires DigitCount(n) <= MaxStrDigits
    ensures ParseSigned(IntToDecimal(n)) == Some(n)
  {
    var s := IntToDecimal(n);
    var m: nat := if n < 0 then -n else n;
    var body := NatToDecimal(m);
    DecimalBody(m);
    assert ParseGroups(body) == Some(m);
    if n < 0 {
      assert s[1..] == body;
    } else {
      assert IsDigit(s[0]);
    }
  }
}
